=== FILE: README.md ===
# BEC-Github submission portal — a Dafny model

BEC-Github is a web portal. Contributors fill in forms for events, newsletters,
professors, projects and tutorials. The portal turns each submission into YAML
files in a staging folder, then into a branch, a commit and a draft pull
request against the shared content repository. Contributors can also load an
existing content file, edit its fields and send it back as a "Modifying" pull
request.

This project models the portal's deterministic core and proves properties of
it.

- **Backend handlers** (`Remote`, `BranchManagement`, `PrManagement`,
  `GithubManage`):
  - `/create-branch` and `/commit-folder`;
  - the `createPR` orchestration and its open-pull-request quota;
  - the fork/sync state machine behind `/forks`.

  These run as ordered step sequences over an abstract hosting platform:
  refs, commits, trees, blobs, repositories and pull requests. Every request
  is appended to a call log. The verdict for the n-th request of a run comes
  from an oracle sequence, so every failure path is reachable.
- **Pure helpers** (`PathUtils`, `RemotePaths`, `DirManager`):
  - the URL parser `extractPathFromUrl`;
  - the category-to-prefix table;
  - the staging-folder helpers, over a file system given as a set of paths.
- **Record builders** (`ResourceParser`, `EditedResourceParser`, with the
  shared `Records` and `Values`): the YAML records of the new-resource and
  edited-resource parsers, with JavaScript truthiness, `filter(Boolean)`,
  conditional spreads and undefined entries dropped by serialisation.
- **Client-side logic:**
  - `EditResource`: category sniffing, the nested field update, the text-area
    encoding of arrays, the send payload and the page state;
  - `ProjectForm`: the form and its multipart encoding;
  - `TutorialForm`: step edits, tags and the Markdown preview;
  - `DashboardView`: the pull-request filter and its three sections.

Shared modules:
- `Wrappers`: `Option`/`Result`.
- `Strings`: ASCII case mapping, search, split/join, trim and decimal numerals.
- `Values`: JSON/YAML values.

## Model

| member | source | states |
|---|---|---|
| DirManager.FolderPath | backend/src/utils/dirManager.ts:4-5 | the staging path is `temp/` followed by exactly the normalised name of the resource, one character per name character, and contains no space |
| DirManager.MkdirAll | backend/src/utils/dirManager.ts:8 | a recursive mkdir keeps every existing path and adds only the target and its ancestors |
| DirManager.CreateFolder | backend/src/utils/dirManager.ts:3-15 | a failed mkdir answers undefined and changes nothing; otherwise the folder and the staging root exist and its path is returned |
| DirManager.CreateChildFolder | backend/src/utils/dirManager.ts:17-28 | a failed mkdir answers 0 and changes nothing; otherwise `<parent>/assets` exists and is returned |
| DirManager.ChildImpliesParent | backend/src/utils/dirManager.ts:18-21 | creating the assets child also creates its parent folder |
| DirManager.DeleteFolder | backend/src/utils/dirManager.ts:30-33 | deleting a missing path throws; otherwise exactly the path and everything beneath it disappear |
| DirManager.CreateThenDelete | backend/src/utils/dirManager.ts:3-33 | deleting a freshly created staging folder succeeds, removes all of it, and keeps everything that lay outside it |
| RemotePaths.PrefixOf | backend/src/utils/remotePaths.ts:4-27 | a prefix exists exactly for the five named categories: `Events` → `events/`, `Newsletter` → `resources/newsletters/`, `Professor` → `professors/`, `Project` → `resources/projects/`, `Tutorial` → `tutorials/` |
| RemotePaths.GetRemotePath | backend/src/utils/remotePaths.ts:1-28 | the result is defined exactly when `resourceCategory` is one of the five categories, and then ends in `/` |
| RemotePaths.OnlyCategoryMatters | backend/src/utils/remotePaths.ts:2 | two requests that agree on `resourceCategory` get the same prefix, whatever else they hold |
| RemotePaths.PrefixDeterminesCategory | backend/src/utils/remotePaths.ts:6-20 | the table is one-to-one: equal defined prefixes come from the same category |
| PathUtils.BaseOf | backend/src/utils/pathUtils.ts:9-16 | the base is `/professor/` whenever present, else `/events/` whenever present, else `/resources/` |
| PathUtils.StripUuid | backend/src/utils/pathUtils.ts:44-49 | only a trailing `-` plus lower-case 8-4-4-4-12 UUID is removed, and at most one |
| PathUtils.StripUuidAppended | backend/src/utils/pathUtils.ts:44-49 | a slug with a UUID appended gets exactly that UUID removed, even when the slug itself ends in one |
| PathUtils.ContentPath | backend/src/utils/pathUtils.ts:54-66 | the four known types give a `.yml` path; any other type fails with `Unknown resource type` naming it |
| PathUtils.TypeAndSlug | backend/src/utils/pathUtils.ts:28-36 | a professor or event base fixes the type and takes the whole remainder as the slug |
| PathUtils.ExtractPath | backend/src/utils/pathUtils.ts:4-67 | every successful result names a YAML file; an unknown-type failure names a type outside the four |
| PathUtils.SplitStage | backend/src/utils/pathUtils.ts:19-23 | with the base occurring once, nothing after it is `Invalid URL`, and anything after it is parsed as the parts |
| PathUtils.NothingAfterBaseIsInvalid | backend/src/utils/pathUtils.ts:19-23 | a URL that ends right after its base segment is rejected with `Invalid URL` |
| PathUtils.TypeWithoutSlugIsIncomplete | backend/src/utils/pathUtils.ts:35-41 | `…/resources/<type>` without a slug is `Incomplete URL` (`Invalid URL` when the type is empty too) |
| PathUtils.EmptyTypeIsIncomplete | backend/src/utils/pathUtils.ts:35-41 | `…/resources//<rest>` has an empty type and is `Incomplete URL` |
| PathUtils.ProfessorParts | backend/src/utils/pathUtils.ts:28-60 | the parts of a professor URL give `professors/<name>/professor.yml` with the UUID removed |
| PathUtils.ResourceParts | backend/src/utils/pathUtils.ts:35-58 | the parts `<type>/<name><uuid>` give the content path of the type with the UUID removed |
| PathUtils.IgnoresQueryAndFragment | backend/src/utils/pathUtils.ts:5-6 | everything from the first `#` or `?` onward does not affect the result |
| PathUtils.CleaningIdempotent | backend/src/utils/pathUtils.ts:6 | stripping query and fragment before parsing changes nothing |
| PathUtils.MissingBaseIsInvalid | backend/src/utils/pathUtils.ts:14-23 | a URL with none of the three base segments is rejected with `Invalid URL` |
| PathUtils.ProfessorBaseFirst | backend/src/utils/pathUtils.ts:9-11 | a URL with a professor segment yields a `professors/` path or `Invalid URL`, whatever other segments it holds |
| PathUtils.ProfessorUrl | backend/src/utils/pathUtils.ts:28-60 | a professor page URL maps to `professors/<name>/professor.yml` with its UUID removed |
| PathUtils.EventUrl | backend/src/utils/pathUtils.ts:31-62 | an event page URL maps to `events/<slug>/event.yml` with the slug kept whole |
| PathUtils.ResourceTypeAndSlug | backend/src/utils/pathUtils.ts:35 | under `/resources/` the type and slug are the first two `/`-separated components |
| PathUtils.ResourceUrl | backend/src/utils/pathUtils.ts:34-66 | a resources page URL maps to the content path of its type with the UUID removed |
| Strings.ToLower | backend/src/utils/dirManager.ts:4 | lower-casing keeps the length and maps each character on its own, leaving no upper-case letter |
| Strings.ToUpper | backend/src/prManagement.ts:5 | upper-casing keeps the length and maps each character on its own, leaving no lower-case letter |
| Strings.LowerChar | backend/src/utils/dirManager.ts:4 | an upper-case ASCII letter becomes the lower-case letter at the same alphabet position; every other character is kept |
| Strings.Slugify | backend/src/utils/dirManager.ts:4 | position by position, a space becomes `-` and any other character is lower-cased; so the same length, no space and no upper-case letter |
| Strings.SlugifyIdempotent | backend/src/prManagement.ts:76 | normalising an already normalised name changes nothing |
| Strings.ReplaceFirst | backend/src/branchManagement.ts:136 | a non-global replace changes nothing when the pattern is absent and otherwise rewrites only its first occurrence |
| Strings.SplitChar | editResource.tsx:172 | a split yields at least one piece, and no piece holds the separator |
| Strings.SplitJoin | editResource.tsx:170-172 | splitting a joined non-empty list whose elements lack the separator gives the list back |
| Strings.JoinSplit | editResource.tsx:170-172 | joining the pieces of a split gives the text back |
| Strings.SplitOn | backend/src/utils/pathUtils.ts:19 | a split on a multi-character separator has a second piece exactly when the separator occurs; without it the text is the only piece, with it the first piece is the text before the first occurrence; no piece holds the separator |
| Strings.JoinSplitOn | backend/src/utils/pathUtils.ts:19 | joining the pieces back with the separator gives the text, so the split loses nothing |
| Strings.SplitOnSecond | backend/src/utils/pathUtils.ts:19 | `split(base)[1]` is the text after the first occurrence, cut at the next occurrence if there is one |
| Strings.CutAtAny | backend/src/utils/pathUtils.ts:6 | the first piece of a split on `#` or `?` is the longest prefix without either character |
| Strings.Trim | src/components/TutorialForm.tsx:51 | the result is the slice of the input that starts after its leading white space; only JavaScript white space lies before and after it, and neither end of it is white space |
| Strings.TrimIdempotent | src/components/TutorialForm.tsx:51 | trimming twice is trimming once |
| Strings.ParseIndexOfNatToString | editResource.tsx:189 | an array index printed as a key reads back as the same index |
| Strings.NatToStringOfParseIndex | editResource.tsx:189 | a key that reads as an index prints back as the same key, so keys and indices correspond one to one |
| Values.Compact | backend/src/utils/resourceParser.ts:37 | `filter(Boolean)` keeps as many entries as are truthy, and only truthy ones |
| Values.CompactMembers | backend/src/utils/resourceParser.ts:116 | every truthy entry survives compaction, and nothing else appears |
| Values.CompactAppend | backend/src/utils/resourceParser.ts:154 | compaction works piece by piece, so the kept entries keep their order |
| Values.Truthy | backend/src/utils/resourceParser.ts:37 | a defined value is falsy exactly when it is the empty string, zero, `false` or `null` |
| Values.IntToString | editResource.tsx:194 | an integer prints as digits, with a leading minus sign exactly when it is negative |
| Values.ToText | editResource.tsx:194 | `String(v)`: a string is itself, a boolean `true`/`false`, null `null`, an object `[object Object]`, an empty array empty text, and a one-element array its element's text, empty for null |
| Records.Build | backend/src/utils/resourceParser.ts:117-126 | a serialised literal holds exactly its defined entries, with their values |
| Records.Interpolate | backend/src/utils/resourceParser.ts:78 | interpolating a string gives it back, and an undefined value gives the text `undefined` |
| Records.At | backend/src/utils/resourceParser.ts:158 | indexing past the end of an array gives undefined |
| Records.Dispatch | backend/src/utils/resourceParser.ts:10-28 | a handler is chosen exactly for `Events`, `Newsletter`, `Professor` and `Project`, and it is the one whose case label matches |
| Records.WriteDocs | backend/src/utils/resourceParser.ts:137-138 | the writes succeed exactly when the folder exists, produce one file per document at `<dir>/<name>`, and add nothing else |
| BranchManagement.SyncBranch | backend/src/branchManagement.ts:15 | the base branch is `sync-repo-` followed by the owner |
| BranchManagement.LocalJoin | backend/src/branchManagement.ts:88 | the joined path is the directory, the platform separator, then the name; on Windows every `/` of the directory becomes `\` |
| BranchManagement.CreateBranch | backend/src/branchManagement.ts:13-49 | the base ref is read first; if that read fails no ref is created and the answer is 500; a 201 means exactly one new ref, at the base branch's sha |
| BranchManagement.RepoRelative | backend/src/branchManagement.ts:136 | the repository-relative path contains no backslash |
| BranchManagement.EntryPath | backend/src/branchManagement.ts:115 | every entry path starts with the remote path, and the rest contains no backslash |
| BranchManagement.SubdirFiles | backend/src/branchManagement.ts:91-119 | a subdirectory contributes one entry per regular file directly inside it |
| BranchManagement.WalkFolder | backend/src/branchManagement.ts:84-140 | every path the walk stages starts with the remote path |
| BranchManagement.WalkFolderCount | backend/src/branchManagement.ts:84-140 | the walk yields one entry per top-level file plus one per file directly inside each immediate subdirectory |
| BranchManagement.WalkIgnoresDeeperLevels | backend/src/branchManagement.ts:91-98 | removing everything below the immediate subdirectories does not change the walk |
| BranchManagement.WindowsEntryPath | backend/src/branchManagement.ts:88-136 | with Windows joins, a file of `temp/<slug>` lands at `<remotePath><slug>/<name>` |
| BranchManagement.PosixEntryPath | backend/src/branchManagement.ts:88-136 | with POSIX joins, `temp\` never matches, so the file lands at `<remotePath>temp/<slug>/<name>` |
| BranchManagement.UploadBlobs | backend/src/branchManagement.ts:94-139 | one blob per file in walk order; all succeed exactly when every upload is accepted; entries are mode `100644` blobs under their entry paths; refs, commits and trees are untouched |
| BranchManagement.UploadStoresContents | backend/src/branchManagement.ts:99-116 | existing blobs are kept, and each entry names a new blob holding exactly its file's content |
| BranchManagement.PublishTree | backend/src/branchManagement.ts:142-187 | on 201 only the topic ref moves, to a new commit with the given message and sole parent, whose tree is the entries over the base tree; on 500 no ref moves |
| BranchManagement.CommitFolder | backend/src/branchManagement.ts:51-194 | see the note below the table |
| PrManagement.BranchNameCreator | backend/src/prManagement.ts:75-78 | the branch is the owner, `-`, then exactly the normalised name, which has no space and no upper-case letter |
| PrManagement.BranchNameStable | backend/src/prManagement.ts:76 | feeding the normalised part back in gives the same branch name |
| PrManagement.BranchNameIgnoresCaseAndSpaces | backend/src/prManagement.ts:76 | names that differ only in letter case or in spaces versus hyphens give the same branch |
| PrManagement.UserOpenPrs | backend/src/prManagement.ts:16 | the counted pull requests are exactly the listed ones authored by the owner with state `open` |
| Remote.FirstPage | backend/src/prManagement.ts:10 | the listing answers at most 30 pull requests, the newest first |
| Remote.PageKeepsNewest | backend/src/prManagement.ts:10 | with 30 or more newer pull requests, the older ones never reach the page |
| Remote.SmallListingComplete | backend/src/prManagement.ts:10 | with 30 or fewer pull requests, the page holds every one of them |
| PrManagement.UserOpenPrsAppend | backend/src/prManagement.ts:16 | the count of a listing is the sum of the counts of its parts |
| PrManagement.NewPullCounts | backend/src/prManagement.ts:16-18 | one more open pull request by a user raises that user's count by one |
| PrManagement.PrTitle | backend/src/prManagement.ts:44 | the title is `[`, the upper-cased category, `]`, then `addOrMod`, a space and the name, with no space after `]` |
| PrManagement.PrTitleParse | backend/src/prManagement.ts:5-44 | for a category without `]`, the first `]` of the title is the one closing the category, so the title reads back |
| PrManagement.PrPayloadOf | backend/src/prManagement.ts:41-49 | the pull request is a draft from `<OWNER>:<branchName>` into `dev`, under the computed title |
| PrManagement.OpensDraft | backend/src/prManagement.ts:41-51 | an accepted creation appends exactly one open draft by the author to the stored pull requests, raising the author's count over the stored list by one |
| PrManagement.BranchStep | backend/src/prManagement.ts:19-27 | whatever becomes of it, the branch step starts with the base-ref read and opens no pull request |
| PrManagement.CommitStep | backend/src/prManagement.ts:29-37 | whatever becomes of it, the commit step starts with the base-ref read and opens no pull request |
| PrManagement.SubmissionSteps | backend/src/prManagement.ts:19-65 | all three steps run whatever the first two do; the last request is always the pull-request creation, and an accepted one opens the draft |
| PrManagement.CreatePR | backend/src/prManagement.ts:4-73 | only a failed listing escapes, with the wrapped message; at 15 or more open pull requests by the owner on the first page of the listing nothing but the listing is requested; under the quota the branch step and finally the pull-request creation follow |
| PrManagement.QuotaSeesOnlyFirstPage | backend/src/prManagement.ts:10-18 | when the 30 newest pull requests are all by other users, the owner counts zero open ones, however many older ones they have open |
| GithubManage.BranchLink | backend/src/githubManage.ts:140 | the answer is exactly `https://github.com/`, the login, `/BEC-Github/tree/`, then `sync-repo-<login>` |
| GithubManage.EnsureFork | backend/src/githubManage.ts:29-59 | a fork is requested exactly when the lookup answers 404; an existing fork passes; another failure throws `Error al verificar el fork: <message>` without a fork request; after a 404 the step succeeds exactly when the fork request does, and a refusal throws `Error al crear el fork: <message>`; an unanswered request throws its own error; success means the fork exists |
| GithubManage.SyncStep | backend/src/githubManage.ts:61-137 | an unanswered branch lookup throws its error; a found branch takes the upstream-`dev` path and any other answer the fork-`main` path; with every request accepted an existing branch is forced to upstream `dev` and a missing one is created at fork `main` |
| GithubManage.ForceToDev | backend/src/githubManage.ts:66-101 | upstream `dev` is read and the fork branch force-moved to it, never reading fork `main`; it succeeds exactly when both refs exist and both requests are accepted, and then only that ref moves; on failure no ref moves |
| GithubManage.CreateFromMain | backend/src/githubManage.ts:104-137 | fork `main` is read and the branch created at it, never moving a ref; an answered refusal is tolerated exactly when its message contains `Reference already exists`; an unanswered creation throws its error; with both requests accepted a missing branch is created |
| GithubManage.Forks | backend/src/githubManage.ts:17-149 | a fork-step or branch-step error gives 500 with `❌ Error: ` and exactly that step's message; a 200 has the branch link as body, the fork present, and the branch at upstream `dev`, at fork `main`, or untouched; with every request accepted an existing branch is forced to `dev` and a missing one created at `main` |
| ResourceParser.StageDocs | backend/src/utils/resourceParser.ts:56-60 | staging never removes a path, and a failed handler writes no file |
| ResourceParser.Stage | backend/src/utils/resourceParser.ts:31-70 | a handler whose records cannot be built, or whose folder name is not a string, leaves the file system as it was |
| ResourceParser.ResourceIdentifier | backend/src/utils/resourceParser.ts:10-28 | a category outside the four only logs and changes nothing; otherwise the matching handler runs |
| ResourceParser.DispatchCategories | backend/src/utils/resourceParser.ts:10-28 | exactly the four categories run a handler; `Tutorial` only logs |
| ResourceParser.EventRecord | backend/src/utils/resourceParser.ts:31-54 | an event record exists exactly when both dates format; it holds the formatted dates, the languages, `links` wrapping the website, the eight plain fields as the request carries them, and nothing else |
| ResourceParser.NewsletterRecord | backend/src/utils/resourceParser.ts:78-92 | the eight plain fields as the request carries them, `links` wrapping the website, the description as text plus `\n`, and nothing else |
| ResourceParser.ProfessorRecord | backend/src/utils/resourceParser.ts:116-126 | the five plain fields as given, the compacted `links`, `tips` exactly when `lightning_address` is truthy, `company` exactly when truthy, and nothing else |
| ResourceParser.ProjectRecord | backend/src/utils/resourceParser.ts:154-162 | the five plain fields as given, and `links` exactly when the `links[0 \|\| 1 \|\| 2 \|\| 3]` guard lets the slot object through; nothing else |
| ResourceParser.EventLanguagesInOrder | backend/src/utils/resourceParser.ts:37-48 | the event's `language` is language1 then language2, each kept only when truthy |
| ResourceParser.LanguagesInOrder | backend/src/utils/resourceParser.ts:37 | the compacted language list, entry by entry |
| ResourceParser.ProfessorLinksInOrder | backend/src/utils/resourceParser.ts:116-121 | the professor's `links` are twitter, github, website, nostr in that order, each kept only when truthy |
| ResourceParser.ProfessorOptionalFields | backend/src/utils/resourceParser.ts:122-123 | `tips` exists exactly when `lightning_address` is truthy and then wraps it; `company` exists exactly when truthy |
| ResourceParser.SecondEntryTruthy | backend/src/utils/resourceParser.ts:158 | in a compacted list, entry 1 is truthy exactly when the list has two entries |
| ResourceParser.ProjectLinksNeedTwo | backend/src/utils/resourceParser.ts:154-158 | the project's `links` exist exactly when at least two of the four link fields are truthy, because `0 \|\| 1 \|\| 2 \|\| 3` is 1 |
| ResourceParser.ProjectLinkSlots | backend/src/utils/resourceParser.ts:158 | when present, the slots are filled from the compacted list by position |
| ResourceParser.SlotsByPosition | backend/src/utils/resourceParser.ts:158 | slot i holds the i-th compacted link, and github and nostr exist only when there are that many links |
| ResourceParser.MissingWebsiteShifts | backend/src/utils/resourceParser.ts:154-158 | without a website, the twitter URL lands in `website` and the github URL in `twitter` |
| ResourceParser.ProfessorPlacement | backend/src/utils/resourceParser.ts:127-138 | `bio` and `short_bio` go to `en.yml` and never into `professor.yml` |
| ResourceParser.ProjectPlacement | backend/src/utils/resourceParser.ts:163-173 | the description goes to `<original_language>.yml` and never into `project.yml` |
| ResourceParser.NewsletterDescription | backend/src/utils/resourceParser.ts:78-89 | the description is the field's text plus `\n`, and `undefined\n` when missing |
| ResourceParser.StagedIntoFolder | backend/src/utils/resourceParser.ts:56-60 | a finished handler has made `temp/<slug>` and its `assets` child and written each document there |
| ResourceParser.UndefinedFolder | backend/src/utils/resourceParser.ts:56-60 | when the folder's mkdir fails but the child's succeeds, the documents land under `undefined/` |
| EditedResourceParser.IfTruthy | backend/src/utils/editedResourceParser.ts:118 | a conditional spread adds its entry exactly when the value is truthy, and then unchanged |
| EditedResourceParser.EventRecord | backend/src/utils/editedResourceParser.ts:31-50 | an edited event record exists exactly when both dates format; it holds the formatted dates and the ten other fields exactly as the request carries them, and nothing else |
| EditedResourceParser.NewsletterRecord | backend/src/utils/editedResourceParser.ts:75-87 | the nine plain fields as given, the description as text plus `\n`, and nothing else |
| EditedResourceParser.ProfessorRecord | backend/src/utils/editedResourceParser.ts:113-122 | the six plain fields as given, `tips` and `company` exactly when truthy and then as given, and nothing else |
| EditedResourceParser.ProjectOverlay | backend/src/utils/editedResourceParser.ts:148-157 | the seven plain fields as given, `links` exactly when truthy, and nothing else |
| EditedResourceParser.ProjectRecord | backend/src/utils/editedResourceParser.ts:158-162 | the three excluded keys never appear; every other request key does; overlay keys carry the overlay value and the others the request value |
| EditedResourceParser.SubmissionOf | backend/src/utils/editedResourceParser.ts:61-63 | branch and commit data share the request's user and token and one branch name, `<user>-` plus the normalised name; the commit carries the folder, the remote path, the name, the category and `Modifying` |
| EditedResourceParser.SubmitDocs | backend/src/utils/editedResourceParser.ts:52-70 | the steps after the record is built never lose a path unless the folder was deleted |
| EditedResourceParser.Submit | backend/src/utils/editedResourceParser.ts:31-71 | a handler whose record cannot be built, or whose name is not a string, submits nothing and changes nothing |
| EditedResourceParser.ResourceIdentifier | backend/src/utils/editedResourceParser.ts:10-28 | a category outside the four only logs; otherwise the matching handler runs |
| EditedResourceParser.SubmissionFields | backend/src/utils/editedResourceParser.ts:61-65 | every submission asks for a `Modifying` pull request in the request's category, on the branch named after the user and the resource |
| EditedResourceParser.SubmittedName | backend/src/utils/editedResourceParser.ts:89-98 | the folder and branch are named after `name`, except the newsletter's, which uses `title` |
| EditedResourceParser.BranchMatchesFolder | backend/src/utils/editedResourceParser.ts:52-61 | what follows `<user>-` in the branch is what follows `temp/` in the staging folder |
| EditedResourceParser.DeletedOnlyAfterSubmission | backend/src/utils/editedResourceParser.ts:52-70 | the folder is deleted only after `createPR` returned; then it and all beneath it are gone and nothing else changed |
| EditedResourceParser.ProjectMerge | backend/src/utils/editedResourceParser.ts:158-162 | the project file holds every request field except the three excluded ones, with `projectData` winning on shared keys |
| EditedResourceParser.OverlayKeys | backend/src/utils/editedResourceParser.ts:148-157 | `projectData` defines only its own eight keys |
| EditedResourceParser.FalsyProjectLinksKept | backend/src/utils/editedResourceParser.ts:152-162 | a falsy `links` is not overlaid, but the request's own value still reaches the file |
| EditedResourceParser.ProfessorOptionalFields | backend/src/utils/editedResourceParser.ts:118-119 | `tips` and `company` are written only when truthy, and then as given |
| EditedResourceParser.NewsletterDescription | backend/src/utils/editedResourceParser.ts:75-84 | the description is the field's text with a trailing `\n` |
| EditResource.GetResourceCategory | editResource.tsx:19-25 | the first of `newsletters`, `projects`, `events`, `professors` found anywhere in the path decides; none gives `undefined` |
| EditResource.ProfessorReadAsEvent | editResource.tsx:19-25 | the professor whose slug is `events` is filed under Events by the first-match test, and under Professor by the corrected one |
| EditResource.SniffCategory | editResource.tsx:19-25 | the category is read from the content directory the path starts with |
| EditResource.SniffContentPath | editResource.tsx:19-25 | every content path gets the category of its type, whatever its slug says |
| EditResource.ContainsTimeInfo | editResource.tsx:45-47 | true exactly when the text contains `T` or `:` |
| EditResource.Assign | editResource.tsx:101 | after an assignment the key holds the new value, and the container keeps its kind |
| EditResource.AssignOther | editResource.tsx:101 | an assignment leaves every other key of the container alone |
| EditResource.SetIn | editResource.tsx:95-103 | after a successful nested update the key path holds the new value |
| EditResource.SetInFrame | editResource.tsx:96-101 | every path that leaves the updated key path before its end reads the same as before |
| EditResource.HandleFieldChange | editResource.tsx:95-103 | an empty key path assigns the key `undefined`; otherwise the update is the nested one on the document |
| EditResource.FieldChangeEffect | editResource.tsx:95-103 | after the change the key path holds the value, and siblings at every level along it are untouched |
| EditResource.TextLines | editResource.tsx:172 | the edited text becomes at least one string, none holding a line break |
| EditResource.TextSurvives | editResource.tsx:170-173 | whatever is typed shows again after the round trip through the array |
| EditResource.LinesSurvive | editResource.tsx:161-173 | a non-empty primitive array without line breaks comes back with the same length, each element as its text |
| EditResource.EmptyArrayGainsLine | editResource.tsx:161-176 | an empty array is primitive, and once edited it becomes one empty string |
| EditResource.EditElement | editResource.tsx:196-197 | editing one element keeps the length, makes that element the typed text, and leaves every other element as it was |
| EditResource.ElementEditIsDeepUpdate | editResource.tsx:195-198 | storing the array with one element edited equals storing the text at the key path extended by the index |
| EditResource.SendPrecedence | editResource.tsx:232-237 | document keys override `resourceCategory`, and the stored user and token override the document |
| EditResource.Clear | editResource.tsx:257-264 | all six state fields are reset to empty |
| EditResource.AfterSend | editResource.tsx:240-250 | an accepted post clears the page; a failed post leaves it as it was |
| EditResource.HandleFetch | editResource.tsx:49-93 | missing credentials, a network error or a refusal only set the error: a refusal shows the server's message when it has one and `Error al cargar archivo.` otherwise; a loaded file sets content, path, the first-match category and the document, and an invalid document keeps the previous one |
| EditResource.HandleFetchSniffed | editResource.tsx:49-93 | the page with the corrected category test: a loaded file gets the category of its content directory, and in everything else the page equals `HandleFetch` |
| EditResource.LoadsAgreeOnPlainSlugs | editResource.tsx:19-75 | for a content path whose slug holds none of `newsletters`, `projects`, `events`, the page as written and the corrected page are equal |
| EditResource.FirstMatchAgreesOnPlainSlugs | editResource.tsx:19-25 | on such a path the first-match test and the content-directory test give the same category |
| EditResource.ProfessorEventsPageMisfiled | editResource.tsx:19-75 | loading `professors/events/professor.yml` files the page under `Events`, whose remote prefix is `events/`, while the corrected page files it under `Professor` |
| EditResource.PrefixMatchesContentPath | editResource.tsx:19-25 | the remote prefix of the corrected category of a content path is the start of that path |
| ProjectForm.EntryParts | src/components/ProjectForm.tsx:71-83 | an array `k` gives `k[i]` parts in order, an object gives `k.sub` parts, a file its own key, and null the text `null` |
| ProjectForm.Encode | src/components/ProjectForm.tsx:70-84 | the payload has one part per array item or group entry and one per other entry |
| ProjectForm.EncodeAppend | src/components/ProjectForm.tsx:70 | the encoding works entry by entry, keeping their order |
| ProjectForm.ItemKeyRoundTrip | src/components/ProjectForm.tsx:73 | an indexed key `k[i]` reads back as its array name and index |
| ProjectForm.Initial | src/components/ProjectForm.tsx:18-33 | a fresh form is a `Project` in `Education`, in `en`, with three empty tags and no thumbnail |
| ProjectForm.ContributorName | src/components/ProjectForm.tsx:35-42 | the stored user name when one is stored, `Unknown` otherwise, never empty |
| ProjectForm.HandleTagChange | src/components/ProjectForm.tsx:50-54 | only tag i changes, the tag count is kept, and nothing else in the form changes |
| ProjectForm.HandleLinkChange | src/components/ProjectForm.tsx:56-58 | exactly one link field changes, and nothing else in the form |
| ProjectForm.LinkKeys | src/components/ProjectForm.tsx:75-78 | `links` yields `links.website`, `links.twitter`, `links.github`, `links.nostr` |
| ProjectForm.ContributorParts | src/components/ProjectForm.tsx:63-67 | the tags are followed by `contributor_names[0]` and `submitted_by`, both the contributor |
| ProjectForm.PayloadKeys | src/components/ProjectForm.tsx:60-84 | the payload's keys, in order: eleven fixed keys, one indexed key per tag, then the contributor entries |
| ProjectForm.ThreeTagKeys | src/components/ProjectForm.tsx:32 | a fresh form, whatever tag is edited, always sends 16 parts |
| TutorialForm.Initial | src/components/TutorialForm.tsx:14-25 | the form opens in the first language and level, with one blank step, no tags and no cover |
| TutorialForm.HandleStepChange | src/components/TutorialForm.tsx:27-31 | only steps with the given identifier get the text; the list keeps its length |
| TutorialForm.HandleImageUpload | src/components/TutorialForm.tsx:33-40 | no file list changes nothing; otherwise only matching steps get the files |
| TutorialForm.AddStep | src/components/TutorialForm.tsx:42-44 | one blank step is appended, and the earlier steps are kept |
| TutorialForm.RemoveStep | src/components/TutorialForm.tsx:46-48 | the result holds exactly the steps with another identifier |
| TutorialForm.RemoveStepAppend | src/components/TutorialForm.tsx:47 | removal works piece by piece, so the kept steps keep their order |
| TutorialForm.RemoveAbsent | src/components/TutorialForm.tsx:47 | removing an identifier no step carries changes nothing |
| TutorialForm.RemoveAddedStep | src/components/TutorialForm.tsx:42-48 | removing a step just added under a fresh identifier restores the list |
| TutorialForm.EditsKeepIds | src/components/TutorialForm.tsx:27-40 | text and image edits keep every step's identifier and position |
| TutorialForm.HandleTagChange | src/components/TutorialForm.tsx:50-52 | one trimmed tag per comma-separated piece, never an empty list |
| TutorialForm.EmptyTagInput | src/components/TutorialForm.tsx:50-52 | an emptied input leaves one empty tag |
| TutorialForm.TagsRoundTrip | src/components/TutorialForm.tsx:111 | typing back the shown text gives the same tags, when they are trimmed, comma-free and at least one |
| TutorialForm.SectionsAppend | src/components/TutorialForm.tsx:56-57 | the sections of consecutive step lists are numbered consecutively |
| TutorialForm.AppendImageLines | src/components/TutorialForm.tsx:58-60 | step n with m images gets lines for `step-n-img-1` to `step-n-img-m`, in order |
| TutorialForm.AppendSections | src/components/TutorialForm.tsx:56-61 | the loop writes one section per step, numbered from 1, after the header |
| TutorialForm.GenerateMarkdown | src/components/TutorialForm.tsx:54-63 | the preview equals the reference definition: the header, then every step's section |
| TutorialForm.StepNumbering | src/components/TutorialForm.tsx:56-57 | step k is section k + 1, between the earlier and the later steps |
| TutorialForm.PreviewIgnores | src/components/TutorialForm.tsx:54-63 | the preview depends only on the title, the description, the step texts and the image counts |
| TutorialForm.AddStepSection | src/components/TutorialForm.tsx:42-63 | a new step adds an empty heading numbered after the last step |
| DashboardView.UserPullRequests | src/components/DashboardView.tsx:31 | exactly the pull requests whose author is the stored user; none when no user is stored |
| DashboardView.UserPullRequestsAppend | src/components/DashboardView.tsx:31 | the author filter works entry by entry: the result keeps the listing's order and every matching entry, duplicates included |
| DashboardView.Load | src/components/DashboardView.tsx:21-38 | a failed listing keeps the list; an answer replaces it with exactly the answered pull requests authored by the stored user, and none when no user is stored |
| DashboardView.LoadAppend | src/components/DashboardView.tsx:21-38 | an answered page is filtered part by part, so the stored list keeps the page's order |
| DashboardView.Listed | src/components/DashboardView.tsx:47-51 | a section lists exactly the pull requests passing its filter |
| DashboardView.ListedAppend | src/components/DashboardView.tsx:47-89 | each section's filter works entry by entry, so a section keeps the list's order and every matching entry |
| DashboardView.ShownOnlyAppend | src/components/DashboardView.tsx:47-89 | the open and closed pull requests are kept entry by entry, in list order |
| DashboardView.ShowsEmptyMessage | src/components/DashboardView.tsx:47-48 | the "none found" message shows exactly when no pull request passes the filter |
| DashboardView.OneSection | src/components/DashboardView.tsx:47-89 | the sections are pairwise disjoint, and a pull request is in one exactly when it is open or closed |
| DashboardView.SectionsPartition | src/components/DashboardView.tsx:47-89 | the three sections together are, as a multiset, the open and closed pull requests |
| DashboardView.PlaceholderShowsNothing | src/components/DashboardView.tsx:7-14 | before an answer arrives, every section shows its "none found" message |

`BranchManagement.CommitFolder` (backend/src/branchManagement.ts:51-194)
states the following:
- The first request is the read of `sync-repo-<OWNER>`. If that read fails,
  nothing else is requested and the answer is 500.
- A staging folder that cannot be listed (`folderPath` undefined or
  missing, so `readdirSync` throws) gives 500 after the two reads, before
  any upload.
- Any 500 leaves every ref where it was.
- A 201 means the folder was listed and only `branchName` moved. It moved to a new commit
  `Adding <resourceName>`, whose sole parent is the base tip. That commit's
  tree layers the walked files over the tip's tree, in walk order. Each entry
  is a `100644` blob holding its file's content.
- With every request accepted, the handler succeeds even for an empty
  folder.

## Left out

- Serialisation: `yaml.stringify` and `yaml.load` are not modelled.
  - A record is the object that gets serialised, and key order is not kept.
  - A loaded document is an input.
- Dates: `date-fns` `format`, `isValidDateString` and the date input
  formatters are not modelled. They depend on locale and timezone.
  - Date formatting is a parameter that may fail (`DateFormat`).
- Images: `imageManager` (sharp conversion) and image uploads are left out.
  File objects are modelled by their names.
- File system: I/O beyond the set of existing paths is left out.
  - File contents are opaque bytes.
  - The base64 versus utf-8 upload encodings are not distinguished.
- Web layer: Express routing and multer are left out, as are tokens and
  `Authorization` headers.
  - The account lookup of `/forks` is an input (`identity`).
- Timing and concurrency:
  - the fixed 3-second wait after a fork request is left out;
  - requests run strictly one after the other;
  - the parsers' handler promises are treated as run to completion.
- Platform errors: GitHub's own behaviour is abstracted to an oracle verdict
  per request. There are no conflict or fast-forward checks beyond what the
  handlers do.
  - A request that gets no answer (status 0) stands for `fetch` rejecting:
    the handler rethrows that error's own message.
- Pagination: the pull-request listing is GitHub's first page with its
  defaults, 30 entries, newest first (`Remote.FirstPage`). Query parameters
  other than `state=all` are not modelled.
- Letter case: `toLowerCase`, `toLocaleLowerCase` and `toUpperCase` are
  modelled for ASCII letters only.
- Generated values: `uuidv4` identifiers are parameters.
- Not in this code:
  - the new-resource parsers only log the remote path and never submit;
  - `createPR` inside the edited-resource parser is a returns/throws flag,
    modelled in full by `PrManagement.CreatePR`;
  - the staging walk is two levels deep, not recursive;
  - no step rejects an empty folder;
  - there is no promote-to-ready, branch deletion or branch listing.
- BranchManagement.PosixEntryPath: `temp\` is stripped only when the server
  joins paths with backslashes. On POSIX the committed path keeps `temp/`.
  Both cases are stated rather than one chosen.
- EditResource.SetIn: array elements are updated only at existing indices.
  An assignment past the end of an array (which would grow it) is treated as
  a failed update.
- ProjectForm.HandleTagChange: requires the index to be one of the existing
  tags. The tag inputs are rendered from the tags themselves, so no other
  index reaches it.
- BranchManagement.LocalJoin: `path.join` also normalises `.` and `..`
  segments and doubled separators; the model only places the separator.
  Entry names come from a directory listing and hold no separator, but the
  staging folder's slug is the resource name the user typed (only lower-cased,
  spaces turned into `-`), and `/commit-folder` takes `folderPath` as sent.
  A name such as `a/../b` or `x//y` therefore reaches `path.join`, and the
  committed paths the source would compute for it are not modelled.
- BranchManagement.CommitFolder: the listing of the staging folder is an
  input: either the nodes or "cannot be listed". A subfolder that cannot be
  listed, and a `statSync` failure, are not modelled separately.
- Values: numbers are integers. Floating-point values (`NaN`, fractions,
  exponent notation in `String(n)`) and `Date` values (editResource.tsx:107-108)
  are not modelled. The edit page's date inputs are left out with them.
- GithubManage.Forks: a failed account lookup and the `instanceof Error` test
  are not modelled separately. Every failure becomes status 500 with the
  error prefix.
- PrManagement.CreatePR: every listed pull request is taken to have an
  author. A pull request whose `user` is null (a deleted account) makes
  `pr.user.login` throw in the filter (backend/src/prManagement.ts:15), and the
  catch then rethrows with the listing-error prefix (prManagement.ts:70-72)
  although the listing was answered. The model does not promise that this
  case throws.
- PrManagement.PrTitle: `commitData.category` is taken to be a string. An
  undefined category, which makes `toUpperCase` throw before the listing, is
  not modelled.
- Remote.UpdateRefCall: moves a ref without checking fast-forward, whether
  or not `force` is set. The handlers never depend on the difference.
- DashboardView.Load: a `pr.user` of null and a non-array answer are both
  modelled as a failed listing.
  - Navigation and rendering are left out.
  - So are the token and repository constants (src/components/DashboardView.tsx:16-19).
- Not modelled in the forms:
  - `renderField`'s JSX;
  - `ProjectForm`'s generic `handleChange` (src/components/ProjectForm.tsx:44-48), a one-key update of the form;
  - the category, language and level option lists.
- Rest of the repository: the OAuth flow and session handling of the home
  page, the routes and pages, and the thin Octokit wrapper are not part of
  this model.

## Findings

| source | as written | input that shows it | evidently intended | confidence | as-written member | corrected member |
|---|---|---|---|---|---|---|
| editResource.tsx:19-25 | the category is the first of `newsletters`, `projects`, `events`, `professors` found anywhere in the file path, slug included | a professor whose slug is `events`: path `professors/events/professor.yml` is filed as `Events` | the category follows the content directory the path starts with, so that path is a `Professor` | not executed | EditResource.ProfessorReadAsEvent | EditResource.SniffContentPath |
| editResource.tsx:75 | the loaded page takes its category from the first-match test | loading `professors/events/professor.yml` sets the page's category to `Events`, whose remote prefix is `events/` | the page's category is `Professor`, matching the file it edits | not executed | EditResource.ProfessorEventsPageMisfiled | EditResource.HandleFetchSniffed |

`EditResource.HandleFetch` models the page as written, with the first-match
test. `EditResource.HandleFetchSniffed` is the corrected page, with the
content-directory test; `EditResource.LoadsAgreeOnPlainSlugs` shows the two
agree whenever the slug holds none of the category words.

=== FILE: branch_management.dfy ===
/**
 * The `/create-branch` and `/commit-folder` handlers: a topic branch is
 * created at the tip of the user's integration branch `sync-repo-<owner>`, and
 * the files of a staging folder are uploaded as blobs, layered as one tree over
 * the integration tip's tree, committed with that tip as sole parent, and the
 * topic branch is moved to the new commit. Each step stops the handler with
 * status 500 at the first non-ok response; success answers 201.
 */
module BranchManagement {
  import opened Wrappers
  import opened Strings
  import opened Remote

  /** The content repository, looked up under each user's account (their fork). */
  const ContentRepo: string := "bitcoin-educational-content"

  /** The per-user integration branch every topic branch starts from. */
  function SyncBranch(owner: string): (b: string)
    ensures |b| == 10 + |owner| && b[..10] == "sync-repo-" && b[10..] == owner
  {
    "sync-repo-" + owner
  }

  /** A handler's HTTP status together with the platform state and call log after it. */
  datatype Reply = Reply(env: Env, status: nat)

  // ---------------------------------------------------------------------------
  // /create-branch
  // ---------------------------------------------------------------------------

  /** `/create-branch` for `OWNER`, creating `refs/heads/<branchName>` in `OWNER`'s content repository. */
  method CreateBranch(env: Env, ok: Oracle, owner: string, branchName: string) returns (r: Reply)
    ensures r.status == 201 || r.status == 500
    ensures IsPrefix(env.log + [ReadRef(RefKey(RepoId(owner, ContentRepo), SyncBranch(owner)))], r.env.log)
    // a failed read of the base ref ends the handler: no ref is created
    ensures RefKey(RepoId(owner, ContentRepo), SyncBranch(owner)) !in env.store.refs || VerdictOf(ok, |env.log|).Reject? ==>
              r.status == 500 && r.env == Logged(env, ReadRef(RefKey(RepoId(owner, ContentRepo), SyncBranch(owner))))
    // success: the new ref points at exactly the integration branch's tip and nothing else changes
    ensures r.status == 201 ==>
              var base := RefKey(RepoId(owner, ContentRepo), SyncBranch(owner));
              var topic := RefKey(RepoId(owner, ContentRepo), branchName);
              && base in env.store.refs
              && topic !in env.store.refs
              && r.env.store == env.store.(refs := env.store.refs[topic := env.store.refs[base]])
    ensures r.status == 500 ==> r.env.store == env.store
  {
    var repo := RepoId(owner, ContentRepo);
    var read := ReadRefCall(env, ok, RefKey(repo, SyncBranch(owner)));
    PrefixSnoc(env.log, ReadRef(RefKey(repo, SyncBranch(owner))));
    if read.resp.NotOk? {
      return Reply(read.env, 500);
    }
    var created := CreateRefCall(read.env, ok, RefKey(repo, branchName), read.resp.value);
    PrefixSnoc(read.env.log, CreateRef(RefKey(repo, branchName), read.resp.value));
    if created.resp.NotOk? {
      return Reply(created.env, 500);
    }
    return Reply(created.env, 201);
  }

  // ---------------------------------------------------------------------------
  // The staging folder and the entry-path formula
  // ---------------------------------------------------------------------------

  /** A directory entry as `readdirSync` lists it and `statSync` classifies it. */
  datatype Node = File(name: string, content: Bytes) | Dir(name: string, children: seq<Node>)

  /** Which `path.join` the server runs with. */
  datatype JoinStyle = Posix | Windows

  /**
   * `path.join(dir, name)` for a directory-entry name: the platform separator
   * goes between them, and on Windows every `/` in `dir` becomes `\`.
   */
  function LocalJoin(style: JoinStyle, dir: string, name: string): (r: string)
    ensures |r| == |dir| + 1 + |name| && r[|dir| + 1..] == name
    ensures r[|dir|] == (if style.Posix? then '/' else '\\')
    ensures style.Posix? ==> r[..|dir|] == dir
    ensures style.Windows? ==> forall i :: 0 <= i < |dir| ==> r[i] == (if dir[i] == '/' then '\\' else dir[i])
  {
    match style
    case Posix => dir + "/" + name
    case Windows => ReplaceChar(dir, '/', '\\') + "\\" + name
  }

  /** `localPath.replace(/temp\\/, '').replace(/\\/g, '/')`. */
  function RepoRelative(localPath: string): (r: string)
    ensures '\\' !in r
  {
    ReplaceChar(ReplaceFirst(localPath, "temp\\", ""), '\\', '/')
  }

  /** The tree-entry path of a local path: the remote prefix, then the local path made repository-relative. */
  function EntryPath(remotePath: string, localPath: string): (r: string)
    ensures |remotePath| <= |r| && r[..|remotePath|] == remotePath
    ensures '\\' !in r[|remotePath|..]
  {
    var r := remotePath + RepoRelative(localPath);
    assert r[|remotePath|..] == RepoRelative(localPath);
    r
  }

  /** A file found by the walk, with the repository path it will be committed under. */
  datatype Staged = Staged(path: string, content: Bytes)

  /** Files directly inside a subdirectory whose own entry path is `dirPath`; deeper directories are skipped. */
  function SubdirFiles(dirPath: string, children: seq<Node>): (r: seq<Staged>)
    ensures |r| == FileCount(children)
    ensures forall k :: 0 <= k < |r| ==> StartsWith(r[k].path, dirPath + "/")
    decreases |children|
  {
    if |children| == 0 then []
    else
      var head := match children[0]
        case File(n, c) => [Staged(dirPath + "/" + n, c)]
        case Dir(_, _) => [];
      head + SubdirFiles(dirPath, children[1..])
  }

  /** What one top-level entry of the staging folder contributes. */
  function EntryFiles(style: JoinStyle, folderPath: string, remotePath: string, n: Node): (r: seq<Staged>)
    ensures forall k :: 0 <= k < |r| ==> StartsWith(r[k].path, remotePath)
  {
    match n
    case File(name, c) => [Staged(EntryPath(remotePath, LocalJoin(style, folderPath, name)), c)]
    case Dir(name, children) =>
      var dirPath := EntryPath(remotePath, LocalJoin(style, folderPath, name));
      var files := SubdirFiles(dirPath, children);
      assert forall k :: 0 <= k < |files| ==> StartsWith(files[k].path, remotePath) by {
        assert (dirPath + "/")[..|remotePath|] == dirPath[..|remotePath|];
        forall k | 0 <= k < |files|
          ensures StartsWith(files[k].path, remotePath)
        {
          StartsWithTrans(files[k].path, dirPath + "/", remotePath);
        }
      }
      files
  }

  /** The two-level walk of `/commit-folder`, in `readdirSync` order. */
  function WalkFolder(style: JoinStyle, folderPath: string, remotePath: string, nodes: seq<Node>): (r: seq<Staged>)
    ensures forall k :: 0 <= k < |r| ==> StartsWith(r[k].path, remotePath)
    decreases |nodes|
  {
    if |nodes| == 0 then []
    else EntryFiles(style, folderPath, remotePath, nodes[0]) + WalkFolder(style, folderPath, remotePath, nodes[1..])
  }

  /** The number of regular files directly in a listing. */
  function FileCount(nodes: seq<Node>): nat
    decreases |nodes|
  {
    if |nodes| == 0 then 0 else (if nodes[0].File? then 1 else 0) + FileCount(nodes[1..])
  }

  /** The number of regular files directly inside the immediate subdirectories of a listing. */
  function SubdirFileCount(nodes: seq<Node>): nat
    decreases |nodes|
  {
    if |nodes| == 0 then 0
    else (if nodes[0].Dir? then FileCount(nodes[0].children) else 0) + SubdirFileCount(nodes[1..])
  }

  /** One entry per top-level file plus one per file directly inside each immediate subdirectory. */
  lemma {:induction false} WalkFolderCount(style: JoinStyle, folderPath: string, remotePath: string, nodes: seq<Node>)
    ensures |WalkFolder(style, folderPath, remotePath, nodes)| == FileCount(nodes) + SubdirFileCount(nodes)
    decreases |nodes|
  {
    if |nodes| > 0 {
      WalkFolderCount(style, folderPath, remotePath, nodes[1..]);
    }
  }

  /** A listing with everything below the immediate subdirectories removed. */
  function Prune(nodes: seq<Node>): (r: seq<Node>)
    ensures |r| == |nodes|
  {
    seq(|nodes|, i requires 0 <= i < |nodes| =>
      match nodes[i]
      case File(_, _) => nodes[i]
      case Dir(n, children) => Dir(n, PruneChildren(children)))
  }

  function PruneChildren(children: seq<Node>): (r: seq<Node>)
    ensures |r| == |children|
  {
    seq(|children|, i requires 0 <= i < |children| =>
      match children[i]
      case File(_, _) => children[i]
      case Dir(n, _) => Dir(n, []))
  }

  lemma {:induction false} SubdirFilesPruned(dirPath: string, children: seq<Node>)
    ensures SubdirFiles(dirPath, PruneChildren(children)) == SubdirFiles(dirPath, children)
    decreases |children|
  {
    if |children| > 0 {
      assert PruneChildren(children)[1..] == PruneChildren(children[1..]);
      SubdirFilesPruned(dirPath, children[1..]);
    }
  }

  /** Directories two or more levels down contribute no entries. */
  lemma {:induction false} WalkIgnoresDeeperLevels(style: JoinStyle, folderPath: string, remotePath: string, nodes: seq<Node>)
    ensures WalkFolder(style, folderPath, remotePath, Prune(nodes)) == WalkFolder(style, folderPath, remotePath, nodes)
    decreases |nodes|
  {
    if |nodes| > 0 {
      assert Prune(nodes)[1..] == Prune(nodes[1..]);
      WalkIgnoresDeeperLevels(style, folderPath, remotePath, nodes[1..]);
      if nodes[0].Dir? {
        SubdirFilesPruned(EntryPath(remotePath, LocalJoin(style, folderPath, nodes[0].name)), nodes[0].children);
      }
    }
  }

  // ---------------------------------------------------------------------------
  // Where the entries land, for the staging folder `temp/<slug>` the backend creates
  // ---------------------------------------------------------------------------

  lemma TempPrefixFirst(s: string)
    requires |s| >= 5 && s[..5] == "temp\\"
    ensures ReplaceFirst(s, "temp\\", "") == s[5..]
  {
    assert OccursAt(s, "temp\\", 0);
  }

  lemma NoTempPrefix(s: string)
    requires '\\' !in s
    ensures ReplaceFirst(s, "temp\\", "") == s
  {
    forall j: nat | OccursAt(s, "temp\\", j)
      ensures false
    {
      OccursAtEnds(s, "temp\\", j);
    }
  }

  /**
   * With Windows joins, the staging root `temp\` is stripped: a file `name`
   * of the folder `temp/<slug>` lands at `<remotePath><slug>/<name>`.
   */
  lemma WindowsEntryPath(remotePath: string, slug: string, name: string)
    requires '\\' !in slug && '/' !in slug && '\\' !in name
    ensures EntryPath(remotePath, LocalJoin(Windows, "temp/" + slug, name)) == remotePath + slug + "/" + name
  {
    var rest := slug + "\\" + name;
    WindowsStagingJoin(slug, name);
    StagingRootStripped(rest);
    SeparatorsTurned(slug, name);
  }

  lemma WindowsStagingJoin(slug: string, name: string)
    requires '/' !in slug
    ensures LocalJoin(Windows, "temp/" + slug, name) == "temp\\" + (slug + "\\" + name)
  {
    ReplaceCharAppend("temp/", slug, '/', '\\');
    assert ReplaceChar("temp/", '/', '\\') == "temp\\";
    ReplaceCharAbsent(slug, '/', '\\');
  }

  lemma StagingRootStripped(rest: string)
    ensures RepoRelative("temp\\" + rest) == ReplaceChar(rest, '\\', '/')
  {
    var local := "temp\\" + rest;
    TempPrefixFirst(local);
    assert local[5..] == rest;
  }

  lemma SeparatorsTurned(slug: string, name: string)
    requires '\\' !in slug && '\\' !in name
    ensures ReplaceChar(slug + "\\" + name, '\\', '/') == slug + "/" + name
  {
    ReplaceCharAppend(slug + "\\", name, '\\', '/');
    ReplaceCharAppend(slug, "\\", '\\', '/');
    ReplaceCharAbsent(slug, '\\', '/');
    ReplaceCharAbsent(name, '\\', '/');
  }

  /**
   * With POSIX joins the pattern `temp\` never matches, so the staging root
   * stays in the committed path: `<remotePath>temp/<slug>/<name>`.
   */
  lemma PosixEntryPath(remotePath: string, slug: string, name: string)
    requires '\\' !in slug && '\\' !in name
    ensures EntryPath(remotePath, LocalJoin(Posix, "temp/" + slug, name)) == remotePath + "temp/" + slug + "/" + name
  {
    var local := "temp/" + slug + "/" + name;
    assert '\\' !in local;
    NoTempPrefix(local);
  }

  // ---------------------------------------------------------------------------
  // /commit-folder
  // ---------------------------------------------------------------------------

  datatype Uploaded = Uploaded(env: Env, entries: Option<seq<TreeEntry>>)

  function BlobEntry(f: Staged, sha: Sha): TreeEntry {
    TreeEntry(f.path, "100644", "blob", sha)
  }

  function BlobCalls(repo: RepoId, files: seq<Staged>): (r: seq<Call>)
    ensures |r| == |files|
  {
    seq(|files|, k requires 0 <= k < |files| => CreateBlob(repo, files[k].content))
  }

  /** One blob per staged file, in order, stopping at the first rejected upload. */
  function UploadBlobs(env: Env, ok: Oracle, repo: RepoId, files: seq<Staged>): (u: Uploaded)
    ensures u.env.store.refs == env.store.refs
    ensures u.env.store.commits == env.store.commits
    ensures u.env.store.trees == env.store.trees
    ensures u.env.store.pulls == env.store.pulls && u.env.store.repos == env.store.repos
    ensures env.store.next <= u.env.store.next
    ensures |env.log| < |u.env.log| || (|files| == 0 && u.env == env)
    ensures IsPrefix(env.log, u.env.log)
    ensures u.entries.Some? <==> AcceptsAll(ok, |env.log|, |files|)
    ensures u.entries.Some? ==> u.env.log == env.log + BlobCalls(repo, files)
    ensures u.entries.Some? ==> |u.entries.value| == |files|
    ensures u.entries.Some? ==> forall k :: 0 <= k < |files| ==>
              u.entries.value[k] == BlobEntry(files[k], u.entries.value[k].sha)
    decreases |files|
  {
    if |files| == 0 then Uploaded(env, Some([]))
    else
      var blob := CreateBlobCall(env, ok, repo, files[0].content);
      if blob.resp.NotOk? then Uploaded(blob.env, None)
      else
        var rest := UploadBlobs(blob.env, ok, repo, files[1..]);
        assert AcceptsAll(ok, |env.log|, |files|) <==> VerdictOf(ok, |env.log|).Accept? && AcceptsAll(ok, |env.log| + 1, |files| - 1);
        if rest.entries.None? then Uploaded(rest.env, None)
        else
          assert BlobCalls(repo, files) == [CreateBlob(repo, files[0].content)] + BlobCalls(repo, files[1..]);
          Uploaded(rest.env, Some([BlobEntry(files[0], blob.resp.value)] + rest.entries.value))
  }

  /**
   * The upload keeps every blob already stored, and each entry names a new
   * blob holding exactly its file's content.
   */
  lemma {:induction false} UploadStoresContents(env: Env, ok: Oracle, repo: RepoId, files: seq<Staged>)
    ensures var u := UploadBlobs(env, ok, repo, files);
            && (forall s :: s in env.store.blobs && s < env.store.next ==>
                  s in u.env.store.blobs && u.env.store.blobs[s] == env.store.blobs[s])
            && (u.entries.Some? ==> forall k :: 0 <= k < |files| ==>
                  var e := u.entries.value[k];
                  && env.store.next <= e.sha < u.env.store.next
                  && e.sha in u.env.store.blobs && u.env.store.blobs[e.sha] == files[k].content)
    decreases |files|
  {
    if |files| > 0 {
      var blob := CreateBlobCall(env, ok, repo, files[0].content);
      if blob.resp.Ok? {
        UploadStoresContents(blob.env, ok, repo, files[1..]);
      }
    }
  }

  /**
   * The request body of `/commit-folder`, with the staging folder's listing:
   * `None` when `folderPath` is undefined or names no readable directory,
   * so that `readdirSync(folderPath)` throws.
   */
  datatype CommitRequest = CommitRequest(
    owner: string,
    branchName: string,
    folderPath: string,
    folder: Option<seq<Node>>,
    remotePath: string,
    resourceName: string)

  function CommitMessage(resourceName: string): string {
    "Adding " + resourceName
  }

  /** The files the walk finds; none when the folder cannot be listed. */
  function StagedFiles(style: JoinStyle, q: CommitRequest): seq<Staged> {
    if q.folder.Some? then WalkFolder(style, q.folderPath, q.remotePath, q.folder.value) else []
  }

  /** The tree entries name the staged files' paths, one for one and in order. */
  predicate SamePaths(entries: seq<TreeEntry>, files: seq<Staged>) {
    |entries| == |files| && forall k :: 0 <= k < |entries| ==> entries[k].path == files[k].path
  }

  /** What a successful `/commit-folder` leaves behind. */
  ghost predicate Committed(before: Store, after: Store, style: JoinStyle, q: CommitRequest) {
    var repo := RepoId(q.owner, ContentRepo);
    var base := RefKey(repo, SyncBranch(q.owner));
    var topic := RefKey(repo, q.branchName);
    && base in before.refs && before.refs[base] in before.commits
    && topic in before.refs && topic in after.refs
    && var tip := before.refs[base];
       var c := after.refs[topic];
       // only the topic branch moves, and it moves to the new commit
       && after.refs == before.refs[topic := c]
       && c in after.commits
       && after.commits[c].message == CommitMessage(q.resourceName)
       && after.commits[c].parents == [tip]
       // the new tree is layered on the integration tip's tree and lists the walked files
       && after.commits[c].tree in after.trees
       && after.trees[after.commits[c].tree].base == before.commits[tip].tree
       && SamePaths(after.trees[after.commits[c].tree].entries, StagedFiles(style, q))
       && (forall e :: e in after.trees[after.commits[c].tree].entries ==> e.mode == "100644" && e.kind == "blob")
       // each entry names a stored blob holding its file's content
       && forall k :: 0 <= k < |StagedFiles(style, q)| ==>
            var e := after.trees[after.commits[c].tree].entries[k];
            e.sha in after.blobs && after.blobs[e.sha] == StagedFiles(style, q)[k].content
  }

  /**
   * The last three steps of `/commit-folder`: create the tree over `baseTree`,
   * create the commit on `parent`, move `topic` to it. The first refused
   * request ends them with 500.
   */
  method PublishTree(env: Env, ok: Oracle, repo: RepoId, baseTree: Sha, entries: seq<TreeEntry>,
                     message: string, parent: Sha, topic: RefKey) returns (r: Reply)
    ensures r.status == 201 || r.status == 500
    ensures IsPrefix(env.log, r.env.log)
    ensures r.env.store.pulls == env.store.pulls && r.env.store.repos == env.store.repos
    ensures r.env.store.blobs == env.store.blobs
    ensures r.status == 500 ==> r.env.store.refs == env.store.refs
    ensures r.status == 201 ==>
              && topic in env.store.refs && topic in r.env.store.refs
              && var c := r.env.store.refs[topic];
                 && r.env.store.refs == env.store.refs[topic := c]
                 && c in r.env.store.commits
                 && r.env.store.commits[c].message == message
                 && r.env.store.commits[c].parents == [parent]
                 && r.env.store.commits[c].tree in r.env.store.trees
                 && r.env.store.trees[r.env.store.commits[c].tree] == Tree(baseTree, entries)
    ensures AcceptsAll(ok, |env.log|, 3) && topic in env.store.refs ==>
              r.status == 201 && |r.env.log| == |env.log| + 3
  {
    var tree := CreateTreeCall(env, ok, repo, baseTree, entries);
    PrefixSnoc(env.log, CreateTree(repo, baseTree, entries));
    if tree.resp.NotOk? {
      return Reply(tree.env, 500);
    }
    var commit := CreateCommitCall(tree.env, ok, repo, message, tree.resp.value, [parent]);
    PrefixSnoc(tree.env.log, CreateCommit(repo, message, tree.resp.value, [parent]));
    PrefixTrans(env.log, tree.env.log, commit.env.log);
    if commit.resp.NotOk? {
      return Reply(commit.env, 500);
    }
    var moved := UpdateRefCall(commit.env, ok, topic, commit.resp.value, false);
    PrefixSnoc(commit.env.log, UpdateRef(topic, commit.resp.value, false));
    PrefixTrans(env.log, commit.env.log, moved.env.log);
    if moved.resp.NotOk? {
      return Reply(moved.env, 500);
    }
    return Reply(moved.env, 201);
  }

  /**
   * `/commit-folder`. The steps run in a fixed order and the first non-ok
   * response ends the handler with 500: read the integration tip, read its
   * commit, list the staging folder (a folder that cannot be listed throws,
   * which also ends it with 500), upload one blob per walked file, create the
   * tree over the tip's tree, create the commit, move the topic branch.
   */
  method CommitFolder(env: Env, ok: Oracle, style: JoinStyle, q: CommitRequest) returns (r: Reply)
    ensures r.status == 201 || r.status == 500
    ensures IsPrefix(env.log + [ReadRef(RefKey(RepoId(q.owner, ContentRepo), SyncBranch(q.owner)))], r.env.log)
    ensures r.env.store.pulls == env.store.pulls && r.env.store.repos == env.store.repos
    // a failure leaves every ref where it was
    ensures r.status == 500 ==> r.env.store.refs == env.store.refs
    // a 201 means the commit was built and the topic branch moved to it
    ensures r.status == 201 ==> q.folder.Some? && Committed(env.store, r.env.store, style, q)
    // a folder that cannot be listed ends the handler after the two reads, before any upload
    ensures q.folder.None? ==> r.status == 500 && |r.env.log| <= |env.log| + 2
    // a failed read of the integration branch ends the handler before any other request
    ensures VerdictOf(ok, |env.log|).Reject? || RefKey(RepoId(q.owner, ContentRepo), SyncBranch(q.owner)) !in env.store.refs ==>
              r.status == 500 && r.env == Logged(env, ReadRef(RefKey(RepoId(q.owner, ContentRepo), SyncBranch(q.owner))))
    // with every request accepted and the refs and base commit present, the handler
    // succeeds whatever the folder holds: an empty folder gives a tree with no entries
    ensures && q.folder.Some?
            && AcceptsAll(ok, |env.log|, |StagedFiles(style, q)| + 5)
            && RefKey(RepoId(q.owner, ContentRepo), SyncBranch(q.owner)) in env.store.refs
            && env.store.refs[RefKey(RepoId(q.owner, ContentRepo), SyncBranch(q.owner))] in env.store.commits
            && RefKey(RepoId(q.owner, ContentRepo), q.branchName) in env.store.refs
            ==> r.status == 201 && |r.env.log| == |env.log| + |StagedFiles(style, q)| + 5
  {
    var repo := RepoId(q.owner, ContentRepo);
    var n := |env.log|;
    var files := StagedFiles(style, q);
    var baseKey := RefKey(repo, SyncBranch(q.owner));
    var tip := ReadRefCall(env, ok, baseKey);
    PrefixSnoc(env.log, ReadRef(baseKey));
    if tip.resp.NotOk? {
      return Reply(tip.env, 500);
    }
    var latest := tip.resp.value;
    var baseCommit := ReadCommitCall(tip.env, ok, repo, latest);
    PrefixSnoc(tip.env.log, ReadCommit(repo, latest));
    PrefixTrans(env.log + [ReadRef(baseKey)], tip.env.log, baseCommit.env.log);
    if baseCommit.resp.NotOk? {
      return Reply(baseCommit.env, 500);
    }
    if q.folder.None? {
      return Reply(baseCommit.env, 500);
    }
    var up := UploadBlobs(baseCommit.env, ok, repo, files);
    PrefixTrans(env.log + [ReadRef(baseKey)], baseCommit.env.log, up.env.log);
    if up.entries.None? {
      return Reply(up.env, 500);
    }
    var entries := up.entries.value;
    UploadStoresContents(baseCommit.env, ok, repo, files);
    var topic := RefKey(repo, q.branchName);
    var published := PublishTree(up.env, ok, repo, baseCommit.resp.value.tree, entries, CommitMessage(q.resourceName), latest, topic);
    PrefixTrans(env.log + [ReadRef(baseKey)], up.env.log, published.env.log);
    if published.status == 500 {
      return Reply(published.env, 500);
    }
    assert SamePaths(entries, files);
    forall e | e in entries
      ensures e.mode == "100644" && e.kind == "blob"
    {
      var k :| 0 <= k < |entries| && entries[k] == e;
    }
    return Reply(published.env, 201);
  }
}

=== FILE: dashboard_view.dfy ===
/**
 * The dashboard: the signed-in user's pull requests, split into the draft,
 * ready-for-review and closed sections.
 */
module DashboardView {
  import opened Wrappers

  /** A pull request as listed by the platform; `login` is its author's. */
  datatype PullRequest = PullRequest(
    id: string, title: string, createdAt: string, resourceType: string,
    state: string, draft: bool, login: string)

  /** The placeholder the list holds before any answer arrives. */
  const Placeholder := PullRequest("", "", "", "", "", false, "")

  const InitialList: seq<PullRequest> := [Placeholder]

  /** The pull requests whose author is the stored user name; none when no name is stored. */
  function UserPullRequests(prs: seq<PullRequest>, username: Option<string>): (r: seq<PullRequest>)
    ensures forall pr :: pr in r <==> pr in prs && username == Some(pr.login)
    ensures |r| <= |prs|
    decreases |prs|
  {
    if |prs| == 0 then []
    else
      var rest := UserPullRequests(prs[1..], username);
      if username == Some(prs[0].login) then [prs[0]] + rest else rest
  }

  /**
   * The filter works entry by entry: filtering a concatenation filters each
   * part and keeps them in order, so the result keeps the listing's order.
   */
  lemma {:induction false} UserPullRequestsAppend(a: seq<PullRequest>, b: seq<PullRequest>, username: Option<string>)
    ensures UserPullRequests(a + b, username) == UserPullRequests(a, username) + UserPullRequests(b, username)
    decreases |a|
  {
    if |a| == 0 {
      assert a + b == b;
    } else {
      assert (a + b)[0] == a[0];
      assert (a + b)[1..] == a[1..] + b;
      UserPullRequestsAppend(a[1..], b, username);
    }
  }

  /**
   * The answer to the listing request: the page of pull requests it returns,
   * or anything that makes the listing throw.
   */
  datatype Listing = Answered(prs: seq<PullRequest>) | Failed

  /** `fetchPRs`: a failure is only logged and the list stays as it was. */
  function Load(current: seq<PullRequest>, answer: Listing, username: Option<string>): (r: seq<PullRequest>)
    ensures answer.Failed? ==> r == current
    ensures answer.Answered? ==> forall pr :: pr in r <==> username == Some(pr.login) && pr in answer.prs
  {
    match answer
    case Failed => current
    case Answered(prs) => UserPullRequests(prs, username)
  }

  /** An answered listing is filtered part by part, in the order the page lists it. */
  lemma LoadAppend(current: seq<PullRequest>, a: seq<PullRequest>, b: seq<PullRequest>, username: Option<string>)
    ensures Load(current, Answered(a + b), username) == Load(current, Answered(a), username) + Load(current, Answered(b), username)
  {
    UserPullRequestsAppend(a, b, username);
  }

  // ---------------------------------------------------------------------------
  // The three sections
  // ---------------------------------------------------------------------------

  datatype Section = Drafts | ReadyForReview | Closed

  /** The filter each section applies. */
  predicate InSection(pr: PullRequest, s: Section) {
    match s
    case Drafts => pr.draft && pr.state == "open"
    case ReadyForReview => pr.state == "open" && !pr.draft
    case Closed => pr.state == "closed"
  }

  /** The pull requests a section lists, in list order. */
  function Listed(prs: seq<PullRequest>, s: Section): (r: seq<PullRequest>)
    ensures forall pr :: pr in r <==> pr in prs && InSection(pr, s)
    ensures |r| <= |prs|
    decreases |prs|
  {
    if |prs| == 0 then []
    else if InSection(prs[0], s) then [prs[0]] + Listed(prs[1..], s)
    else Listed(prs[1..], s)
  }

  /** A section's filter works entry by entry and keeps the list's order. */
  lemma {:induction false} ListedAppend(a: seq<PullRequest>, b: seq<PullRequest>, s: Section)
    ensures Listed(a + b, s) == Listed(a, s) + Listed(b, s)
    decreases |a|
  {
    if |a| == 0 {
      assert a + b == b;
    } else {
      assert (a + b)[0] == a[0];
      assert (a + b)[1..] == a[1..] + b;
      ListedAppend(a[1..], b, s);
    }
  }

  /** A section shows its "none found" message exactly when it lists nothing. */
  function ShowsEmptyMessage(prs: seq<PullRequest>, s: Section): (r: bool)
    ensures r <==> forall pr :: pr in prs ==> !InSection(pr, s)
  {
    var listed := Listed(prs, s);
    assert |listed| > 0 ==> listed[0] in listed;
    |listed| == 0
  }

  /** A pull request is listed somewhere exactly when it is open or closed. */
  predicate Shown(pr: PullRequest) {
    pr.state == "open" || pr.state == "closed"
  }

  /** Each pull request belongs to at most one section, and to one exactly when it is open or closed. */
  lemma OneSection(pr: PullRequest)
    ensures !(InSection(pr, Drafts) && InSection(pr, ReadyForReview))
    ensures !(InSection(pr, Drafts) && InSection(pr, Closed))
    ensures !(InSection(pr, ReadyForReview) && InSection(pr, Closed))
    ensures Shown(pr) <==> InSection(pr, Drafts) || InSection(pr, ReadyForReview) || InSection(pr, Closed)
  {
  }

  /**
   * The sections partition the open and closed pull requests: together they
   * list as many entries as there are open or closed ones, each in one section.
   */
  lemma {:induction false} SectionsPartition(prs: seq<PullRequest>)
    ensures |Listed(prs, Drafts)| + |Listed(prs, ReadyForReview)| + |Listed(prs, Closed)| == |ShownOnly(prs)|
    ensures multiset(Listed(prs, Drafts)) + multiset(Listed(prs, ReadyForReview)) + multiset(Listed(prs, Closed))
            == multiset(ShownOnly(prs))
    decreases |prs|
  {
    if |prs| > 0 {
      SectionsPartition(prs[1..]);
      OneSection(prs[0]);
    }
  }

  /** The open and closed pull requests, in list order. */
  function ShownOnly(prs: seq<PullRequest>): (r: seq<PullRequest>)
    ensures forall pr :: pr in r <==> pr in prs && Shown(pr)
    decreases |prs|
  {
    if |prs| == 0 then []
    else if Shown(prs[0]) then [prs[0]] + ShownOnly(prs[1..])
    else ShownOnly(prs[1..])
  }

  /** Keeping the open and closed pull requests works entry by entry and keeps the list's order. */
  lemma {:induction false} ShownOnlyAppend(a: seq<PullRequest>, b: seq<PullRequest>)
    ensures ShownOnly(a + b) == ShownOnly(a) + ShownOnly(b)
    decreases |a|
  {
    if |a| == 0 {
      assert a + b == b;
    } else {
      assert (a + b)[0] == a[0];
      assert (a + b)[1..] == a[1..] + b;
      ShownOnlyAppend(a[1..], b);
    }
  }

  /** Until an answer arrives every section shows its "none found" message. */
  lemma PlaceholderShowsNothing(s: Section)
    ensures ShowsEmptyMessage(InitialList, s)
  {
  }
}

=== FILE: dir_manager.dfy ===
/**
 * The staging-folder helpers: `createFolder`, `createChildFolder` and
 * `deleteFolder`, over an abstract file system given as the set of paths that
 * exist. Whether a `mkdir` fails is a parameter.
 */
module DirManager {
  import opened Wrappers
  import opened Strings

  /** The existing files and directories, by path. */
  type Fs = set<string>

  const StagingRoot: string := "temp/"

  /** The path `createFolder(name)` uses: the staging root, then the normalised name. */
  function FolderPath(name: string): (p: string)
    ensures |p| == 5 + |name| && p[..5] == StagingRoot
    ensures p[5..] == Slugify(name)
    ensures ' ' !in p
  {
    var p := StagingRoot + Slugify(name);
    assert p[5..] == Slugify(name);
    assert forall i :: 0 <= i < |p| ==> p[i] != ' ' by {
      forall i | 0 <= i < |p| ensures p[i] != ' ' {
        if i >= 5 { assert p[i] == Slugify(name)[i - 5]; }
      }
    }
    p
  }

  /** `p` itself and every proper ancestor: the prefixes that stop just before a `/`. */
  function SelfAndAncestors(p: string): (r: set<string>)
    ensures p in r
  {
    {p} + set i | 0 < i < |p| && p[i] == '/' :: p[..i]
  }

  /** `mkdir(p, {recursive: true})`. */
  function MkdirAll(fs: Fs, p: string): (r: Fs)
    ensures fs <= r && p in r
    ensures forall q :: q in r && q !in fs ==> q == p || (|q| < |p| && p[..|q|] == q && p[|q|] == '/')
  {
    fs + SelfAndAncestors(p)
  }

  datatype Created = Created(fs: Fs, path: Option<string>)

  /** `createFolder(name)`: the folder's path, or undefined when `mkdir` fails. */
  function CreateFolder(fs: Fs, name: string, mkdirFails: bool): (r: Created)
    ensures mkdirFails ==> r == Created(fs, None)
    ensures !mkdirFails ==> r.path == Some(FolderPath(name)) && FolderPath(name) in r.fs && "temp" in r.fs
    ensures fs <= r.fs
  {
    if mkdirFails then Created(fs, None)
    else
      var p := FolderPath(name);
      assert p[4] == '/' && p[..4] == "temp";
      Created(MkdirAll(fs, p), Some(p))
  }

  /** What `createChildFolder` returns: the path, or `0` when `mkdir` fails. */
  datatype ChildPath = ChildAt(path: string) | Zero

  datatype ChildCreated = ChildCreated(fs: Fs, result: ChildPath)

  /** `createChildFolder(parent)`: `<parent>/assets`, made together with any missing ancestor. */
  function CreateChildFolder(fs: Fs, parent: string, mkdirFails: bool): (r: ChildCreated)
    ensures mkdirFails ==> r == ChildCreated(fs, Zero)
    ensures !mkdirFails ==> r.result == ChildAt(parent + "/assets") && parent + "/assets" in r.fs
    ensures fs <= r.fs
  {
    if mkdirFails then ChildCreated(fs, Zero)
    else ChildCreated(MkdirAll(fs, parent + "/assets"), ChildAt(parent + "/assets"))
  }

  /** Creating the assets folder creates its parent as well. */
  lemma ChildImpliesParent(fs: Fs, parent: string)
    requires |parent| > 0
    ensures parent in CreateChildFolder(fs, parent, false).fs
  {
    var p := parent + "/assets";
    assert p[|parent|] == '/' && p[..|parent|] == parent;
  }

  /** `q` is `p` or lies beneath it. */
  predicate Within(q: string, p: string) {
    q == p || (|q| > |p| && q[..|p|] == p && q[|p|] == '/')
  }

  /** `rm(p, {recursive: true})`: `None` when `p` does not exist, which makes `rm` throw. */
  function DeleteFolder(fs: Fs, p: string): (r: Option<Fs>)
    ensures r.None? <==> p !in fs
    ensures r.Some? ==> forall q :: q in r.value <==> q in fs && !Within(q, p)
  {
    if p !in fs then None else Some(set q | q in fs && !Within(q, p))
  }

  /** Deleting a freshly created staging folder leaves nothing of it, and everything outside it in place. */
  lemma CreateThenDelete(fs: Fs, name: string)
    ensures var made := CreateFolder(fs, name, false);
            var gone := DeleteFolder(made.fs, made.path.value);
            && gone.Some?
            && (forall q :: q in gone.value ==> !Within(q, FolderPath(name)))
            && (forall q :: q in fs && !Within(q, FolderPath(name)) ==> q in gone.value)
  {
  }
}

=== FILE: edit_resource.dfy ===
/**
 * The edit page's pure logic: sniffing the category of a loaded file, the
 * date test, the nested field update behind every input, the text-area
 * encoding of primitive arrays, the payload sent back, and the page state
 * after loading, sending and clearing.
 */
module EditResource {
  import opened Wrappers
  import opened Strings
  import opened Values
  import PathUtils
  import RemotePaths

  // ---------------------------------------------------------------------------
  // The category of a loaded file
  // ---------------------------------------------------------------------------

  /** `getResourceCategory(path)` as written: the first of four words found anywhere in the path. */
  function GetResourceCategory(path: string): (c: string)
    ensures c in {"Newsletter", "Project", "Events", "Professor", "undefined"}
    ensures Contains(path, "newsletters") ==> c == "Newsletter"
    ensures c == "Events" <==> !Contains(path, "newsletters") && !Contains(path, "projects") && Contains(path, "events")
    ensures c == "undefined" <==>
              !Contains(path, "newsletters") && !Contains(path, "projects")
              && !Contains(path, "events") && !Contains(path, "professors")
  {
    if Contains(path, "newsletters") then "Newsletter"
    else if Contains(path, "projects") then "Project"
    else if Contains(path, "events") then "Events"
    else if Contains(path, "professors") then "Professor"
    else "undefined"
  }

  /**
   * The path of a professor whose slug is `events` contains the word
   * `events`, so the first-match test files the professor under Events.
   */
  lemma ProfessorReadAsEvent(p: string)
    requires PathUtils.ContentPath("professors", "events") == Success(p)
    ensures GetResourceCategory(p) == "Events"
    ensures SniffCategory(p) == "Professor"
  {
    SniffContentPath("professors", "events");
    EventsProfessorWords(p);
  }

  /** Which of the four words the path of the professor `events` contains. */
  lemma EventsProfessorWords(p: string)
    requires p == "professors/" + "events" + "/professor.yml"
    ensures Contains(p, "events") && !Contains(p, "newsletters") && !Contains(p, "projects")
  {
    assert p[11..17] == "events";
    ContainsWitness(p, "events", 11);
    LacksLetter(p, 'w');
    MissingLetter(p, "newsletters", 2);
    LacksLetter(p, 'j');
    MissingLetter(p, "projects", 3);
  }

  lemma LacksLetter(p: string, c: char)
    requires p == "professors/" + "events" + "/professor.yml"
    requires c == 'w' || c == 'j'
    ensures c !in p
  {
    assert c !in "professors/" && c !in "events" && c !in "/professor.yml";
  }

  /** A word with a letter the text lacks does not occur in it. */
  lemma MissingLetter(s: string, word: string, i: nat)
    requires i < |word| && word[i] !in s
    ensures !Contains(s, word)
  {
    forall j: nat ensures !OccursAt(s, word, j) {
      if j + |word| <= |s| {
        assert s[j..j + |word|][i] == s[j + i];
      }
    }
    NotContains(s, word);
  }

  /** The category each content type's files belong to. */
  function CategoryOfKind(kind: string): string {
    match kind
    case "newsletters" => "Newsletter"
    case "projects" => "Project"
    case "events" => "Events"
    case "professors" => "Professor"
    case _ => "undefined"
  }

  lemma FirstCharDiffers(s: string, prefix: string)
    requires |prefix| > 0 && |s| > 0 && s[0] != prefix[0]
    ensures !StartsWith(s, prefix)
  {
    if |prefix| <= |s| { assert s[..|prefix|][0] == s[0]; }
  }

  /** The category read from the content directory the path starts with, not from words in the slug. */
  function SniffCategory(path: string): (c: string)
    ensures c in {"Newsletter", "Project", "Events", "Professor", "undefined"}
  {
    if StartsWith(path, "resources/newsletters/") then "Newsletter"
    else if StartsWith(path, "resources/projects/") then "Project"
    else if StartsWith(path, "events/") then "Events"
    else if StartsWith(path, "professors/") then "Professor"
    else "undefined"
  }

  /** Every content path gets the category of its type, whatever its slug says. */
  lemma SniffContentPath(kind: string, slug: string)
    requires PathUtils.ContentPath(kind, slug).Success?
    ensures SniffCategory(PathUtils.ContentPath(kind, slug).value) == CategoryOfKind(kind)
  {
    var p := PathUtils.ContentPath(kind, slug).value;
    match kind
    case "newsletters" => assert p[..22] == "resources/newsletters/";
    case "projects" =>
      assert p[..19] == "resources/projects/";
      assert p[..22] != "resources/newsletters/" by { assert p[10] == 'p'; }
    case "events" =>
      assert p[..7] == "events/";
      FirstCharDiffers(p, "resources/newsletters/");
      FirstCharDiffers(p, "resources/projects/");
    case "professors" =>
      assert p[..11] == "professors/";
      FirstCharDiffers(p, "resources/newsletters/");
      FirstCharDiffers(p, "resources/projects/");
      FirstCharDiffers(p, "events/");
  }

  /** The commit directory of a loaded file's category is the leading directory of its content path. */
  lemma PrefixMatchesContentPath(kind: string, slug: string)
    requires PathUtils.ContentPath(kind, slug).Success?
    ensures var p := PathUtils.ContentPath(kind, slug).value;
            var pre := RemotePaths.PrefixOf(Some(Str(SniffCategory(p))));
            pre.Some? && |pre.value| <= |p| && p[..|pre.value|] == pre.value
  {
    SniffContentPath(kind, slug);
    var p := PathUtils.ContentPath(kind, slug).value;
    match kind
    case "newsletters" => assert p[..22] == "resources/newsletters/";
    case "projects" => assert p[..19] == "resources/projects/";
    case "events" => assert p[..7] == "events/";
    case "professors" => assert p[..11] == "professors/";
  }

  /** A word absent from a slug occurs in its path only if the path's fixed parts hold it. */
  lemma WordNotInPath(dir: string, slug: string, file: string, w: string, letter: char)
    requires |dir| > 0 && dir[|dir| - 1] == '/' && |file| > 0 && file[0] == '/'
    requires '/' !in w && letter in w && letter !in dir && letter !in file
    requires !Contains(slug, w)
    ensures !Contains(dir + slug + file, w)
  {
    var i :| 0 <= i < |w| && w[i] == letter;
    MissingLetter(dir, w, i);
    MissingLetter(file, w, i);
    ContainsAcrossSlash(dir, slug, w);
    ContainsAcrossSlash(dir + slug, file, w);
  }

  /**
   * The first-match test files a content path correctly unless its slug holds
   * one of the words `newsletters`, `projects` or `events`.
   */
  lemma FirstMatchAgreesOnPlainSlugs(kind: string, slug: string)
    requires PathUtils.ContentPath(kind, slug).Success?
    requires !Contains(slug, "newsletters") && !Contains(slug, "projects") && !Contains(slug, "events")
    ensures GetResourceCategory(PathUtils.ContentPath(kind, slug).value) == SniffCategory(PathUtils.ContentPath(kind, slug).value)
  {
    var p := PathUtils.ContentPath(kind, slug).value;
    SniffContentPath(kind, slug);
    match kind
    case "newsletters" =>
      assert p[10..21] == "newsletters";
      ContainsWitness(p, "newsletters", 10);
    case "projects" => ProjectPathWords(slug);
    case "events" => EventPathWords(slug);
    case "professors" => ProfessorPathWords(slug);
  }

  lemma ProjectPathWords(slug: string)
    requires !Contains(slug, "newsletters")
    ensures var p := "resources/projects/" + slug + "/project.yml";
            !Contains(p, "newsletters") && Contains(p, "projects")
  {
    var p := "resources/projects/" + slug + "/project.yml";
    WordNotInPath("resources/projects/", slug, "/project.yml", "newsletters", 'w');
    assert p[10..18] == "projects";
    ContainsWitness(p, "projects", 10);
  }

  lemma EventPathWords(slug: string)
    requires !Contains(slug, "newsletters") && !Contains(slug, "projects")
    ensures var p := "events/" + slug + "/event.yml";
            !Contains(p, "newsletters") && !Contains(p, "projects") && Contains(p, "events")
  {
    var p := "events/" + slug + "/event.yml";
    WordNotInPath("events/", slug, "/event.yml", "newsletters", 'w');
    WordNotInPath("events/", slug, "/event.yml", "projects", 'j');
    assert p[..6] == "events";
    ContainsWitness(p, "events", 0);
  }

  lemma ProfessorPathWords(slug: string)
    requires !Contains(slug, "newsletters") && !Contains(slug, "projects") && !Contains(slug, "events")
    ensures var p := "professors/" + slug + "/professor.yml";
            !Contains(p, "newsletters") && !Contains(p, "projects") && !Contains(p, "events") && Contains(p, "professors")
  {
    var p := "professors/" + slug + "/professor.yml";
    WordNotInPath("professors/", slug, "/professor.yml", "newsletters", 'w');
    WordNotInPath("professors/", slug, "/professor.yml", "projects", 'j');
    WordNotInPath("professors/", slug, "/professor.yml", "events", 'v');
    assert p[..10] == "professors";
    ContainsWitness(p, "professors", 0);
  }

  // ---------------------------------------------------------------------------
  // Date fields
  // ---------------------------------------------------------------------------

  /** A one-character occurrence is an occurrence of that character. */
  lemma ContainsChar(s: string, c: char)
    ensures Contains(s, [c]) <==> c in s
  {
    if c in s {
      var i :| 0 <= i < |s| && s[i] == c;
      assert s[i..i + 1] == [c];
      ContainsWitness(s, [c], i);
    }
    if Contains(s, [c]) {
      var i := IndexOf(s, [c], 0).value;
      assert s[i..i + 1][0] == s[i];
    }
  }

  /** `containsTimeInfo(s)`: a date with a time part gets a date-and-time input. */
  function ContainsTimeInfo(s: string): (r: bool)
    ensures r <==> 'T' in s || ':' in s
  {
    ContainsChar(s, 'T');
    ContainsChar(s, ':');
    Contains(s, "T") || Contains(s, ":")
  }

  // ---------------------------------------------------------------------------
  // `handleFieldChange`: the nested update
  // ---------------------------------------------------------------------------

  /** `ref[k]` when `ref` can hold children; `None` where the next step would throw. */
  function Child(v: Value, k: string): (r: Option<Value>) {
    match v
    case Obj(fields) => if k in fields then Some(fields[k]) else None
    case Arr(items) =>
      var i := ParseIndex(k);
      if i.Some? && i.value < |items| then Some(items[i.value]) else None
    case _ => None
  }

  /** `ref[k] = x`: assigning to a primitive throws in strict mode. */
  function Assign(v: Value, k: string, x: Value): (r: Option<Value>)
    ensures r.Some? ==> Child(r.value, k) == Some(x)
    ensures r.Some? ==> (r.value.Obj? <==> v.Obj?) && (r.value.Arr? <==> v.Arr?)
  {
    match v
    case Obj(fields) => Some(Obj(fields[k := x]))
    case Arr(items) =>
      var i := ParseIndex(k);
      if i.Some? && i.value < |items| then Some(Arr(items[i.value := x])) else None
    case _ => None
  }

  /** The value at the end of a key path, if the walk reaches one. */
  function GetIn(v: Value, path: seq<string>): Option<Value>
    decreases |path|
  {
    if |path| == 0 then Some(v)
    else match Child(v, path[0])
      case None => None
      case Some(c) => GetIn(c, path[1..])
  }

  /** The walk to `keyPath[n - 2]` followed by the assignment of `keyPath[n - 1]`. */
  function SetIn(v: Value, path: seq<string>, x: Value): (r: Option<Value>)
    requires |path| > 0
    ensures r.Some? ==> GetIn(r.value, path) == Some(x)
    ensures r.Some? ==> (r.value.Obj? <==> v.Obj?) && (r.value.Arr? <==> v.Arr?)
    decreases |path|
  {
    if |path| == 1 then Assign(v, path[0], x)
    else match Child(v, path[0])
      case None => None
      case Some(c) =>
        match SetIn(c, path[1..], x)
        case None => None
        case Some(c2) => Assign(v, path[0], c2)
  }

  /** Keys that name different children: different object keys, or different array indices. */
  lemma AssignOther(v: Value, k: string, x: Value, k2: string)
    requires Assign(v, k, x).Some? && k2 != k
    ensures Child(Assign(v, k, x).value, k2) == Child(v, k2)
  {
    if v.Arr? && ParseIndex(k2).Some? {
      NatToStringOfParseIndex(k);
      NatToStringOfParseIndex(k2);
    }
  }

  /**
   * The update leaves alone every value whose path leaves `path` before its
   * end: the siblings at every level along the way, and all they contain.
   */
  lemma {:induction false} SetInFrame(v: Value, path: seq<string>, x: Value, q: seq<string>, j: nat)
    requires |path| > 0 && SetIn(v, path, x).Some?
    requires j < |path| && j < |q| && q[..j] == path[..j] && q[j] != path[j]
    ensures GetIn(SetIn(v, path, x).value, q) == GetIn(v, q)
    decreases |path|
  {
    var r := SetIn(v, path, x).value;
    if j == 0 {
      if |path| == 1 {
        AssignOther(v, path[0], x, q[0]);
      } else {
        var c := Child(v, path[0]).value;
        AssignOther(v, path[0], SetIn(c, path[1..], x).value, q[0]);
      }
    } else {
      assert q[0] == path[0];
      var c := Child(v, path[0]).value;
      var c2 := SetIn(c, path[1..], x).value;
      assert Child(r, path[0]) == Some(c2);
      assert q[1..][..j - 1] == path[1..][..j - 1];
      SetInFrame(c, path[1..], x, q[1..], j - 1);
    }
  }

  /**
   * `handleFieldChange(keyPath, value)` on the loaded document. An empty key
   * path assigns to the key `undefined`, the text of `keyPath[-1]`.
   */
  function HandleFieldChange(data: Object, keyPath: seq<string>, x: Value): (r: Option<Object>)
    ensures |keyPath| == 0 ==> r == Some(data["undefined" := x])
    ensures |keyPath| > 0 ==> (r.Some? <==> SetIn(Obj(data), keyPath, x).Some?)
    ensures |keyPath| > 0 && r.Some? ==> SetIn(Obj(data), keyPath, x) == Some(Obj(r.value))
  {
    if |keyPath| == 0 then Some(data["undefined" := x])
    else match SetIn(Obj(data), keyPath, x)
      case Some(Obj(f)) => Some(f)
      case _ => None
  }

  /** After the change the path holds the new value, and every path that leaves it early is untouched. */
  lemma FieldChangeEffect(data: Object, keyPath: seq<string>, x: Value, q: seq<string>, j: nat)
    requires |keyPath| > 0 && HandleFieldChange(data, keyPath, x).Some?
    ensures GetIn(Obj(HandleFieldChange(data, keyPath, x).value), keyPath) == Some(x)
    ensures j < |keyPath| && j < |q| && q[..j] == keyPath[..j] && q[j] != keyPath[j] ==>
              GetIn(Obj(HandleFieldChange(data, keyPath, x).value), q) == GetIn(Obj(data), q)
  {
    if j < |keyPath| && j < |q| && q[..j] == keyPath[..j] && q[j] != keyPath[j] {
      SetInFrame(Obj(data), keyPath, x, q, j);
    }
  }

  // ---------------------------------------------------------------------------
  // Arrays
  // ---------------------------------------------------------------------------

  predicate IsPrimitive(v: Value) {
    v.Str? || v.Num? || v.Bool?
  }

  /** `value.every(item => typeof item is string, number or boolean)`. */
  predicate IsPrimitiveArray(items: seq<Value>) {
    forall i :: 0 <= i < |items| ==> IsPrimitive(items[i])
  }

  /** `value.join("\n")`: the text area's content. */
  function ArrayText(items: seq<Value>): string {
    Join(ElementTexts(items), "\n")
  }

  /** `e.target.value.split("\n")`: the array the text area's content becomes. */
  function TextLines(text: string): (r: seq<Value>)
    ensures |r| >= 1
    ensures forall i :: 0 <= i < |r| ==> r[i].Str? && '\n' !in r[i].s
  {
    var lines := SplitChar(text, '\n');
    seq(|lines|, i requires 0 <= i < |lines| => Str(lines[i]))
  }

  lemma StringTexts(xs: seq<string>)
    ensures ElementTexts(seq(|xs|, i requires 0 <= i < |xs| => Str(xs[i]))) == xs
    decreases |xs|
  {
    if |xs| > 0 {
      var vs := seq(|xs|, i requires 0 <= i < |xs| => Str(xs[i]));
      assert vs[1..] == seq(|xs| - 1, i requires 0 <= i < |xs| - 1 => Str(xs[1..][i]));
      StringTexts(xs[1..]);
    }
  }

  /** Whatever is typed, the text area shows it again after the round trip through the array. */
  lemma TextSurvives(text: string)
    ensures ArrayText(TextLines(text)) == text
  {
    StringTexts(SplitChar(text, '\n'));
    JoinSplit(text, '\n');
  }

  /**
   * A non-empty array of strings without line breaks comes back unchanged;
   * numbers and booleans come back as their text.
   */
  lemma LinesSurvive(items: seq<Value>)
    requires |items| >= 1 && IsPrimitiveArray(items)
    requires forall i :: 0 <= i < |items| ==> '\n' !in ToText(items[i])
    ensures |TextLines(ArrayText(items))| == |items|
    ensures forall i :: 0 <= i < |items| ==> TextLines(ArrayText(items))[i] == Str(ToText(items[i]))
  {
    var texts := ElementTexts(items);
    ElementTextsAt(items);
    SplitJoin(texts, '\n');
  }

  lemma ElementTextsAt(items: seq<Value>)
    ensures forall i :: 0 <= i < |items| ==>
              ElementTexts(items)[i] == if items[i].Null? then "" else ToText(items[i])
  {
    forall i | 0 <= i < |items|
      ensures ElementTexts(items)[i] == if items[i].Null? then "" else ToText(items[i])
    {
      ElementTextAt(items, i);
    }
  }

  lemma {:induction false} ElementTextAt(items: seq<Value>, i: nat)
    requires i < |items|
    ensures ElementTexts(items)[i] == if items[i].Null? then "" else ToText(items[i])
    decreases i
  {
    if i > 0 {
      ElementTextAt(items[1..], i - 1);
      assert items[1..][i - 1] == items[i];
    }
  }

  /**
   * An empty array counts as primitive, so it is shown in the text area, and
   * it becomes one empty string once edited.
   */
  lemma EmptyArrayGainsLine()
    ensures IsPrimitiveArray([])
    ensures TextLines(ArrayText([])) == [Str("")]
  {
  }

  /** `updated = [...value]; updated[index] = text`. */
  function EditElement(items: seq<Value>, index: nat, text: string): (r: seq<Value>)
    requires index < |items|
    ensures |r| == |items|
    ensures r[index] == Str(text)
    ensures forall j :: 0 <= j < |items| && j != index ==> r[j] == items[j]
  {
    items[index := Str(text)]
  }

  /**
   * Editing one element of an array and storing the whole array at `keyPath`
   * is the same as storing the text at `keyPath` followed by the element's index.
   */
  lemma {:induction false} ElementEditIsDeepUpdate(v: Value, keyPath: seq<string>, items: seq<Value>, index: nat, text: string)
    requires |keyPath| > 0 && GetIn(v, keyPath) == Some(Arr(items)) && index < |items|
    ensures SetIn(v, keyPath, Arr(EditElement(items, index, text)))
         == SetIn(v, keyPath + [NatToString(index)], Str(text))
    decreases |keyPath|
  {
    ParseIndexOfNatToString(index);
    var c := Child(v, keyPath[0]).value;
    if |keyPath| == 1 {
      assert (keyPath + [NatToString(index)])[1..] == [NatToString(index)];
    } else {
      assert (keyPath + [NatToString(index)])[1..] == keyPath[1..] + [NatToString(index)];
      ElementEditIsDeepUpdate(c, keyPath[1..], items, index, text);
    }
  }

  // ---------------------------------------------------------------------------
  // `handleSend`
  // ---------------------------------------------------------------------------

  /** A `localStorage` read: `null` when nothing is stored. */
  function Stored(x: Option<string>): Value {
    if x.Some? then Str(x.value) else Null
  }

  /** `{resourceCategory, ...parsedData, githubUser, githubToken}`. */
  function SendPayload(category: string, parsed: Object, user: Option<string>, token: Option<string>): Object {
    map["resourceCategory" := Str(category)] + parsed
      + map["githubUser" := Stored(user), "githubToken" := Stored(token)]
  }

  /** Later spreads win: the document overrides the category, and the stored identity overrides the document. */
  lemma SendPrecedence(category: string, parsed: Object, user: Option<string>, token: Option<string>)
    ensures var r := SendPayload(category, parsed, user, token);
            && (forall k :: k in r <==> k in parsed || k in {"resourceCategory", "githubUser", "githubToken"})
            && r["githubUser"] == Stored(user) && r["githubToken"] == Stored(token)
            && r["resourceCategory"] == (if "resourceCategory" in parsed then parsed["resourceCategory"] else Str(category))
            && (forall k :: k in parsed && k != "githubUser" && k != "githubToken" ==> r[k] == parsed[k])
  {
  }

  // ---------------------------------------------------------------------------
  // The page state
  // ---------------------------------------------------------------------------

  datatype Page = Page(
    resourceCategory: string, url: string, fileContent: string,
    filePath: string, parsedData: Object, error: string)

  /** `handleClearResource`. */
  function Clear(p: Page): (r: Page)
    ensures r.resourceCategory == "" && r.url == "" && r.fileContent == "" && r.filePath == ""
    ensures |r.parsedData| == 0 && r.error == ""
  {
    Page("", "", "", "", map[], "")
  }

  /** The send button is offered only while the document has a key. */
  predicate CanSend(p: Page) {
    |p.parsedData| > 0
  }

  /** `handleSend`: a post the backend accepts clears the page; a failed one leaves it as it was. */
  function AfterSend(p: Page, posted: bool): (r: Page)
    ensures posted ==> !CanSend(r) && r.fileContent == ""
    ensures !posted ==> r == p
  {
    if posted then Clear(p) else p
  }

  /** What `yaml.load` gives: a document (which may be empty), or an exception. */
  datatype YamlLoad = Parsed(doc: Option<Object>) | Invalid

  /** What `handleFetch` meets. */
  datatype Fetch =
    | NoCredentials
    | NetworkError
    | Refused(message: Option<string>)
    | Loaded(content: string, path: string, yaml: YamlLoad)

  const MissingCredentials: string := "Token o username no disponible."
  const LoadFailed: string := "Error al cargar archivo."
  const NetworkFailed: string := "Error de red o servidor."

  /**
   * `handleFetch`. A loaded file sets the content, the path, the category
   * (by the first-match test) and the document; the message for invalid YAML
   * is set and then immediately replaced by the empty message.
   */
  function HandleFetch(p: Page, f: Fetch): (r: Page)
    ensures f.NoCredentials? ==> r == p.(error := MissingCredentials)
    ensures f.NetworkError? ==> r == p.(error := NetworkFailed)
    ensures f.Refused? ==> r == p.(error := r.error) && |r.error| > 0
    ensures f.Refused? && f.message.Some? && |f.message.value| > 0 ==> r.error == f.message.value
    ensures f.Refused? && (f.message.None? || f.message == Some("")) ==> r.error == LoadFailed
    ensures f.Loaded? ==>
              && r.fileContent == f.content && r.filePath == f.path && r.error == ""
              && r.resourceCategory == GetResourceCategory(f.path) && r.url == p.url
              && (f.yaml.Invalid? ==> r.parsedData == p.parsedData)
              && (f.yaml == Parsed(None) ==> r.parsedData == map[])
              && (f.yaml.Parsed? && f.yaml.doc.Some? ==> r.parsedData == f.yaml.doc.value)
  {
    match f
    case NoCredentials => p.(error := MissingCredentials)
    case NetworkError => p.(error := NetworkFailed)
    case Refused(m) => p.(error := if m.Some? && |m.value| > 0 then m.value else LoadFailed)
    case Loaded(content, path, y) =>
      var parsed := if y.Parsed? then y.doc.GetOr(map[]) else p.parsedData;
      p.(fileContent := content, filePath := path, resourceCategory := GetResourceCategory(path),
         parsedData := parsed, error := "")
  }

  /** The corrected `handleFetch`: the category is read from the leading content directory. */
  function HandleFetchSniffed(p: Page, f: Fetch): (r: Page)
    ensures f.Loaded? ==> r.resourceCategory == SniffCategory(f.path)
    ensures r.(resourceCategory := "") == HandleFetch(p, f).(resourceCategory := "")
    ensures !f.Loaded? ==> r == HandleFetch(p, f)
  {
    var q := HandleFetch(p, f);
    if f.Loaded? then q.(resourceCategory := SniffCategory(f.path)) else q
  }

  /** On every content path whose slug holds none of the category words, both versions load the same page. */
  lemma LoadsAgreeOnPlainSlugs(p: Page, content: string, kind: string, slug: string, y: YamlLoad)
    requires PathUtils.ContentPath(kind, slug).Success?
    requires !Contains(slug, "newsletters") && !Contains(slug, "projects") && !Contains(slug, "events")
    ensures var f := Loaded(content, PathUtils.ContentPath(kind, slug).value, y);
            HandleFetch(p, f) == HandleFetchSniffed(p, f)
  {
    FirstMatchAgreesOnPlainSlugs(kind, slug);
  }

  /**
   * Loading the professor `events` files the page under Events, so sending it
   * back commits under `events/`, while the file lives under `professors/`.
   */
  lemma ProfessorEventsPageMisfiled(p: Page, content: string, path: string, y: YamlLoad)
    requires PathUtils.ContentPath("professors", "events") == Success(path)
    ensures HandleFetch(p, Loaded(content, path, y)).resourceCategory == "Events"
    ensures HandleFetchSniffed(p, Loaded(content, path, y)).resourceCategory == "Professor"
    ensures RemotePaths.PrefixOf(Some(Str(HandleFetch(p, Loaded(content, path, y)).resourceCategory))) == Some("events/")
    ensures path[..11] == "professors/"
  {
    ProfessorReadAsEvent(path);
  }
}

=== FILE: edited_resource_parser.dfy ===
/**
 * The parser for edited resources: each handler rebuilds the resource's YAML
 * record from the edited fields, stages it in a folder named after the
 * resource, asks `createPR` for a "Modifying" pull request from a branch
 * named after the same resource, and deletes the staging folder afterwards.
 * Any exception inside a handler is caught and logged.
 */
module EditedResourceParser {
  import opened Wrappers
  import opened Strings
  import opened Values
  import opened DirManager
  import opened Records
  import RemotePaths
  import PrManagement

  /** `format(new Date(x), ...)`: `None` when the date is invalid, which makes `format` throw. */
  type DateFormat = Option<Value> -> Option<string>

  // ---------------------------------------------------------------------------
  // The records
  // ---------------------------------------------------------------------------

  /** The `eventData` entries copied from the request as they are. */
  const EventPlain: set<string> :=
    {"id", "timezone", "address_city_country", "name", "type", "description", "language", "links", "project_id", "tags"}

  /**
   * `eventData`: `None` when one of the dates cannot be formatted; otherwise
   * the dates are the formatted texts and every other field is copied.
   */
  function EventRecord(data: Object, fmt: DateFormat): (r: Option<Object>)
    ensures r.Some? <==> fmt(Field(data, "start_date")).Some? && fmt(Field(data, "end_date")).Some?
    ensures r.Some? ==>
              && KeysWithin(r.value, EventPlain + {"start_date", "end_date"})
              && Copies(r.value, data, EventPlain)
              && "start_date" in r.value && r.value["start_date"] == Str(fmt(Field(data, "start_date")).value)
              && "end_date" in r.value && r.value["end_date"] == Str(fmt(Field(data, "end_date")).value)
  {
    var start := fmt(Field(data, "start_date"));
    var end := fmt(Field(data, "end_date"));
    if start.None? || end.None? then None
    else
      var extras := map["start_date" := Str(start.value), "end_date" := Str(end.value)];
      OverlayKeepsCopies(Pick(data, EventPlain), extras, data, EventPlain, {"start_date", "end_date"});
      Some(Pick(data, EventPlain) + extras)
  }

  /** The `newsletterData` entries copied from the request as they are. */
  const NewsletterPlain: set<string> :=
    {"id", "title", "author", "level", "publication_date", "link", "language", "contributor_names", "tags"}

  /** `newsletterData`: the fields copied, the description re-typed with a line break. */
  function NewsletterRecord(data: Object): (r: Object)
    ensures KeysWithin(r, NewsletterPlain + {"description"})
    ensures Copies(r, data, NewsletterPlain)
    ensures "description" in r && r["description"] == Str(Interpolate(Field(data, "description")) + "\n")
  {
    var extras := map["description" := Str(Interpolate(Field(data, "description")) + "\n")];
    OverlayKeepsCopies(Pick(data, NewsletterPlain), extras, data, NewsletterPlain, {"description"});
    Pick(data, NewsletterPlain) + extras
  }

  /** `...(x && {k: x})`: the entry exists only when `x` is truthy. */
  function IfTruthy(x: Option<Value>): (r: Option<Value>)
    ensures r.Some? <==> TruthyOpt(x)
    ensures r.Some? ==> r == x
  {
    if TruthyOpt(x) then x else None
  }

  /** The `professorYMLData` entries copied from the request as they are. */
  const ProfessorPlain: set<string> := {"id", "name", "contributor_id", "links", "affiliations", "tags"}

  /** `professorYMLData`: the fields copied, `tips` and `company` only when truthy. */
  function ProfessorRecord(data: Object): (r: Object)
    ensures KeysWithin(r, ProfessorPlain + {"tips", "company"})
    ensures Copies(r, data, ProfessorPlain)
    ensures "tips" in r <==> TruthyOpt(Field(data, "tips"))
    ensures "tips" in r ==> r["tips"] == data["tips"]
    ensures "company" in r <==> TruthyOpt(Field(data, "company"))
    ensures "company" in r ==> r["company"] == data["company"]
  {
    OverlayKeepsCopies(Pick(data, ProfessorPlain), TruthyPick(data, {"tips", "company"}), data, ProfessorPlain, {"tips", "company"});
    Pick(data, ProfessorPlain) + TruthyPick(data, {"tips", "company"})
  }

  /** The entries `k: data.k` for each `k` of `keys` whose value is truthy. */
  function TruthyPick(data: Object, keys: set<string>): (r: Object)
    ensures KeysWithin(r, keys)
    ensures forall k :: k in keys ==> (k in r <==> TruthyOpt(Field(data, k))) && (k in r ==> r[k] == data[k])
  {
    map k | k in keys && k in data && Truthy(data[k]) :: data[k]
  }

  /** The `projectData` entries copied from the request as they are. */
  const ProjectPlain: set<string> :=
    {"id", "name", "language", "category", "original_language", "tags", "contributor_names"}

  /** `projectData`: the fields copied, `links` only when truthy. */
  function ProjectOverlay(data: Object): (r: Object)
    ensures KeysWithin(r, ProjectPlain + {"links"})
    ensures Copies(r, data, ProjectPlain)
    ensures "links" in r <==> TruthyOpt(Field(data, "links"))
    ensures "links" in r ==> r["links"] == data["links"]
  {
    OverlayKeepsCopies(Pick(data, ProjectPlain), TruthyPick(data, {"links"}), data, ProjectPlain, {"links"});
    Pick(data, ProjectPlain) + TruthyPick(data, {"links"})
  }

  /** The request fields that never reach the project file. */
  const Excluded: set<string> := {"resourceCategory", "githubUser", "githubToken"}

  /**
   * `{...filteredData, ...projectData}`: every request field except the
   * excluded ones, overlaid by `projectData`. An entry of `projectData` that is
   * undefined comes from a field the request does not carry, so leaving it out
   * of the overlay gives the same document.
   */
  function ProjectRecord(data: Object): (r: Object)
    ensures forall k :: k in Excluded ==> k !in r
    ensures forall k :: k in data && k !in Excluded ==> k in r
    ensures forall k :: k in r && k !in ProjectOverlay(data) ==> k in data && r[k] == data[k]
    ensures forall k :: k in ProjectOverlay(data) ==> k in r && r[k] == ProjectOverlay(data)[k]
  {
    OverlayOnFiltered(data, Excluded, ProjectOverlay(data), ProjectPlain + {"links"});
    (data - Excluded) + ProjectOverlay(data)
  }

  /** The documents a handler writes; `None` when building them throws. */
  function Documents(h: Handler, data: Object, fmt: DateFormat): Option<seq<Doc>> {
    match h
    case EventsHandler =>
      var e := EventRecord(data, fmt);
      if e.None? then None else Some([Doc("event.yml", e.value)])
    case NewsletterHandler => Some([Doc("newsletter.yml", NewsletterRecord(data))])
    case ProfessorHandler => Some([Doc("professor.yml", ProfessorRecord(data))])
    case ProjectHandler => Some([Doc("project.yml", ProjectRecord(data))])
  }

  // ---------------------------------------------------------------------------
  // The submission
  // ---------------------------------------------------------------------------

  /** `branchData`: the owner and token as the request carries them, and the branch name. */
  datatype BranchData = BranchData(owner: Option<Value>, token: Option<Value>, branchName: string)

  /** `commitData`; `folderPath` and `remotePath` are undefined when their helpers answer undefined. */
  datatype CommitData = CommitData(
    owner: Option<Value>, token: Option<Value>, branchName: string,
    folderPath: Option<string>, remotePath: Option<string>,
    resourceName: string, category: Option<Value>, addOrMod: string)

  datatype Submission = Submission(branch: BranchData, commit: CommitData)

  /**
   * What a handler leaves behind: the file system, the YAML files written, the
   * request handed to `createPR` if one was, and whether the staging folder
   * was deleted. `failed` when an exception was caught and logged.
   */
  datatype Edited = Edited(fs: Fs, files: seq<YamlFile>, submitted: Option<Submission>, deleted: bool, failed: bool)

  const AddOrMod: string := "Modifying"

  /**
   * The request handed to `createPR` once the resource named `name` is staged
   * at `folder`: a "Modifying" request in the request's category, whose branch
   * is the request's user, a dash and the normalised name.
   */
  function SubmissionOf(data: Object, name: string, folder: Option<string>): (s: Submission)
    ensures s.branch.owner == s.commit.owner == Field(data, "githubUser")
    ensures s.branch.token == s.commit.token == Field(data, "githubToken")
    ensures s.commit.branchName == s.branch.branchName
    ensures var user := Interpolate(Field(data, "githubUser"));
            && |s.branch.branchName| == |user| + 1 + |name|
            && s.branch.branchName[..|user| + 1] == user + "-"
            && s.branch.branchName[|user| + 1..] == Slugify(name)
    ensures s.commit.folderPath == folder && s.commit.remotePath == RemotePaths.GetRemotePath(data)
    ensures s.commit.resourceName == name && s.commit.addOrMod == "Modifying"
    ensures s.commit.category == Field(data, "resourceCategory")
  {
    var owner := Field(data, "githubUser");
    var token := Field(data, "githubToken");
    var branchName := PrManagement.BranchNameCreator(Interpolate(owner), name);
    Submission(
      BranchData(owner, token, branchName),
      CommitData(owner, token, branchName, folder, RemotePaths.GetRemotePath(data),
                 name, Field(data, "resourceCategory"), AddOrMod))
  }

  /**
   * The steps after the records are built: create the folder, write the
   * documents, hand the request to `createPR` (which returns, or throws when
   * `prThrows`), and delete the folder. `rm` throws when the path is
   * undefined or missing.
   */
  function SubmitDocs(fs: Fs, data: Object, docs: seq<Doc>, name: string, mkdirFails: bool, prThrows: bool): (e: Edited)
    ensures fs <= e.fs || e.deleted
  {
    var made := CreateFolder(fs, name, mkdirFails);
    var w := WriteDocs(made.fs, TemplateText(made.path), docs);
    if w.None? then Edited(made.fs, [], None, false, true)
    else
      var sub := SubmissionOf(data, name, made.path);
      if prThrows || made.path.None? then Edited(w.value.fs, w.value.files, Some(sub), false, true)
      else
        assert made.path.value in w.value.fs;
        Edited(DeleteFolder(w.value.fs, made.path.value).value, w.value.files, Some(sub), true, false)
  }

  /** One `parse*` handler of the edit flow. */
  function Submit(fs: Fs, h: Handler, data: Object, fmt: DateFormat, mkdirFails: bool, prThrows: bool): (e: Edited)
    ensures var name := Field(data, NameKey(h));
            Documents(h, data, fmt).None? || !(name.Some? && name.value.Str?) ==> e == Edited(fs, [], None, false, true)
    ensures var name := Field(data, NameKey(h));
            Documents(h, data, fmt).Some? && name.Some? && name.value.Str? ==>
              e == SubmitDocs(fs, data, Documents(h, data, fmt).value, name.value.s, mkdirFails, prThrows)
  {
    var docs := Documents(h, data, fmt);
    var name := Field(data, NameKey(h));
    if docs.None? || !(name.Some? && name.value.Str?) then Edited(fs, [], None, false, true)
    else SubmitDocs(fs, data, docs.value, name.value.s, mkdirFails, prThrows)
  }

  /** `resourceIdentifier(data)` with the handler run to completion. */
  function ResourceIdentifier(fs: Fs, data: Object, fmt: DateFormat, mkdirFails: bool, prThrows: bool): (e: Edited)
    ensures Dispatch(Field(data, "resourceCategory")).None? ==> e == Edited(fs, [], None, false, false)
    ensures Dispatch(Field(data, "resourceCategory")).Some? ==>
              e == Submit(fs, Dispatch(Field(data, "resourceCategory")).value, data, fmt, mkdirFails, prThrows)
  {
    match Dispatch(Field(data, "resourceCategory"))
    case None => Edited(fs, [], None, false, false)
    case Some(h) => Submit(fs, h, data, fmt, mkdirFails, prThrows)
  }

  // ---------------------------------------------------------------------------
  // Properties
  // ---------------------------------------------------------------------------

  /**
   * Every submission asks for a "Modifying" pull request in the request's
   * category, from a branch named after the request's user and the resource.
   */
  lemma SubmissionFields(fs: Fs, data: Object, docs: seq<Doc>, name: string, mkdirFails: bool, prThrows: bool)
    ensures var e := SubmitDocs(fs, data, docs, name, mkdirFails, prThrows);
            e.submitted.Some? ==>
              var c := e.submitted.value.commit;
              && c.resourceName == name
              && c.addOrMod == "Modifying"
              && c.category == Field(data, "resourceCategory")
              && c.owner == Field(data, "githubUser")
              && c.branchName == e.submitted.value.branch.branchName
              && c.branchName == PrManagement.BranchNameCreator(Interpolate(Field(data, "githubUser")), c.resourceName)
              && c.remotePath == RemotePaths.GetRemotePath(data)
              && (c.folderPath.None? <==> mkdirFails)
              && (c.folderPath.Some? ==> c.folderPath.value == FolderPath(c.resourceName))
  {
  }

  /** Every handler names its folder and branch after `name`, except the newsletter's, which uses `title`. */
  lemma SubmittedName(fs: Fs, h: Handler, data: Object, fmt: DateFormat, mkdirFails: bool, prThrows: bool)
    ensures var e := Submit(fs, h, data, fmt, mkdirFails, prThrows);
            e.submitted.Some? ==>
              && Field(data, if h.NewsletterHandler? then "title" else "name") == Some(Str(e.submitted.value.commit.resourceName))
  {
    var e := Submit(fs, h, data, fmt, mkdirFails, prThrows);
    var name := Field(data, NameKey(h));
    if e.submitted.Some? {
      assert name.Some? && name.value.Str?;
      SubmissionFields(fs, data, Documents(h, data, fmt).value, name.value.s, mkdirFails, prThrows);
    }
  }

  /**
   * The branch and the staging folder carry the same normalised name: what
   * follows `<user>-` in the branch is what follows `temp/` in the folder.
   */
  lemma BranchMatchesFolder(data: Object, name: string)
    ensures var c := SubmissionOf(data, name, Some(FolderPath(name))).commit;
            var owner := Interpolate(Field(data, "githubUser"));
            c.branchName[|owner| + 1..] == c.folderPath.value[|StagingRoot|..] == Slugify(name)
  {
    var owner := Interpolate(Field(data, "githubUser"));
    var b := PrManagement.BranchNameCreator(owner, name);
    assert b == owner + "-" + Slugify(name);
    assert b[|owner| + 1..] == Slugify(name);
    assert FolderPath(name) == StagingRoot + Slugify(name);
  }

  /**
   * The staging folder is deleted only after `createPR` returned; a failure at
   * any earlier step leaves it in place. When nothing fails, the folder and
   * everything in it are gone, and nothing else is touched.
   */
  lemma DeletedOnlyAfterSubmission(fs: Fs, data: Object, docs: seq<Doc>, name: string, mkdirFails: bool, prThrows: bool)
    ensures var e := SubmitDocs(fs, data, docs, name, mkdirFails, prThrows);
            e.deleted ==> e.submitted.Some? && !prThrows && !mkdirFails && !e.failed
    ensures var e := SubmitDocs(fs, data, docs, name, mkdirFails, prThrows);
            !mkdirFails && !prThrows ==>
              && e.deleted && |e.files| == |docs|
              && (forall q :: q in e.fs ==> !Within(q, FolderPath(name)))
              && (forall q :: q in fs && !Within(q, FolderPath(name)) ==> q in e.fs)
  {
    if !mkdirFails && !prThrows {
      var made := CreateFolder(fs, name, false);
      var dir := FolderPath(name);
      assert made.path == Some(dir) && dir in made.fs;
      var w := WriteDocs(made.fs, dir, docs);
      assert w.Some? && dir in w.value.fs;
      var e := SubmitDocs(fs, data, docs, name, false, false);
      assert e.fs == DeleteFolder(w.value.fs, dir).value;
      assert fs <= w.value.fs;
    }
  }

  /**
   * The project file holds every request field except the excluded ones, with
   * `projectData` winning where both define a key.
   */
  lemma ProjectMerge(data: Object)
    ensures var r := ProjectRecord(data);
            var o := ProjectOverlay(data);
            && (forall k :: k in r <==> (k in data && k !in Excluded) || k in o)
            && (forall k :: k in o ==> r[k] == o[k])
            && (forall k :: k in r && k !in o ==> r[k] == data[k])
            && (forall k :: k in Excluded ==> k !in r)
  {
    OverlayKeys(data);
  }

  /** `projectData` defines only its own eight keys. */
  lemma OverlayKeys(data: Object)
    ensures forall k :: k in ProjectOverlay(data) ==>
              k in {"id", "name", "language", "links", "category", "original_language", "tags", "contributor_names"}
  {
  }

  /**
   * A falsy `links` is not overlaid, but it is not removed either: the
   * request's own value passes through the filter into the project file.
   */
  lemma FalsyProjectLinksKept(data: Object)
    requires "links" in data && !Truthy(data["links"])
    ensures "links" in ProjectRecord(data) && ProjectRecord(data)["links"] == data["links"]
  {
    assert "links" !in ProjectOverlay(data);
  }

  /** The professor's `tips` and `company` are written only when truthy, and then as given. */
  lemma ProfessorOptionalFields(data: Object)
    ensures var r := ProfessorRecord(data);
            && ("tips" in r <==> TruthyOpt(Field(data, "tips")))
            && ("tips" in r ==> r["tips"] == data["tips"])
            && ("company" in r <==> TruthyOpt(Field(data, "company")))
            && ("company" in r ==> r["company"] == data["company"])
  {
  }

  /** The newsletter's description is the field's text with a line break appended. */
  lemma NewsletterDescription(data: Object)
    ensures "description" in NewsletterRecord(data)
    ensures var d := NewsletterRecord(data)["description"];
            && d.Str? && |d.s| > 0 && d.s[|d.s| - 1] == '\n'
            && ("description" in data && data["description"].Str? ==> d.s == data["description"].s + "\n")
  {
  }
}

=== FILE: github_manage.dfy ===
/**
 * The `/forks` handler: make sure the signed-in user has a fork of the portal
 * repository, then make sure the fork has the integration branch
 * `sync-repo-<login>`: force it to upstream `dev` when it exists, create it
 * from the fork's `main` when it does not. The answer is a link to that
 * branch, or status 500 with the first error's message.
 */
module GithubManage {
  import opened Wrappers
  import opened Strings
  import opened Values
  import opened Remote
  import opened BranchManagement

  const ForkedRepo: string := "BEC-Github"
  const UpstreamRepo: RepoId := RepoId("jramos0", "BEC-Github")
  const UpstreamDev: RefKey := RefKey(UpstreamRepo, "dev")

  function ForkOf(login: string): RepoId {
    RepoId(login, ForkedRepo)
  }

  function SyncKey(login: string): RefKey {
    RefKey(ForkOf(login), SyncBranch(login))
  }

  function ForkMain(login: string): RefKey {
    RefKey(ForkOf(login), "main")
  }

  const RefExists: string := "Reference already exists"

  /** The answer of a successful run: the web page of the integration branch. */
  function BranchLink(login: string): (url: string)
    ensures |url| == 19 + |login| + 17 + |SyncBranch(login)|
    ensures url[..19] == "https://github.com/" && url[19..19 + |login|] == login
    ensures url[19 + |login|..19 + |login| + 17] == "/" + ForkedRepo + "/tree/"
    ensures url[19 + |login| + 17..] == SyncBranch(login)
  {
    "https://github.com/" + login + "/" + ForkedRepo + "/tree/" + SyncBranch(login)
  }

  /** The platform state after a step, and the error it throws, if any. */
  datatype Step = Step(env: Env, error: Option<string>)

  /**
   * The message a failed request throws: fetch's own error when nothing
   * answered, otherwise the handler's text followed by the platform's message.
   */
  function Thrown<T>(context: string, resp: Response<T>): string
    requires resp.NotOk?
  {
    if resp.Unanswered() then resp.message else context + resp.message
  }

  /** The fork lookup answered 404, which is the only answer that leads to a fork request. */
  predicate ForkMissing(env: Env, ok: Oracle, login: string) {
    var look := ReadRepoCall(env, ok, ForkOf(login)).resp;
    look.NotOk? && look.status == 404
  }

  /** Step 1: find the user's fork, and request one when the lookup answers 404. */
  function EnsureFork(env: Env, ok: Oracle, login: string): (s: Step)
    ensures IsPrefix(env.log + [ReadRepo(ForkOf(login))], s.env.log)
    ensures s.env.store.refs == env.store.refs
    // a fork is requested exactly when the lookup answers 404
    ensures ForkMissing(env, ok, login) ==> s.env.log == env.log + [ReadRepo(ForkOf(login)), CreateFork(UpstreamRepo)]
    ensures !ForkMissing(env, ok, login) ==> s.env == Logged(env, ReadRepo(ForkOf(login)))
    // an existing fork passes; the lookup's other failures throw without a fork request
    ensures var look := ReadRepoCall(env, ok, ForkOf(login)).resp;
            look.Ok? ==> s.error.None?
    ensures var look := ReadRepoCall(env, ok, ForkOf(login)).resp;
            look.NotOk? && look.status != 404 ==> s.error == Some(Thrown("Error al verificar el fork: ", look))
    // after a 404 the step succeeds exactly when the fork request does
    ensures ForkMissing(env, ok, login) ==>
              var fork := CreateForkCall(Logged(env, ReadRepo(ForkOf(login))), ok, UpstreamRepo, login).resp;
              && (s.error.None? <==> fork.Ok?)
              && (fork.NotOk? ==> s.error == Some(Thrown("Error al crear el fork: ", fork)))
    ensures s.error.None? ==> ForkOf(login) in s.env.store.repos
  {
    var look := ReadRepoCall(env, ok, ForkOf(login));
    PrefixSnoc(env.log, ReadRepo(ForkOf(login)));
    if look.resp.Ok? then Step(look.env, None)
    else if look.resp.status != 404 then Step(look.env, Some(Thrown("Error al verificar el fork: ", look.resp)))
    else
      var fork := CreateForkCall(look.env, ok, UpstreamRepo, login);
      PrefixSnoc(look.env.log, CreateFork(UpstreamRepo));
      if fork.resp.NotOk? then Step(fork.env, Some(Thrown("Error al crear el fork: ", fork.resp)))
      else Step(fork.env, None)
  }

  /** Step 2a: an existing branch is forced to upstream `dev`; `env` is the state after the branch lookup. */
  function ForceToDev(env: Env, ok: Oracle, login: string): (s: Step)
    ensures IsPrefix(env.log + [ReadRef(UpstreamDev)], s.env.log)
    ensures s.env.store.repos == env.store.repos
    ensures forall k :: |env.log| <= k < |s.env.log| ==> s.env.log[k] != ReadRef(ForkMain(login))
    ensures s.error.None? <==> UpstreamDev in env.store.refs && SyncKey(login) in env.store.refs && AcceptsAll(ok, |env.log|, 2)
    ensures s.error.None? ==>
              && s.env.log == env.log + [ReadRef(UpstreamDev), UpdateRef(SyncKey(login), env.store.refs[UpstreamDev], true)]
              && s.env.store.refs == env.store.refs[SyncKey(login) := env.store.refs[UpstreamDev]]
    ensures s.error.Some? ==> s.env.store.refs == env.store.refs
  {
    var dev := ReadRefCall(env, ok, UpstreamDev);
    PrefixSnoc(env.log, ReadRef(UpstreamDev));
    if dev.resp.NotOk? then Step(dev.env, Some(Thrown("Error al obtener upstream/main: ", dev.resp)))
    else
      var update := UpdateRefCall(dev.env, ok, SyncKey(login), dev.resp.value, true);
      PrefixSnoc(dev.env.log, UpdateRef(SyncKey(login), dev.resp.value, true));
      PrefixTrans(env.log + [ReadRef(UpstreamDev)], dev.env.log, update.env.log);
      if update.resp.NotOk? then Step(update.env, Some(Thrown("Error al sincronizar la rama: ", update.resp)))
      else Step(update.env, None)
  }

  /**
   * Step 2b: a missing branch is created at the fork's `main`, and a creation
   * refused because the ref already exists is accepted; `env` is the state
   * after the branch lookup.
   */
  function CreateFromMain(env: Env, ok: Oracle, login: string): (s: Step)
    ensures IsPrefix(env.log + [ReadRef(ForkMain(login))], s.env.log)
    ensures s.env.store.repos == env.store.repos
    ensures forall k :: |env.log| <= k < |s.env.log| ==> !s.env.log[k].UpdateRef?
    ensures s.error.None? ==>
              && ForkMain(login) in env.store.refs
              && s.env.log == env.log + [ReadRef(ForkMain(login)), CreateRef(SyncKey(login), env.store.refs[ForkMain(login)])]
              && (s.env.store.refs == env.store.refs[SyncKey(login) := env.store.refs[ForkMain(login)]]
                  || s.env.store.refs == env.store.refs)
    // an answered refusal is tolerated exactly when its message mentions the
    // existing reference; an unanswered creation throws fetch's error
    ensures var main := ReadRefCall(env, ok, ForkMain(login));
            main.resp.Ok? ==>
              var create := CreateRefCall(main.env, ok, SyncKey(login), main.resp.value).resp;
              && (create.NotOk? && !create.Unanswered() ==> (s.error.None? <==> Contains(create.message, RefExists)))
              && (create.Unanswered() ==> s.error == Some(create.message))
    // every request accepted: the branch is created
    ensures SyncKey(login) !in env.store.refs && ForkMain(login) in env.store.refs && AcceptsAll(ok, |env.log|, 2) ==>
              s.error.None? && s.env.store.refs == env.store.refs[SyncKey(login) := env.store.refs[ForkMain(login)]]
  {
    var main := ReadRefCall(env, ok, ForkMain(login));
    PrefixSnoc(env.log, ReadRef(ForkMain(login)));
    if main.resp.NotOk? then Step(main.env, Some(Thrown("Error al obtener main del fork: ", main.resp)))
    else
      var create := CreateRefCall(main.env, ok, SyncKey(login), main.resp.value);
      PrefixSnoc(main.env.log, CreateRef(SyncKey(login), main.resp.value));
      PrefixTrans(env.log + [ReadRef(ForkMain(login))], main.env.log, create.env.log);
      if create.resp.Unanswered() then Step(create.env, Some(create.resp.message))
      else if create.resp.NotOk? && !Contains(create.resp.message, RefExists) then
        Step(create.env, Some("Error al crear la rama: " + create.resp.message))
      else Step(create.env, None)
  }

  /**
   * Step 2: bring `sync-repo-<login>` on the fork up to date: look the branch
   * up, then force it to upstream `dev` when it exists and create it from the
   * fork's `main` when the lookup answers with an error status.
   */
  function SyncStep(env: Env, ok: Oracle, login: string): (s: Step)
    ensures IsPrefix(env.log + [ReadRef(SyncKey(login))], s.env.log)
    ensures s.env.store.repos == env.store.repos
    // no answer to the branch lookup: fetch's error is thrown
    ensures var check := ReadRefCall(env, ok, SyncKey(login)).resp;
            check.Unanswered() ==> s == Step(Logged(env, ReadRef(SyncKey(login))), Some(check.message))
    ensures var check := ReadRefCall(env, ok, SyncKey(login)).resp;
            check.Ok? ==> s == ForceToDev(Logged(env, ReadRef(SyncKey(login))), ok, login)
    ensures var check := ReadRefCall(env, ok, SyncKey(login)).resp;
            check.NotOk? && !check.Unanswered() ==> s == CreateFromMain(Logged(env, ReadRef(SyncKey(login))), ok, login)
    // the branch exists and every request is accepted: it is forced to upstream `dev`
    ensures SyncKey(login) in env.store.refs && UpstreamDev in env.store.refs && AcceptsAll(ok, |env.log|, 3) ==>
              s.error.None? && s.env.store.refs == env.store.refs[SyncKey(login) := env.store.refs[UpstreamDev]]
    // the branch is missing and every request is accepted: it is created at the fork's `main`
    ensures SyncKey(login) !in env.store.refs && ForkMain(login) in env.store.refs && AcceptsAll(ok, |env.log|, 3) ==>
              s.error.None? && s.env.store.refs == env.store.refs[SyncKey(login) := env.store.refs[ForkMain(login)]]
  {
    var check := ReadRefCall(env, ok, SyncKey(login));
    PrefixSnoc(env.log, ReadRef(SyncKey(login)));
    if check.resp.Unanswered() then Step(check.env, Some(check.resp.message))
    else
      var next := if check.resp.Ok? then ReadRef(UpstreamDev) else ReadRef(ForkMain(login));
      var s := if check.resp.Ok? then ForceToDev(check.env, ok, login) else CreateFromMain(check.env, ok, login);
      PrefixSnoc(check.env.log, next);
      PrefixTrans(env.log + [ReadRef(SyncKey(login))], check.env.log + [next], s.env.log);
      s
  }

  /** The HTTP answer of `/forks`. */
  datatype ForksReply = ForksReply(env: Env, status: nat, body: string)

  const ErrorPrefix: string := "\U{274C} Error: "

  /**
   * `/forks` for the account behind the request's token; `identity` is the
   * `login` field of the account lookup, absent when the lookup fails.
   */
  method Forks(env: Env, ok: Oracle, identity: Option<string>) returns (r: ForksReply)
    ensures r.status == 200 || r.status == 500
    ensures IsPrefix(env.log + [ReadRepo(ForkOf(TemplateText(identity)))], r.env.log)
    // the fork step runs first; its error ends the handler with status 500 and that message
    ensures var fork := EnsureFork(env, ok, TemplateText(identity));
            fork.error.Some? ==> r == ForksReply(fork.env, 500, ErrorPrefix + fork.error.value)
    // otherwise the branch step runs on the fork step's result, and its error ends the handler the same way
    ensures var fork := EnsureFork(env, ok, TemplateText(identity));
            var sync := SyncStep(fork.env, ok, TemplateText(identity));
            fork.error.None? && sync.error.Some? ==> r == ForksReply(sync.env, 500, ErrorPrefix + sync.error.value)
    // success: the fork exists and the answer links to its integration branch,
    // which now holds upstream `dev` or the fork's `main`, or was left alone
    // because its creation was refused as already existing
    ensures r.status == 200 ==>
              && r.body == BranchLink(TemplateText(identity))
              && ForkOf(TemplateText(identity)) in r.env.store.repos
              && var login := TemplateText(identity);
                 || (UpstreamDev in env.store.refs && r.env.store.refs == env.store.refs[SyncKey(login) := env.store.refs[UpstreamDev]])
                 || (ForkMain(login) in env.store.refs && r.env.store.refs == env.store.refs[SyncKey(login) := env.store.refs[ForkMain(login)]])
                 || r.env.store.refs == env.store.refs
    // an existing fork with an existing branch, every request accepted: the branch is forced to upstream `dev`
    ensures var login := TemplateText(identity);
            ForkOf(login) in env.store.repos && SyncKey(login) in env.store.refs && UpstreamDev in env.store.refs
            && AcceptsAll(ok, |env.log|, 4) ==>
              r.status == 200 && r.env.store.refs == env.store.refs[SyncKey(login) := env.store.refs[UpstreamDev]]
    // an existing fork without the branch, every request accepted: the branch is created at the fork's `main`
    ensures var login := TemplateText(identity);
            ForkOf(login) in env.store.repos && SyncKey(login) !in env.store.refs && ForkMain(login) in env.store.refs
            && AcceptsAll(ok, |env.log|, 4) ==>
              r.status == 200 && r.env.store.refs == env.store.refs[SyncKey(login) := env.store.refs[ForkMain(login)]]
  {
    var login := TemplateText(identity);
    var fork := EnsureFork(env, ok, login);
    if fork.error.Some? {
      return ForksReply(fork.env, 500, ErrorPrefix + fork.error.value);
    }
    var sync := SyncStep(fork.env, ok, login);
    PrefixTrans(env.log + [ReadRepo(ForkOf(login))], fork.env.log, sync.env.log);
    if sync.error.Some? {
      return ForksReply(sync.env, 500, ErrorPrefix + sync.error.value);
    }
    return ForksReply(sync.env, 200, BranchLink(login));
  }
}

=== FILE: path_utils.dfy ===
/**
 * `extractPathFromUrl`: from the public URL of a resource page to the path of
 * the resource's YAML file in the content repository.
 */
module PathUtils {
  import opened Wrappers
  import opened Strings

  datatype PathError = InvalidUrl | IncompleteUrl | UnknownType(kind: string)

  /** The message of the thrown `Error`. */
  function Message(e: PathError): string {
    match e
    case InvalidUrl => "Invalid URL"
    case IncompleteUrl => "Incomplete URL"
    case UnknownType(t) => "Unknown resource type: " + t
  }

  /** The characters that start a fragment or a query. */
  const Markers: set<char> := {'#', '?'}

  const ProfessorBase: string := "/professor/"
  const EventsBase: string := "/events/"
  const ResourcesBase: string := "/resources/"

  /** The base segment, by priority: professor pages, then events, then everything else. */
  function BaseOf(clean: string): (b: string)
    ensures b == ProfessorBase <==> Contains(clean, ProfessorBase)
    ensures b == EventsBase <==> !Contains(clean, ProfessorBase) && Contains(clean, EventsBase)
    ensures b == ResourcesBase <==> !Contains(clean, ProfessorBase) && !Contains(clean, EventsBase)
  {
    if Contains(clean, ProfessorBase) then ProfessorBase
    else if Contains(clean, EventsBase) then EventsBase
    else ResourcesBase
  }

  // ---------------------------------------------------------------------------
  // The trailing identifier
  // ---------------------------------------------------------------------------

  predicate IsLowerHex(c: char) {
    '0' <= c <= '9' || 'a' <= c <= 'f'
  }

  /** Positions of the hyphens in `-xxxxxxxx-xxxx-xxxx-xxxx-xxxxxxxxxxxx`. */
  predicate IsUuidDash(i: int) {
    i == 0 || i == 9 || i == 14 || i == 19 || i == 24
  }

  /** A hyphen followed by a lower-case UUID in 8-4-4-4-12 groups: 37 characters. */
  predicate IsUuidSuffix(s: string) {
    && |s| == 37
    && forall i :: 0 <= i < 37 ==> if IsUuidDash(i) then s[i] == '-' else IsLowerHex(s[i])
  }

  predicate EndsWithUuid(s: string) {
    |s| >= 37 && IsUuidSuffix(s[|s| - 37..])
  }

  /** The end-anchored, non-global replacement: at most one identifier is removed. */
  function StripUuid(s: string): (r: string)
    ensures EndsWithUuid(s) ==> r == s[..|s| - 37]
    ensures !EndsWithUuid(s) ==> r == s
  {
    if EndsWithUuid(s) then s[..|s| - 37] else s
  }

  /** A slug with an identifier appended gets exactly that identifier removed, even if it ends in one itself. */
  lemma StripUuidAppended(name: string, uuid: string)
    requires IsUuidSuffix(uuid)
    ensures StripUuid(name + uuid) == name
  {
    var s := name + uuid;
    assert s[|s| - 37..] == uuid;
    assert s[..|s| - 37] == name;
  }

  // ---------------------------------------------------------------------------
  // The parser
  // ---------------------------------------------------------------------------

  /** The repository path of a resource, by type. */
  function ContentPath(kind: string, slug: string): (r: Result<string, PathError>)
    ensures r.Failure? <==> kind !in {"newsletters", "projects", "professors", "events"}
    ensures r.Failure? ==> r.error == UnknownType(kind)
    ensures r.Success? ==> YamlPath(r.value)
  {
    match kind
    case "newsletters" => Success("resources/newsletters/" + slug + "/newsletter.yml")
    case "projects" => Success("resources/projects/" + slug + "/project.yml")
    case "professors" => Success("professors/" + slug + "/professor.yml")
    case "events" => Success("events/" + slug + "/event.yml")
    case _ => Failure(UnknownType(kind))
  }

  /** The path names a YAML file. */
  predicate YamlPath(path: string) {
    |path| >= 4 && path[|path| - 4..] == ".yml"
  }

  /** The type and raw slug read from the text after the base. */
  function TypeAndSlug(base: string, parts: string): (r: (string, Option<string>))
    ensures base == ProfessorBase ==> r == ("professors", Some(parts))
    ensures base == EventsBase ==> r == ("events", Some(parts))
  {
    if base == ProfessorBase then ("professors", Some(parts))
    else if base == EventsBase then ("events", Some(parts))
    else
      var pieces := SplitChar(parts, '/');
      (pieces[0], if |pieces| >= 2 then Some(pieces[1]) else None)
  }

  /** `extractPathFromUrl(url)`. */
  function ExtractPath(url: string): (r: Result<string, PathError>)
    ensures r.Success? ==> YamlPath(r.value)
    ensures r.Failure? && r.error.UnknownType? ==> r.error.kind !in {"newsletters", "projects", "professors", "events"}
  {
    var clean := CutAtAny(url, Markers);
    var base := BaseOf(clean);
    var pieces := SplitOn(clean, base);
    if |pieces| < 2 || pieces[1] == "" then Failure(InvalidUrl)
    else PathOfParts(base, pieces[1])
  }

  /** The second half of the parser: the text after the base names a type and a slug, and they name a path. */
  function PathOfParts(base: string, parts: string): (r: Result<string, PathError>)
    ensures r.Success? ==> YamlPath(r.value)
    ensures r.Failure? && r.error.UnknownType? ==> r.error.kind !in {"newsletters", "projects", "professors", "events"}
  {
    var (kind, raw) := TypeAndSlug(base, parts);
    if kind == "" || raw.None? || raw.value == "" then Failure(IncompleteUrl)
    else
      var slug := if kind != "events" then StripUuid(raw.value) else raw.value;
      ContentPath(kind, slug)
  }

  // ---------------------------------------------------------------------------
  // Properties
  // ---------------------------------------------------------------------------

  lemma CutAtAnyClean(s: string, stops: set<char>)
    requires forall i :: 0 <= i < |s| ==> s[i] !in stops
    ensures CutAtAny(s, stops) == s
  {
  }

  lemma {:induction false} CutAtAnyAt(clean: string, m: char, rest: string, stops: set<char>)
    requires forall i :: 0 <= i < |clean| ==> clean[i] !in stops
    requires m in stops
    ensures CutAtAny(clean + [m] + rest, stops) == clean
    decreases |clean|
  {
    var s := clean + [m] + rest;
    if |clean| > 0 {
      assert s[1..] == clean[1..] + [m] + rest;
      CutAtAnyAt(clean[1..], m, rest, stops);
      assert [clean[0]] + clean[1..] == clean;
    }
  }

  /** Everything from the first `#` or `?` on is ignored. */
  lemma IgnoresQueryAndFragment(clean: string, m: char, rest: string)
    requires forall i :: 0 <= i < |clean| ==> clean[i] !in Markers
    requires m in Markers
    ensures ExtractPath(clean + [m] + rest) == ExtractPath(clean)
  {
    CutAtAnyAt(clean, m, rest, Markers);
    CutAtAnyClean(clean, Markers);
  }

  /** Removing the query and fragment first changes nothing. */
  lemma CleaningIdempotent(url: string)
    ensures ExtractPath(CutAtAny(url, Markers)) == ExtractPath(url)
  {
    CutAtAnyClean(CutAtAny(url, Markers), Markers);
  }

  /** A URL without its base segment is rejected as invalid. */
  lemma MissingBaseIsInvalid(url: string)
    requires !Contains(CutAtAny(url, Markers), ProfessorBase)
    requires !Contains(CutAtAny(url, Markers), EventsBase)
    requires !Contains(CutAtAny(url, Markers), ResourcesBase)
    ensures ExtractPath(url) == Failure(InvalidUrl)
  {
  }

  /**
   * A professor segment wins over every other: such a URL names a professor
   * file, or is invalid when nothing follows the segment.
   */
  lemma ProfessorBaseFirst(url: string)
    requires Contains(CutAtAny(url, Markers), ProfessorBase)
    ensures var r := ExtractPath(url);
            r == Failure(InvalidUrl) || (r.Success? && |r.value| >= 11 && r.value[..11] == "professors/")
  {
  }

  /** A string with no `/` holds no base segment (each of them starts with `/`). */
  lemma NoSlashNoBase(s: string, base: string)
    requires '/' !in s && |base| > 0 && base[0] == '/'
    ensures !Contains(s, base)
    ensures SplitOn(s, base) == [s]
  {
    forall j: nat | OccursAt(s, base, j)
      ensures false
    {
      OccursAtEnds(s, base, j);
    }
  }

  /** `type/slug` holds only one `/`, so it holds no `/resources/`, which has two. */
  lemma OneSlashNoBase(kind: string, slug: string)
    requires '/' !in kind && '/' !in slug
    ensures !Contains(kind + "/" + slug, ResourcesBase)
    ensures SplitOn(kind + "/" + slug, ResourcesBase) == [kind + "/" + slug]
  {
    var s := kind + "/" + slug;
    forall j: nat | OccursAt(s, ResourcesBase, j)
      ensures false
    {
      OccursAtEnds(s, ResourcesBase, j);
    }
  }

  /** The pieces of a split at the first occurrence of the separator. */
  lemma SplitOnAt(prefix: string, sep: string, tail: string)
    requires |sep| > 0
    requires IndexOf(prefix + sep + tail, sep, 0) == Some(|prefix|)
    ensures SplitOn(prefix + sep + tail, sep) == [prefix] + SplitOn(tail, sep)
  {
    var s := prefix + sep + tail;
    assert s[..|prefix|] == prefix;
    assert s[|prefix| + |sep|..] == tail;
  }

  /**
   * A URL `<prefix><base><parts>` without query or fragment, whose base is
   * found first at the end of `prefix` and does not recur in `parts`, is
   * parsed from `parts`; it is invalid when `parts` is empty.
   */
  lemma SplitStage(prefix: string, base: string, parts: string)
    requires base in {ProfessorBase, EventsBase, ResourcesBase}
    requires CutAtAny(prefix + base + parts, Markers) == prefix + base + parts
    requires BaseOf(prefix + base + parts) == base
    requires IndexOf(prefix + base + parts, base, 0) == Some(|prefix|)
    requires !Contains(parts, base)
    ensures parts == "" ==> ExtractPath(prefix + base + parts) == Failure(InvalidUrl)
    ensures parts != "" ==> ExtractPath(prefix + base + parts) == PathOfParts(base, parts)
  {
    var url := prefix + base + parts;
    SplitOnAt(prefix, base, parts);
    assert SplitOn(url, base) == [prefix, parts];
  }

  /** Nothing after the base segment: `split(base)[1]` is empty, and the URL is invalid. */
  lemma NothingAfterBaseIsInvalid(prefix: string, base: string)
    requires base in {ProfessorBase, EventsBase, ResourcesBase}
    requires forall i :: 0 <= i < |prefix + base| ==> (prefix + base)[i] !in Markers
    requires BaseOf(prefix + base) == base
    requires IndexOf(prefix + base, base, 0) == Some(|prefix|)
    ensures ExtractPath(prefix + base) == Failure(InvalidUrl)
  {
    assert prefix + base + "" == prefix + base;
    assert !Contains("", base);
    CutAtAnyClean(prefix + base, Markers);
    SplitStage(prefix, base, "");
  }

  /** A resources URL naming a type but no slug (`.../resources/projects`) is incomplete. */
  lemma TypeWithoutSlugIsIncomplete(prefix: string, kind: string)
    requires '/' !in kind
    requires forall i :: 0 <= i < |prefix + ResourcesBase + kind| ==> (prefix + ResourcesBase + kind)[i] !in Markers
    requires !Contains(prefix + ResourcesBase + kind, ProfessorBase)
    requires !Contains(prefix + ResourcesBase + kind, EventsBase)
    requires IndexOf(prefix + ResourcesBase + kind, ResourcesBase, 0) == Some(|prefix|)
    ensures ExtractPath(prefix + ResourcesBase + kind) == Failure(if kind == "" then InvalidUrl else IncompleteUrl)
  {
    NoSlashNoBase(kind, ResourcesBase);
    CutAtAnyClean(prefix + ResourcesBase + kind, Markers);
    SplitStage(prefix, ResourcesBase, kind);
    SplitCharNoSeparator(kind, '/');
  }

  /** A resources URL with an empty type (`.../resources//<slug>`) is incomplete. */
  lemma EmptyTypeIsIncomplete(prefix: string, rest: string)
    requires forall i :: 0 <= i < |prefix + ResourcesBase + ("/" + rest)| ==> (prefix + ResourcesBase + ("/" + rest))[i] !in Markers
    requires !Contains(prefix + ResourcesBase + ("/" + rest), ProfessorBase)
    requires !Contains(prefix + ResourcesBase + ("/" + rest), EventsBase)
    requires IndexOf(prefix + ResourcesBase + ("/" + rest), ResourcesBase, 0) == Some(|prefix|)
    requires !Contains("/" + rest, ResourcesBase)
    ensures ExtractPath(prefix + ResourcesBase + ("/" + rest)) == Failure(IncompleteUrl)
  {
    CutAtAnyClean(prefix + ResourcesBase + ("/" + rest), Markers);
    SplitStage(prefix, ResourcesBase, "/" + rest);
    assert ("/" + rest)[1..] == rest;
    assert SplitChar("/" + rest, '/')[0] == "";
  }

  /** The text after a professor segment is the slug, with a trailing identifier removed. */
  lemma ProfessorParts(name: string, uuid: string)
    requires IsUuidSuffix(uuid)
    ensures PathOfParts(ProfessorBase, name + uuid) == Success("professors/" + name + "/professor.yml")
  {
    StripUuidAppended(name, uuid);
  }

  /**
   * A professor page `<prefix>/professor/<slug>-<uuid>` names
   * `professors/<slug>/professor.yml`.
   */
  lemma ProfessorUrl(prefix: string, name: string, uuid: string)
    requires IsUuidSuffix(uuid)
    requires forall i :: 0 <= i < |prefix + ProfessorBase + name + uuid| ==> (prefix + ProfessorBase + name + uuid)[i] !in Markers
    requires IndexOf(prefix + ProfessorBase + (name + uuid), ProfessorBase, 0) == Some(|prefix|)
    requires '/' !in name
    ensures ExtractPath(prefix + ProfessorBase + name + uuid) == Success("professors/" + name + "/professor.yml")
  {
    var url := prefix + ProfessorBase + (name + uuid);
    assert url == prefix + ProfessorBase + name + uuid;
    CutAtAnyClean(url, Markers);
    assert OccursAt(url, ProfessorBase, |prefix|);
    UuidHasNoSlash(uuid);
    NoSlashNoBase(name + uuid, ProfessorBase);
    assert BaseOf(url) == ProfessorBase;
    SplitStage(prefix, ProfessorBase, name + uuid);
    ProfessorParts(name, uuid);
  }

  /** An event page `<prefix>/events/<slug>` names `events/<slug>/event.yml`, the slug kept whole. */
  lemma EventUrl(prefix: string, slug: string)
    requires |slug| > 0 && '/' !in slug
    requires forall i :: 0 <= i < |prefix + EventsBase + slug| ==> (prefix + EventsBase + slug)[i] !in Markers
    requires !Contains(prefix + EventsBase + slug, ProfessorBase)
    requires IndexOf(prefix + EventsBase + slug, EventsBase, 0) == Some(|prefix|)
    ensures ExtractPath(prefix + EventsBase + slug) == Success("events/" + slug + "/event.yml")
  {
    var url := prefix + EventsBase + slug;
    CutAtAnyClean(url, Markers);
    assert OccursAt(url, EventsBase, |prefix|);
    NoSlashNoBase(slug, EventsBase);
    assert BaseOf(url) == EventsBase;
    SplitStage(prefix, EventsBase, slug);
  }

  lemma ResourceTypeAndSlug(kind: string, slug: string)
    requires '/' !in kind && '/' !in slug
    ensures TypeAndSlug(ResourcesBase, kind + "/" + slug) == (kind, Some(slug))
  {
    SplitCharNoSeparator(slug, '/');
    SplitCharFirst(kind, slug, '/');
    assert kind + "/" + slug == kind + ['/'] + slug;
  }

  lemma UuidHasNoSlash(uuid: string)
    requires IsUuidSuffix(uuid)
    ensures '/' !in uuid
  {
    forall i | 0 <= i < 37
      ensures uuid[i] != '/'
    {
    }
  }

  /** The text after a resources segment is `<type>/<slug>`; the identifier is removed from the slug. */
  lemma ResourceParts(kind: string, name: string, uuid: string)
    requires kind != "" && kind != "events" && '/' !in kind
    requires IsUuidSuffix(uuid) && '/' !in name
    ensures PathOfParts(ResourcesBase, kind + "/" + (name + uuid)) == ContentPath(kind, name)
  {
    UuidHasNoSlash(uuid);
    ResourceTypeAndSlug(kind, name + uuid);
    StripUuidAppended(name, uuid);
  }

  /**
   * A page `<prefix>/resources/<type>/<slug>-<uuid>` names the file of
   * `<type>` with the identifier removed: `resources/newsletters/<slug>/newsletter.yml`
   * for a newsletter, `resources/projects/<slug>/project.yml` for a project,
   * an `Unknown resource type` error for a type without a template.
   */
  lemma ResourceUrl(prefix: string, kind: string, name: string, uuid: string)
    requires kind != "" && kind != "events" && '/' !in kind
    requires IsUuidSuffix(uuid) && '/' !in name
    requires forall i :: 0 <= i < |prefix + ResourcesBase + (kind + "/" + (name + uuid))| ==>
               (prefix + ResourcesBase + (kind + "/" + (name + uuid)))[i] !in Markers
    requires !Contains(prefix + ResourcesBase + (kind + "/" + (name + uuid)), ProfessorBase)
    requires !Contains(prefix + ResourcesBase + (kind + "/" + (name + uuid)), EventsBase)
    requires IndexOf(prefix + ResourcesBase + (kind + "/" + (name + uuid)), ResourcesBase, 0) == Some(|prefix|)
    ensures ExtractPath(prefix + ResourcesBase + (kind + "/" + (name + uuid))) == ContentPath(kind, name)
  {
    var slug := name + uuid;
    CutAtAnyClean(prefix + ResourcesBase + (kind + "/" + slug), Markers);
    UuidHasNoSlash(uuid);
    OneSlashNoBase(kind, slug);
    SplitStage(prefix, ResourcesBase, kind + "/" + slug);
    ResourceParts(kind, name, uuid);
  }
}

=== FILE: pr_management.dfy ===
/**
 * `createPR`: the submission orchestration. It lists the upstream pull
 * requests (one page), counts the submitter's open ones on it against a quota of 15, and under
 * the quota runs three independent steps (create the topic branch, commit the
 * staging folder, open a draft pull request), each of which swallows its own
 * failure. Also the branch-name normaliser `branchNameCreator`.
 */
module PrManagement {
  import opened Wrappers
  import opened Strings
  import opened Remote
  import opened BranchManagement

  /** The repository pull requests are opened against. */
  const Upstream: RepoId := RepoId("jramos0", "bitcoin-educational-content")

  /** A user with this many open pull requests gets no new one. */
  const OpenPrLimit: nat := 15

  // ---------------------------------------------------------------------------
  // Branch names
  // ---------------------------------------------------------------------------

  /** `branchNameCreator(owner, resourceName)`. */
  function BranchNameCreator(owner: string, resourceName: string): (b: string)
    ensures |b| == |owner| + 1 + |resourceName|
    ensures b[..|owner| + 1] == owner + "-"
    ensures b[|owner| + 1..] == Slugify(resourceName)
    ensures ' ' !in b[|owner| + 1..]
    ensures forall i :: |owner| + 1 <= i < |b| ==> !IsUpper(b[i])
  {
    var b := owner + "-" + Slugify(resourceName);
    assert b[|owner| + 1..] == Slugify(resourceName);
    b
  }

  /** The part after `<owner>-` is already normalised: feeding it back in gives the same branch name. */
  lemma BranchNameStable(owner: string, resourceName: string)
    ensures var b := BranchNameCreator(owner, resourceName);
            BranchNameCreator(owner, b[|owner| + 1..]) == b
  {
    var b := BranchNameCreator(owner, resourceName);
    assert b[|owner| + 1..] == Slugify(resourceName);
    SlugifyIdempotent(resourceName);
  }

  /** Names that differ only in letter case or in spaces versus hyphens give the same branch. */
  lemma BranchNameIgnoresCaseAndSpaces(owner: string, x: string, y: string)
    requires |x| == |y|
    requires forall i :: 0 <= i < |x| ==> Slugify([x[i]]) == Slugify([y[i]])
    ensures BranchNameCreator(owner, x) == BranchNameCreator(owner, y)
  {
    forall i | 0 <= i < |x|
      ensures Slugify(x)[i] == Slugify(y)[i]
    {
      assert Slugify([x[i]])[0] == Slugify(x)[i];
      assert Slugify([y[i]])[0] == Slugify(y)[i];
    }
  }

  // ---------------------------------------------------------------------------
  // The quota
  // ---------------------------------------------------------------------------

  predicate IsUserOpenPr(pr: PullRequest, owner: string) {
    pr.login == owner && pr.state == "open"
  }

  /** The listed pull requests authored by `owner` that are still open, in listing order. */
  function UserOpenPrs(prs: seq<PullRequest>, owner: string): (r: seq<PullRequest>)
    ensures |r| <= |prs|
    ensures forall p :: p in r <==> p in prs && IsUserOpenPr(p, owner)
    decreases |prs|
  {
    if |prs| == 0 then []
    else
      var rest := UserOpenPrs(prs[1..], owner);
      assert forall p :: p in prs <==> p == prs[0] || p in prs[1..];
      if IsUserOpenPr(prs[0], owner) then [prs[0]] + rest else rest
  }

  /** The filter works piece by piece, so a listing can be counted in parts. */
  lemma {:induction false} UserOpenPrsAppend(a: seq<PullRequest>, b: seq<PullRequest>, owner: string)
    ensures UserOpenPrs(a + b, owner) == UserOpenPrs(a, owner) + UserOpenPrs(b, owner)
    decreases |a|
  {
    if |a| == 0 {
      assert a + b == b;
    } else {
      assert (a + b)[0] == a[0];
      assert (a + b)[1..] == a[1..] + b;
      UserOpenPrsAppend(a[1..], b, owner);
    }
  }

  /** A draft the user has just opened counts against their quota. */
  lemma NewPullCounts(prs: seq<PullRequest>, pr: PullRequest)
    requires pr.state == "open"
    ensures |UserOpenPrs(prs + [pr], pr.login)| == |UserOpenPrs(prs, pr.login)| + 1
  {
    UserOpenPrsAppend(prs, [pr], pr.login);
  }

  predicate UnderQuota(prs: seq<PullRequest>, owner: string) {
    |UserOpenPrs(prs, owner)| < OpenPrLimit
  }

  /**
   * The quota is counted on the first page of the listing only: a user whose
   * open pull requests are all followed by a page of other users' pull
   * requests counts as having none.
   */
  lemma QuotaSeesOnlyFirstPage(older: seq<PullRequest>, newer: seq<PullRequest>, owner: string)
    requires |newer| >= DefaultPageSize
    requires forall k :: 0 <= k < |newer| ==> newer[k].login != owner
    ensures UserOpenPrs(FirstPage(older + newer), owner) == []
  {
    PageKeepsNewest(older, newer);
    var page := FirstPage(newer);
    forall k | 0 <= k < |page|
      ensures page[k].login != owner
    {
      assert page[k] == newer[|newer| - 1 - k];
    }
    NoneByOwner(page, owner);
  }

  lemma {:induction false} NoneByOwner(prs: seq<PullRequest>, owner: string)
    requires forall k :: 0 <= k < |prs| ==> prs[k].login != owner
    ensures UserOpenPrs(prs, owner) == []
    decreases |prs|
  {
    if |prs| > 0 {
      NoneByOwner(prs[1..], owner);
    }
  }

  // ---------------------------------------------------------------------------
  // The pull-request payload
  // ---------------------------------------------------------------------------

  /** The request body sent to `/create-branch`. */
  datatype BranchData = BranchData(owner: string, branchName: string)

  /** The request body sent to `/commit-folder`, plus the title fields. */
  datatype CommitData = CommitData(request: CommitRequest, category: string, addOrMod: string)

  /** `[<CATEGORY>]<addOrMod> <resourceName>`: no space after the bracket. */
  function PrTitle(category: string, addOrMod: string, resourceName: string): (t: string)
    ensures |t| == |category| + 3 + |addOrMod| + |resourceName|
    ensures t[0] == '[' && t[1..|category| + 1] == ToUpper(category) && t[|category| + 1] == ']'
    ensures t[|category| + 2..] == addOrMod + " " + resourceName
  {
    "[" + ToUpper(category) + "]" + addOrMod + " " + resourceName
  }

  /**
   * The title can be read back: for a category without `]`, the first `]` of
   * the title is the one that closes the category.
   */
  lemma PrTitleParse(category: string, addOrMod: string, resourceName: string)
    requires ']' !in category
    ensures IndexOf(PrTitle(category, addOrMod, resourceName), "]", 0) == Some(|category| + 1)
  {
    var t := PrTitle(category, addOrMod, resourceName);
    var up := ToUpper(category);
    assert t == "[" + up + "]" + (addOrMod + " " + resourceName);
    assert t[1..|category| + 1] == up;
    assert OccursAt(t, "]", |category| + 1);
    forall j | 0 <= j < |category| + 1
      ensures !OccursAt(t, "]", j)
    {
      if j > 0 {
        assert t[j] == up[j - 1] == UpperChar(category[j - 1]);
        assert category[j - 1] != ']';
      }
      assert t[j..j + 1][0] == t[j];
    }
  }

  function PrPayloadOf(cd: CommitData): (p: PrPayload)
    ensures p.head == cd.request.owner + ":" + cd.request.branchName
    ensures p.base == "dev" && p.draft
    ensures p.title == PrTitle(cd.category, cd.addOrMod, cd.request.resourceName)
  {
    PrPayload(
      PrTitle(cd.category, cd.addOrMod, cd.request.resourceName),
      cd.request.owner + ":" + cd.request.branchName,
      "dev",
      "This pull request adds resource " + cd.request.resourceName,
      true)
  }

  // ---------------------------------------------------------------------------
  // createPR
  // ---------------------------------------------------------------------------

  datatype Outcome = Returned | Threw(message: string)

  datatype Run = Run(env: Env, outcome: Outcome)

  const ListErrorPrefix: string := "Error retrieving open/darft PRs made by the user: "

  /**
   * Between two stores the upstream list gained exactly one pull request: an
   * open draft by `author`, `<OWNER>:<branchName>` into `dev`, which counts
   * toward the author's quota from then on.
   */
  predicate OpenedDraft(before: seq<PullRequest>, after: seq<PullRequest>, cd: CommitData, author: string) {
    && |after| == |before| + 1 && after[..|before|] == before
    && var pr := after[|before|];
       && pr.login == author && pr.state == "open" && pr.draft
       && pr.head == cd.request.owner + ":" + cd.request.branchName && pr.base == "dev"
       && |UserOpenPrs(after, author)| == |UserOpenPrs(before, author)| + 1
  }

  /** An accepted creation request adds one open draft, authored by `author`, that counts toward their quota. */
  lemma OpensDraft(env: Env, ok: Oracle, cd: CommitData, author: string)
    requires VerdictOf(ok, |env.log|).Accept?
    ensures OpenedDraft(PullsOf(env.store, Upstream),
                        PullsOf(CreatePullCall(env, ok, Upstream, author, PrPayloadOf(cd)).env.store, Upstream), cd, author)
  {
    var before := PullsOf(env.store, Upstream);
    var after := PullsOf(CreatePullCall(env, ok, Upstream, author, PrPayloadOf(cd)).env.store, Upstream);
    NewPullCounts(before, after[|before|]);
    assert after == before + [after[|before|]];
  }

  /** `createBranch`'s step: whatever its outcome, it starts with its read and opens no pull request. */
  method BranchStep(env: Env, ok: Oracle, owner: string, branchName: string) returns (e: Env)
    ensures IsPrefix(env.log + [ReadRef(RefKey(RepoId(owner, ContentRepo), SyncBranch(owner)))], e.log)
    ensures PullsOf(e.store, Upstream) == PullsOf(env.store, Upstream)
  {
    var r := CreateBranch(env, ok, owner, branchName);
    e := r.env;
  }

  /** `createCommit`'s step: whatever its outcome, it starts with its read and opens no pull request. */
  method CommitStep(env: Env, ok: Oracle, style: JoinStyle, q: CommitRequest) returns (e: Env)
    ensures IsPrefix(env.log + [ReadRef(RefKey(RepoId(q.owner, ContentRepo), SyncBranch(q.owner)))], e.log)
    ensures PullsOf(e.store, Upstream) == PullsOf(env.store, Upstream)
  {
    var r := CommitFolder(env, ok, style, q);
    e := r.env;
  }

  /** The request log of three steps run one after the other, each starting with a known request. */
  lemma LogOfThreeSteps(l0: seq<Call>, l1: seq<Call>, l2: seq<Call>, l3: seq<Call>, first: Call, second: Call, last: Call)
    requires IsPrefix(l0 + [first], l1)
    requires IsPrefix(l1 + [second], l2)
    requires l3 == l2 + [last]
    ensures IsPrefix(l0 + [first], l3) && |l3| >= |l0| + 3
    ensures second in l3[|l0| + 1..] && l3[|l3| - 1] == last
  {
    PrefixTrans(l0 + [first], l1, l2 + [last]) by {
      PrefixSnoc(l1, second);
      PrefixTrans(l1, l1 + [second], l2);
      PrefixSnoc(l2, last);
      PrefixTrans(l1, l2, l3);
    }
    var k := |l1|;
    assert l2[k] == (l1 + [second])[k];
    assert l3[|l0| + 1..][k - |l0| - 1] == second;
  }

  /**
   * The three steps `createPR` runs under the quota. Each has its own error
   * handler, so whatever becomes of the first two the next one still runs:
   * the branch step starts with the first request, the commit step follows
   * it, and the last request is always the pull-request creation.
   */
  method SubmissionSteps(env: Env, ok: Oracle, style: JoinStyle, bd: BranchData, cd: CommitData, author: string) returns (e: Env)
    ensures IsPrefix(env.log + [ReadRef(RefKey(RepoId(bd.owner, ContentRepo), SyncBranch(bd.owner)))], e.log)
    ensures |e.log| >= |env.log| + 3
    ensures ReadRef(RefKey(RepoId(cd.request.owner, ContentRepo), SyncBranch(cd.request.owner))) in e.log[|env.log| + 1..]
    ensures e.log[|e.log| - 1] == CreatePull(Upstream, author, PrPayloadOf(cd))
    ensures VerdictOf(ok, |e.log| - 1).Accept? ==> OpenedDraft(PullsOf(env.store, Upstream), PullsOf(e.store, Upstream), cd, author)
  {
    var n := |env.log|;
    var firstRead := ReadRef(RefKey(RepoId(bd.owner, ContentRepo), SyncBranch(bd.owner)));
    var secondRead := ReadRef(RefKey(RepoId(cd.request.owner, ContentRepo), SyncBranch(cd.request.owner)));
    var branched := BranchStep(env, ok, bd.owner, bd.branchName);
    var committed := CommitStep(branched, ok, style, cd.request);
    var pull := CreatePullCall(committed, ok, Upstream, author, PrPayloadOf(cd));
    LogOfThreeSteps(env.log, branched.log, committed.log, pull.env.log,
                    firstRead, secondRead, CreatePull(Upstream, author, PrPayloadOf(cd)));
    if VerdictOf(ok, |pull.env.log| - 1).Accept? {
      OpensDraft(committed, ok, cd, author);
    }
    return pull.env;
  }

  /**
   * `createPR(branchData, commitData)`. `author` is the account the token
   * authenticates, which the platform records as the pull request's author.
   */
  method CreatePR(env: Env, ok: Oracle, style: JoinStyle, bd: BranchData, cd: CommitData, author: string) returns (r: Run)
    ensures IsPrefix(env.log + [ListPulls(Upstream)], r.env.log)
    // only a failed listing escapes, wrapped in its own message
    ensures r.outcome.Threw? <==> VerdictOf(ok, |env.log|).Reject?
    ensures r.outcome.Threw? ==>
              && r.env == Logged(env, ListPulls(Upstream))
              && |ListErrorPrefix| <= |r.outcome.message| && r.outcome.message[..|ListErrorPrefix|] == ListErrorPrefix
    // at the quota nothing but the listing is requested: no branch, no commit, no pull request
    ensures VerdictOf(ok, |env.log|).Accept? && !UnderQuota(FirstPage(PullsOf(env.store, Upstream)), bd.owner) ==>
              r == Run(Logged(env, ListPulls(Upstream)), Returned)
    // under the quota the submission steps follow the listing
    ensures VerdictOf(ok, |env.log|).Accept? && UnderQuota(FirstPage(PullsOf(env.store, Upstream)), bd.owner) ==>
              && r.outcome == Returned
              && |r.env.log| >= |env.log| + 4
              && r.env.log[|env.log| + 1] == ReadRef(RefKey(RepoId(bd.owner, ContentRepo), SyncBranch(bd.owner)))
              && r.env.log[|r.env.log| - 1] == CreatePull(Upstream, author, PrPayloadOf(cd))
  {
    var listed := ListPullsCall(env, ok, Upstream);
    PrefixSnoc(env.log, ListPulls(Upstream));
    if listed.resp.NotOk? {
      return Run(listed.env, Threw(ListErrorPrefix + listed.resp.message));
    }
    if !UnderQuota(listed.resp.value, bd.owner) {
      return Run(listed.env, Returned);
    }
    var done := SubmissionSteps(listed.env, ok, style, bd, cd, author);
    var firstRead := ReadRef(RefKey(RepoId(bd.owner, ContentRepo), SyncBranch(bd.owner)));
    PrefixSnoc(listed.env.log, firstRead);
    PrefixTrans(listed.env.log, listed.env.log + [firstRead], done.log);
    assert done.log[|env.log| + 1] == (listed.env.log + [firstRead])[|env.log| + 1];
    return Run(done, Returned);
  }
}

=== FILE: project_form.dfy ===
/**
 * The project form: its state, the edits its inputs make, and the encoding of
 * the submitted record as multipart form fields, where an array `k` becomes
 * `k[0]`, `k[1]`, ... and a nested object `k` becomes `k.<sub>`.
 */
module ProjectForm {
  import opened Wrappers
  import opened Strings

  // ---------------------------------------------------------------------------
  // Form fields and their encoding
  // ---------------------------------------------------------------------------

  /** A value of the submitted record, by the branch of the encoder it takes. */
  datatype FieldValue =
    | Text(s: string)
    | Items(items: seq<string>)
    | Group(entries: seq<(string, string)>)
    | Upload(fileName: string)
    | NullValue

  /** A multipart part: text, or a file. */
  datatype Part = TextPart(s: string) | FilePart(fileName: string)

  /** `${key}[${index}]`. */
  function ItemKey(key: string, index: nat): string {
    key + "[" + NatToString(index) + "]"
  }

  /** The parts one entry of the record becomes; `null` is appended as the text `null`. */
  function EntryParts(key: string, v: FieldValue): (r: seq<(string, Part)>)
    ensures v.Items? ==> |r| == |v.items| && forall i :: 0 <= i < |r| ==> r[i] == (ItemKey(key, i), TextPart(v.items[i]))
    ensures v.Group? ==> |r| == |v.entries| && forall i :: 0 <= i < |r| ==> r[i] == (key + "." + v.entries[i].0, TextPart(v.entries[i].1))
    ensures v.Upload? ==> r == [(key, FilePart(v.fileName))]
    ensures v.Text? ==> r == [(key, TextPart(v.s))]
    ensures v.NullValue? ==> r == [(key, TextPart("null"))]
  {
    match v
    case Items(items) => seq(|items|, i requires 0 <= i < |items| => (ItemKey(key, i), TextPart(items[i])))
    case Group(entries) => seq(|entries|, i requires 0 <= i < |entries| => (key + "." + entries[i].0, TextPart(entries[i].1)))
    case Upload(name) => [(key, FilePart(name))]
    case Text(s) => [(key, TextPart(s))]
    case NullValue => [(key, TextPart("null"))]
  }

  function PartCount(v: FieldValue): nat {
    match v
    case Items(items) => |items|
    case Group(entries) => |entries|
    case _ => 1
  }

  function TotalParts(record: seq<(string, FieldValue)>): nat {
    if |record| == 0 then 0 else PartCount(record[0].1) + TotalParts(record[1..])
  }

  /** `Object.entries(finalData).forEach(...)`: the record's entries encoded in order. */
  function Encode(record: seq<(string, FieldValue)>): (r: seq<(string, Part)>)
    ensures |r| == TotalParts(record)
  {
    if |record| == 0 then []
    else EntryParts(record[0].0, record[0].1) + Encode(record[1..])
  }

  /** The encoding works entry by entry, so the parts keep the order of the entries. */
  lemma {:induction false} EncodeAppend(a: seq<(string, FieldValue)>, b: seq<(string, FieldValue)>)
    ensures Encode(a + b) == Encode(a) + Encode(b)
    decreases |a|
  {
    if |a| == 0 {
      assert a + b == b;
    } else {
      assert (a + b)[0] == a[0];
      assert (a + b)[1..] == a[1..] + b;
      EncodeAppend(a[1..], b);
    }
  }

  /** The index in a key `<name>[<index>]`, read back. */
  function ReadItemKey(k: string): (r: Option<(string, nat)>)
  {
    if |k| >= 3 && k[|k| - 1] == ']' then
      var body := k[..|k| - 1];
      match LastIndexOf(body, '[')
      case None => None
      case Some(j) =>
        var index := ParseIndex(body[j + 1..]);
        if index.Some? then Some((body[..j], index.value)) else None
    else None
  }

  /** The last position of `c` in `s`. */
  function LastIndexOf(s: string, c: char): (r: Option<nat>)
    ensures r.Some? ==> r.value < |s| && s[r.value] == c && c !in s[r.value + 1..]
    ensures r.None? ==> c !in s
  {
    if |s| == 0 then None
    else if s[|s| - 1] == c then Some(|s| - 1)
    else
      var r := LastIndexOf(s[..|s| - 1], c);
      assert r.Some? ==> s[r.value + 1..] == s[..|s| - 1][r.value + 1..] + [s[|s| - 1]];
      r
  }

  lemma DigitsHaveNoBracket(n: nat)
    ensures '[' !in NatToString(n)
  {
    var s := NatToString(n);
    ParseIndexOfNatToString(n);
    assert AllDigits(s);
  }

  /** A `c` at `j` with none after it is the last one. */
  lemma {:induction false} LastIndexOfAt(s: string, c: char, j: nat)
    requires j < |s| && s[j] == c && c !in s[j + 1..]
    ensures LastIndexOf(s, c) == Some(j)
    decreases |s|
  {
    if j < |s| - 1 {
      assert s[j + 1..] == s[j + 1..|s| - 1] + [s[|s| - 1]];
      assert s[..|s| - 1][j + 1..] == s[j + 1..|s| - 1];
      LastIndexOfAt(s[..|s| - 1], c, j);
    }
  }

  /** An item key names its array and its index again. */
  lemma ItemKeyRoundTrip(key: string, index: nat)
    ensures ReadItemKey(ItemKey(key, index)) == Some((key, index))
  {
    var digits := NatToString(index);
    var k := ItemKey(key, index);
    var body := key + "[" + digits;
    assert k[..|k| - 1] == body;
    DigitsHaveNoBracket(index);
    assert body[|key|] == '[' && body[|key| + 1..] == digits;
    LastIndexOfAt(body, '[', |key|);
    ParseIndexOfNatToString(index);
    assert body[..|key|] == key;
  }

  // ---------------------------------------------------------------------------
  // The form
  // ---------------------------------------------------------------------------

  datatype Links = Links(website: string, twitter: string, github: string, nostr: string)

  datatype LinkField = Website | Twitter | Github | Nostr

  /** `formData`; `thumbnail` is the chosen file, `null` until one is chosen. */
  datatype Form = Form(
    resourceCategory: string, id: string, name: string, description: string,
    thumbnail: Option<string>, links: Links, category: string,
    originalLanguage: string, tags: seq<string>)

  /** The form as it opens, with the identifier it was given. */
  function Initial(id: string): (f: Form)
    ensures f.resourceCategory == "Project" && f.category == "Education" && f.originalLanguage == "en"
    ensures f.tags == ["", "", ""] && f.thumbnail.None?
  {
    Form("Project", id, "", "", None, Links("", "", "", ""), "Education", "en", ["", "", ""])
  }

  /** The name recorded as contributor: the stored user name, or `Unknown` when none is stored. */
  function ContributorName(stored: Option<string>): (c: string)
    ensures |c| > 0
    ensures stored.Some? && |stored.value| > 0 ==> c == stored.value
    ensures stored.None? || stored == Some("") ==> c == "Unknown"
  {
    if stored.Some? && |stored.value| > 0 then stored.value else "Unknown"
  }

  /** `handleTagChange(index, value)`: the tag inputs are indexed by the tags themselves. */
  function HandleTagChange(f: Form, index: nat, value: string): (r: Form)
    requires index < |f.tags|
    ensures |r.tags| == |f.tags| && r.tags[index] == value
    ensures forall i :: 0 <= i < |f.tags| && i != index ==> r.tags[i] == f.tags[i]
    ensures r == f.(tags := r.tags)
  {
    f.(tags := f.tags[index := value])
  }

  function LinkOf(l: Links, field: LinkField): string {
    match field
    case Website => l.website
    case Twitter => l.twitter
    case Github => l.github
    case Nostr => l.nostr
  }

  /** `handleLinkChange(field, value)`. */
  function HandleLinkChange(f: Form, field: LinkField, value: string): (r: Form)
    ensures LinkOf(r.links, field) == value
    ensures forall g :: g != field ==> LinkOf(r.links, g) == LinkOf(f.links, g)
    ensures r == f.(links := r.links)
  {
    match field
    case Website => f.(links := f.links.(website := value))
    case Twitter => f.(links := f.links.(twitter := value))
    case Github => f.(links := f.links.(github := value))
    case Nostr => f.(links := f.links.(nostr := value))
  }

  /** `finalData`: the form's entries in declaration order, then the contributor entries. */
  function FinalData(f: Form, contributor: string): seq<(string, FieldValue)> {
    Leading(f) + [("links", LinksGroup(f.links))] + Trailing(f) + ContributorEntries(f, contributor)
  }

  /** The form's entries before `links`. */
  function Leading(f: Form): seq<(string, FieldValue)> {
    [("resourceCategory", Text(f.resourceCategory)),
     ("id", Text(f.id)),
     ("name", Text(f.name)),
     ("description", Text(f.description)),
     ("thumbnail", if f.thumbnail.Some? then Upload(f.thumbnail.value) else NullValue)]
  }

  function LinksGroup(l: Links): FieldValue {
    Group([("website", l.website), ("twitter", l.twitter), ("github", l.github), ("nostr", l.nostr)])
  }

  /** The form's entries between `links` and `tags`. */
  function Trailing(f: Form): seq<(string, FieldValue)> {
    [("category", Text(f.category)), ("original_language", Text(f.originalLanguage))]
  }

  /** The tags, then the contributor as a one-element list and as `submitted_by`. */
  function ContributorEntries(f: Form, contributor: string): seq<(string, FieldValue)> {
    [("tags", Items(f.tags)), ("contributor_names", Items([contributor])), ("submitted_by", Text(contributor))]
  }

  /** `handleSubmit`'s payload. */
  function Payload(f: Form, contributor: string): seq<(string, Part)> {
    Encode(FinalData(f, contributor))
  }

  function Keys(parts: seq<(string, Part)>): seq<string> {
    seq(|parts|, i requires 0 <= i < |parts| => parts[i].0)
  }

  lemma KeysAppend(a: seq<(string, Part)>, b: seq<(string, Part)>)
    ensures Keys(a + b) == Keys(a) + Keys(b)
  {
  }

  /** An entry that is neither a list nor a group becomes one part. */
  predicate SinglePart(v: FieldValue) {
    !v.Items? && !v.Group?
  }

  function EntryKeys(d: seq<(string, FieldValue)>): (r: seq<string>)
    ensures |r| == |d|
  {
    seq(|d|, i requires 0 <= i < |d| => d[i].0)
  }

  /** Entries of one part each keep their keys, one part per entry. */
  lemma {:induction false} SingleKeys(d: seq<(string, FieldValue)>)
    requires forall i :: 0 <= i < |d| ==> SinglePart(d[i].1)
    ensures |Encode(d)| == |d| && Keys(Encode(d)) == EntryKeys(d)
    decreases |d|
  {
    if |d| > 0 {
      SingleKeys(d[1..]);
      KeysAppend(EntryParts(d[0].0, d[0].1), Encode(d[1..]));
      assert EntryKeys(d) == [d[0].0] + EntryKeys(d[1..]);
    }
  }

  lemma LeadingKeys(f: Form)
    ensures |Encode(Leading(f))| == 5
    ensures Keys(Encode(Leading(f))) == ["resourceCategory", "id", "name", "description", "thumbnail"]
  {
    SingleKeys(Leading(f));
  }

  lemma TrailingKeys(f: Form)
    ensures |Encode(Trailing(f))| == 2
    ensures Keys(Encode(Trailing(f))) == ["category", "original_language"]
  {
    SingleKeys(Trailing(f));
  }

  lemma LinkKeys(l: Links)
    ensures |EntryParts("links", LinksGroup(l))| == 4
    ensures Keys(EntryParts("links", LinksGroup(l))) == ["links.website", "links.twitter", "links.github", "links.nostr"]
  {
    assert "links" + "." + "website" == "links.website";
    assert "links" + "." + "twitter" == "links.twitter";
    assert "links" + "." + "github" == "links.github";
    assert "links" + "." + "nostr" == "links.nostr";
  }

  /** One step of the encoding. */
  lemma EncodeCons(d: seq<(string, FieldValue)>)
    requires |d| > 0
    ensures Encode(d) == EntryParts(d[0].0, d[0].1) + Encode(d[1..])
  {
  }

  /** The tags, then the contributor twice. */
  lemma ContributorParts(f: Form, contributor: string)
    ensures Encode(ContributorEntries(f, contributor)) ==
              EntryParts("tags", Items(f.tags)) +
              [(ItemKey("contributor_names", 0), TextPart(contributor)), ("submitted_by", TextPart(contributor))]
  {
    var d := ContributorEntries(f, contributor);
    EncodeCons(d);
    EncodeCons(d[1..]);
    EncodeCons(d[2..]);
    assert d[1..][1..] == d[2..];
    assert d[2..][1..] == [];
  }

  /** The encoding of the whole record, part by part. */
  lemma PayloadPieces(f: Form, contributor: string)
    ensures Payload(f, contributor) ==
              Encode(Leading(f)) + EntryParts("links", LinksGroup(f.links)) + Encode(Trailing(f))
              + Encode(ContributorEntries(f, contributor))
  {
    var a, b, c, d := Leading(f), [("links", LinksGroup(f.links))], Trailing(f), ContributorEntries(f, contributor);
    EncodeAppend(a + b + c, d);
    EncodeAppend(a + b, c);
    EncodeAppend(a, b);
    EncodeCons(b);
    assert b[1..] == [];
  }

  /**
   * The payload's keys, in order. They depend only on the number of tags: the
   * links become four dotted keys, each tag its own indexed key, and the
   * contributor is sent both as a one-element list and as `submitted_by`.
   */
  lemma PayloadKeys(f: Form, contributor: string)
    ensures var parts := Payload(f, contributor);
            && |parts| == 13 + |f.tags|
            && Keys(parts)[..11] == ["resourceCategory", "id", "name", "description", "thumbnail",
                                      "links.website", "links.twitter", "links.github", "links.nostr",
                                      "category", "original_language"]
            && (forall i :: 0 <= i < |f.tags| ==> parts[11 + i] == (ItemKey("tags", i), TextPart(f.tags[i])))
            && parts[11 + |f.tags|] == (ItemKey("contributor_names", 0), TextPart(contributor))
            && parts[12 + |f.tags|] == ("submitted_by", TextPart(contributor))
  {
    var lead := Encode(Leading(f));
    var links := EntryParts("links", LinksGroup(f.links));
    var trail := Encode(Trailing(f));
    var tags := EntryParts("tags", Items(f.tags));
    var back := [(ItemKey("contributor_names", 0), TextPart(contributor)), ("submitted_by", TextPart(contributor))];
    PayloadPieces(f, contributor);
    ContributorParts(f, contributor);
    LeadingKeys(f);
    TrailingKeys(f);
    LinkKeys(f.links);
    var front := lead + links + trail;
    KeysAppend(lead, links);
    KeysAppend(lead + links, trail);
    var p := front + (tags + back);
    assert Payload(f, contributor) == p;
    assert |front| == 11;
    assert Keys(p)[..11] == Keys(front);
  }

  /** The three tag inputs of a fresh form always yield three tag keys, whatever is chosen. */
  lemma ThreeTagKeys(id: string, contributor: string, index: nat, value: string)
    requires index < 3
    ensures |Payload(HandleTagChange(Initial(id), index, value), contributor)| == 16
  {
    PayloadKeys(HandleTagChange(Initial(id), index, value), contributor);
  }
}

=== FILE: records.dfy ===
/**
 * What the two resource parsers share: object literals whose undefined
 * entries vanish from the YAML output, `${...}` interpolation, the category
 * switch of `resourceIdentifier`, and writing YAML documents into a staging
 * folder of the abstract file system.
 */
module Records {
  import opened Wrappers
  import opened Values
  import opened DirManager

  /** An object literal as written in the source: each key with a possibly-undefined value. */
  type Literal = map<string, Option<Value>>

  /** The object a literal denotes once serialised: undefined entries are left out. */
  function Build(lit: Literal): (r: Object)
    ensures forall k :: k in r <==> k in lit && lit[k].Some?
    ensures forall k :: k in r ==> r[k] == lit[k].value
  {
    map k | k in lit && lit[k].Some? :: lit[k].value
  }

  /** Each key of `keys` is in `r` exactly when the request carries it, with the request's value. */
  predicate Copies(r: Object, data: Object, keys: set<string>) {
    forall k :: k in keys ==> (k in r <==> k in data) && (k in r ==> r[k] == data[k])
  }

  /** `r` defines no key outside `keys`. */
  predicate KeysWithin(r: Object, keys: set<string>) {
    forall k :: k in r ==> k in keys
  }

  /** The entries `k: data.k` for each `k` of `keys`; the undefined ones are left out. */
  function Pick(data: Object, keys: set<string>): (r: Object)
    ensures Copies(r, data, keys) && KeysWithin(r, keys)
  {
    map k | k in keys && k in data :: data[k]
  }

  /** Overlaying entries whose keys lie outside `keys` keeps what was copied, and adds only their keys. */
  lemma OverlayKeepsCopies(a: Object, b: Object, data: Object, keys: set<string>, extra: set<string>)
    requires Copies(a, data, keys) && KeysWithin(a, keys)
    requires KeysWithin(b, extra) && keys !! extra
    ensures Copies(a + b, data, keys) && KeysWithin(a + b, keys + extra)
    ensures forall k :: k in b ==> k in a + b && (a + b)[k] == b[k]
  {
  }

  /**
   * `{...filtered, ...overlay}` where `filtered` is `data` without the keys of
   * `ex`, and the overlay defines none of them: the excluded keys are gone, the
   * overlay wins where it defines a key, and `data` supplies the rest.
   */
  lemma OverlayOnFiltered(data: Object, ex: set<string>, o: Object, keys: set<string>)
    requires KeysWithin(o, keys) && keys !! ex
    ensures var r := (data - ex) + o;
            && (forall k :: k in ex ==> k !in r)
            && (forall k :: k in data && k !in ex ==> k in r)
            && (forall k :: k in r && k !in o ==> k in data && r[k] == data[k])
            && (forall k :: k in o ==> k in r && r[k] == o[k])
  {
  }

  /** An entry with a value is kept, with that value. */
  lemma BuildAt(lit: Literal, k: string)
    requires k in lit && lit[k].Some?
    ensures k in Build(lit) && Build(lit)[k] == lit[k].value
  {
  }

  /** `${v}`: `String(v)`, and the text `undefined` when `v` is undefined. */
  function Interpolate(v: Option<Value>): (r: string)
    ensures v.Some? && v.value.Str? ==> r == v.value.s
    ensures v.None? ==> r == "undefined"
  {
    if v.None? then "undefined" else ToText(v.value)
  }

  /** `xs[i]`: undefined past the end. */
  function At(xs: seq<Value>, i: nat): (r: Option<Value>)
    ensures r.Some? <==> i < |xs|
    ensures r.Some? ==> r.value == xs[i]
  {
    if i < |xs| then Some(xs[i]) else None
  }

  // ---------------------------------------------------------------------------
  // `resourceIdentifier`: the category switch
  // ---------------------------------------------------------------------------

  datatype Handler = EventsHandler | NewsletterHandler | ProfessorHandler | ProjectHandler

  const Handled: seq<string> := ["Events", "Newsletter", "Professor", "Project"]

  /** The `case` label that selects a handler. */
  function CaseLabel(h: Handler): string {
    match h
    case EventsHandler => "Events"
    case NewsletterHandler => "Newsletter"
    case ProfessorHandler => "Professor"
    case ProjectHandler => "Project"
  }

  /** The `switch` on `resourceCategory`: `None` is the `default` branch, which only logs. */
  function Dispatch(category: Option<Value>): (h: Option<Handler>)
    ensures h.Some? <==> category.Some? && category.value.Str? && category.value.s in Handled
    ensures h.Some? ==> category == Some(Str(CaseLabel(h.value)))
  {
    match category
    case Some(Str("Events")) => Some(EventsHandler)
    case Some(Str("Newsletter")) => Some(NewsletterHandler)
    case Some(Str("Professor")) => Some(ProfessorHandler)
    case Some(Str("Project")) => Some(ProjectHandler)
    case _ => None
  }

  /** The field whose text names the staging folder (and, when editing, the branch). */
  function NameKey(h: Handler): string {
    if h.NewsletterHandler? then "title" else "name"
  }

  // ---------------------------------------------------------------------------
  // Writing the YAML documents
  // ---------------------------------------------------------------------------

  /** A written YAML file: its path and the object serialised into it. */
  datatype YamlFile = YamlFile(path: string, content: Object)

  /** A document still to be written: its file name in the folder and its content. */
  datatype Doc = Doc(name: string, content: Object)

  datatype Written = Written(fs: Fs, files: seq<YamlFile>)

  /**
   * `writeFile(`${dir}/${name}`)` for each document in turn. Every document
   * goes to the same directory, so either the directory exists and all writes
   * succeed, or the first one throws.
   */
  function WriteDocs(fs: Fs, dir: string, docs: seq<Doc>): (r: Option<Written>)
    ensures r.Some? <==> dir in fs || |docs| == 0
    ensures r.Some? ==> |r.value.files| == |docs|
    ensures r.Some? ==> forall i :: 0 <= i < |docs| ==>
              r.value.files[i] == YamlFile(dir + "/" + docs[i].name, docs[i].content)
    ensures r.Some? ==> fs <= r.value.fs
    ensures r.Some? ==> forall q :: q in r.value.fs && q !in fs ==>
              exists i :: 0 <= i < |docs| && q == dir + "/" + docs[i].name
  {
    if |docs| == 0 || dir in fs then
      Some(Written(fs + set i | 0 <= i < |docs| :: dir + "/" + docs[i].name,
                   seq(|docs|, i requires 0 <= i < |docs| => YamlFile(dir + "/" + docs[i].name, docs[i].content))))
    else None
  }
}

=== FILE: remote.dfy ===
/**
 * An abstract hosting platform: named refs over an object store of commits,
 * trees and blobs, the set of existing repositories (forks), and the pull
 * requests of each repository. Every request the handlers issue goes through
 * one function here, which appends it to a call log and asks an oracle whether
 * the platform accepts it. The oracle's verdict for the n-th request of a run is
 * `ok[n]`; a missing verdict stands for a transport failure.
 */
module Remote {
  import opened Wrappers

  type Sha = nat
  type Bytes = seq<bv8>

  datatype RepoId = RepoId(owner: string, name: string)

  /** `refs/heads/<branch>` of one repository. */
  datatype RefKey = RefKey(repo: RepoId, branch: string)

  datatype TreeEntry = TreeEntry(path: string, mode: string, kind: string, sha: Sha)
  datatype Tree = Tree(base: Sha, entries: seq<TreeEntry>)
  datatype Commit = Commit(message: string, tree: Sha, parents: seq<Sha>)

  /** The body of a pull-request creation request. */
  datatype PrPayload = PrPayload(title: string, head: string, base: string, body: string, draft: bool)

  /** A pull request as the listing endpoint reports it. */
  datatype PullRequest = PullRequest(number: nat, title: string, login: string, state: string, draft: bool, head: string, base: string)

  datatype Store = Store(
    refs: map<RefKey, Sha>,
    commits: map<Sha, Commit>,
    trees: map<Sha, Tree>,
    blobs: map<Sha, Bytes>,
    repos: set<RepoId>,
    pulls: map<RepoId, seq<PullRequest>>,
    next: Sha)

  datatype Call =
    | ReadRef(key: RefKey)
    | CreateRef(key: RefKey, sha: Sha)
    | UpdateRef(key: RefKey, sha: Sha, force: bool)
    | ReadCommit(repo: RepoId, sha: Sha)
    | CreateBlob(repo: RepoId, content: Bytes)
    | CreateTree(repo: RepoId, baseTree: Sha, entries: seq<TreeEntry>)
    | CreateCommit(repo: RepoId, message: string, tree: Sha, parents: seq<Sha>)
    | ReadRepo(repo: RepoId)
    | CreateFork(upstream: RepoId)
    | ListPulls(repo: RepoId)
    | CreatePull(repo: RepoId, author: string, payload: PrPayload)

  datatype Verdict = Accept | Reject(status: nat, message: string)
  type Oracle = seq<Verdict>

  /** The platform state together with every request made so far. */
  datatype Env = Env(store: Store, log: seq<Call>)

  /** A platform answer. Status 0 stands for a request that got no answer at all (the fetch promise rejects). */
  datatype Response<T> = Ok(value: T) | NotOk(status: nat, message: string) {
    predicate Unanswered() { NotOk? && status == 0 }
  }
  datatype Answer<T> = Answer(env: Env, resp: Response<T>)

  function VerdictOf(ok: Oracle, n: nat): Verdict {
    if n < |ok| then ok[n] else Reject(0, "")
  }

  /** The next `count` requests, starting with request number `from`, are all accepted. */
  predicate AcceptsAll(ok: Oracle, from: nat, count: nat) {
    forall n :: from <= n < from + count ==> VerdictOf(ok, n).Accept?
  }

  /** `a` is a prefix of `b`: requests are only ever appended to the log. */
  predicate IsPrefix(a: seq<Call>, b: seq<Call>) {
    |a| <= |b| && b[..|a|] == a
  }

  lemma PrefixTrans(a: seq<Call>, b: seq<Call>, c: seq<Call>)
    requires IsPrefix(a, b) && IsPrefix(b, c)
    ensures IsPrefix(a, c)
  {
    assert c[..|a|] == c[..|b|][..|a|];
  }

  lemma PrefixSnoc(a: seq<Call>, c: Call)
    ensures IsPrefix(a, a + [c])
  {
    assert (a + [c])[..|a|] == a;
  }

  function Logged(env: Env, c: Call): (e: Env)
    ensures e.store == env.store && e.log == env.log + [c]
  {
    env.(log := env.log + [c])
  }

  function NotFound<T>(): Response<T> { NotOk(404, "Not Found") }

  function ReadRefCall(env: Env, ok: Oracle, key: RefKey): (a: Answer<Sha>)
    ensures a.env == Logged(env, ReadRef(key))
    ensures a.resp.Ok? <==> VerdictOf(ok, |env.log|).Accept? && key in env.store.refs
    ensures a.resp.Ok? ==> a.resp.value == env.store.refs[key]
  {
    var e := Logged(env, ReadRef(key));
    match VerdictOf(ok, |env.log|)
    case Reject(st, m) => Answer(e, NotOk(st, m))
    case Accept =>
      if key in env.store.refs then Answer(e, Ok(env.store.refs[key])) else Answer(e, NotFound())
  }

  /** A non-forced ref creation: an existing ref is reported, never overwritten. */
  function CreateRefCall(env: Env, ok: Oracle, key: RefKey, sha: Sha): (a: Answer<()>)
    ensures a.env.log == env.log + [CreateRef(key, sha)]
    ensures a.resp.Ok? <==> VerdictOf(ok, |env.log|).Accept? && key !in env.store.refs
    ensures a.resp.Ok? ==> a.env.store == env.store.(refs := env.store.refs[key := sha])
    ensures a.resp.NotOk? ==> a.env.store == env.store
    ensures VerdictOf(ok, |env.log|).Accept? && key in env.store.refs ==>
              a.resp == NotOk(422, "Reference already exists")
  {
    var e := Logged(env, CreateRef(key, sha));
    match VerdictOf(ok, |env.log|)
    case Reject(st, m) => Answer(e, NotOk(st, m))
    case Accept =>
      if key in env.store.refs then Answer(e, NotOk(422, "Reference already exists"))
      else Answer(e.(store := e.store.(refs := e.store.refs[key := sha])), Ok(()))
  }

  /** A ref update (`force` is passed through; fast-forward checks are the platform's and are not modelled). */
  function UpdateRefCall(env: Env, ok: Oracle, key: RefKey, sha: Sha, force: bool): (a: Answer<()>)
    ensures a.env.log == env.log + [UpdateRef(key, sha, force)]
    ensures a.resp.Ok? <==> VerdictOf(ok, |env.log|).Accept? && key in env.store.refs
    ensures a.resp.Ok? ==> a.env.store == env.store.(refs := env.store.refs[key := sha])
    ensures a.resp.NotOk? ==> a.env.store == env.store
  {
    var e := Logged(env, UpdateRef(key, sha, force));
    match VerdictOf(ok, |env.log|)
    case Reject(st, m) => Answer(e, NotOk(st, m))
    case Accept =>
      if key in env.store.refs then Answer(e.(store := e.store.(refs := e.store.refs[key := sha])), Ok(()))
      else Answer(e, NotOk(422, "Reference does not exist"))
  }

  function ReadCommitCall(env: Env, ok: Oracle, repo: RepoId, sha: Sha): (a: Answer<Commit>)
    ensures a.env == Logged(env, ReadCommit(repo, sha))
    ensures a.resp.Ok? <==> VerdictOf(ok, |env.log|).Accept? && sha in env.store.commits
    ensures a.resp.Ok? ==> a.resp.value == env.store.commits[sha]
  {
    var e := Logged(env, ReadCommit(repo, sha));
    match VerdictOf(ok, |env.log|)
    case Reject(st, m) => Answer(e, NotOk(st, m))
    case Accept =>
      if sha in env.store.commits then Answer(e, Ok(env.store.commits[sha])) else Answer(e, NotFound())
  }

  function CreateBlobCall(env: Env, ok: Oracle, repo: RepoId, content: Bytes): (a: Answer<Sha>)
    ensures a.env.log == env.log + [CreateBlob(repo, content)]
    ensures a.resp.Ok? <==> VerdictOf(ok, |env.log|).Accept?
    ensures a.resp.Ok? ==> a.resp.value == env.store.next
    ensures a.resp.Ok? ==> a.env.store == env.store.(blobs := env.store.blobs[env.store.next := content], next := env.store.next + 1)
    ensures a.resp.NotOk? ==> a.env.store == env.store
  {
    var e := Logged(env, CreateBlob(repo, content));
    match VerdictOf(ok, |env.log|)
    case Reject(st, m) => Answer(e, NotOk(st, m))
    case Accept =>
      var id := env.store.next;
      Answer(e.(store := e.store.(blobs := e.store.blobs[id := content], next := id + 1)), Ok(id))
  }

  function CreateTreeCall(env: Env, ok: Oracle, repo: RepoId, base: Sha, entries: seq<TreeEntry>): (a: Answer<Sha>)
    ensures a.env.log == env.log + [CreateTree(repo, base, entries)]
    ensures a.resp.Ok? <==> VerdictOf(ok, |env.log|).Accept?
    ensures a.resp.Ok? ==> a.resp.value == env.store.next
    ensures a.resp.Ok? ==> a.env.store == env.store.(trees := env.store.trees[env.store.next := Tree(base, entries)], next := env.store.next + 1)
    ensures a.resp.NotOk? ==> a.env.store == env.store
  {
    var e := Logged(env, CreateTree(repo, base, entries));
    match VerdictOf(ok, |env.log|)
    case Reject(st, m) => Answer(e, NotOk(st, m))
    case Accept =>
      var id := env.store.next;
      Answer(e.(store := e.store.(trees := e.store.trees[id := Tree(base, entries)], next := id + 1)), Ok(id))
  }

  function CreateCommitCall(env: Env, ok: Oracle, repo: RepoId, message: string, tree: Sha, parents: seq<Sha>): (a: Answer<Sha>)
    ensures a.env.log == env.log + [CreateCommit(repo, message, tree, parents)]
    ensures a.resp.Ok? <==> VerdictOf(ok, |env.log|).Accept?
    ensures a.resp.Ok? ==> a.resp.value == env.store.next
    ensures a.resp.Ok? ==> a.env.store == env.store.(commits := env.store.commits[env.store.next := Commit(message, tree, parents)], next := env.store.next + 1)
    ensures a.resp.NotOk? ==> a.env.store == env.store
  {
    var e := Logged(env, CreateCommit(repo, message, tree, parents));
    match VerdictOf(ok, |env.log|)
    case Reject(st, m) => Answer(e, NotOk(st, m))
    case Accept =>
      var id := env.store.next;
      Answer(e.(store := e.store.(commits := e.store.commits[id := Commit(message, tree, parents)], next := id + 1)), Ok(id))
  }

  function ReadRepoCall(env: Env, ok: Oracle, repo: RepoId): (a: Answer<()>)
    ensures a.env == Logged(env, ReadRepo(repo))
    ensures a.resp.Ok? <==> VerdictOf(ok, |env.log|).Accept? && repo in env.store.repos
    ensures VerdictOf(ok, |env.log|).Accept? && repo !in env.store.repos ==> a.resp == NotFound()
  {
    var e := Logged(env, ReadRepo(repo));
    match VerdictOf(ok, |env.log|)
    case Reject(st, m) => Answer(e, NotOk(st, m))
    case Accept => if repo in env.store.repos then Answer(e, Ok(())) else Answer(e, NotFound())
  }

  /**
   * Forking `upstream` for the authenticated user `owner`. The platform copies
   * the branches asynchronously; the model records only that the fork exists.
   */
  function CreateForkCall(env: Env, ok: Oracle, upstream: RepoId, owner: string): (a: Answer<()>)
    ensures a.env.log == env.log + [CreateFork(upstream)]
    ensures a.resp.Ok? <==> VerdictOf(ok, |env.log|).Accept?
    ensures a.resp.Ok? ==> a.env.store == env.store.(repos := env.store.repos + {RepoId(owner, upstream.name)})
    ensures a.resp.NotOk? ==> a.env.store == env.store
  {
    var e := Logged(env, CreateFork(upstream));
    match VerdictOf(ok, |env.log|)
    case Reject(st, m) => Answer(e, NotOk(st, m))
    case Accept => Answer(e.(store := e.store.(repos := e.store.repos + {RepoId(owner, upstream.name)})), Ok(()))
  }

  function PullsOf(st: Store, repo: RepoId): seq<PullRequest> {
    if repo in st.pulls then st.pulls[repo] else []
  }

  /** Pull requests per page when a listing request names no `per_page`. */
  const DefaultPageSize: nat := 30

  /**
   * The page a listing without paging parameters answers. The platform sorts
   * pull requests by creation time, newest first, and returns the first
   * `DefaultPageSize`; the store keeps them oldest first.
   */
  function FirstPage(prs: seq<PullRequest>): (r: seq<PullRequest>)
    ensures |r| == if |prs| < DefaultPageSize then |prs| else DefaultPageSize
    ensures forall k :: 0 <= k < |r| ==> r[k] == prs[|prs| - 1 - k]
  {
    var n := if |prs| < DefaultPageSize then |prs| else DefaultPageSize;
    seq(n, k requires 0 <= k < n => prs[|prs| - 1 - k])
  }

  /** A full page of newer pull requests hides every older one. */
  lemma PageKeepsNewest(older: seq<PullRequest>, newer: seq<PullRequest>)
    requires |newer| >= DefaultPageSize
    ensures FirstPage(older + newer) == FirstPage(newer)
  {
    var all := older + newer;
    forall k | 0 <= k < DefaultPageSize
      ensures FirstPage(all)[k] == FirstPage(newer)[k]
    {
      assert all[|all| - 1 - k] == newer[|newer| - 1 - k];
    }
  }

  /** A repository with at most a page of pull requests is listed in full. */
  lemma SmallListingComplete(prs: seq<PullRequest>)
    requires |prs| <= DefaultPageSize
    ensures forall p :: p in FirstPage(prs) <==> p in prs
  {
    var r := FirstPage(prs);
    forall p | p in prs ensures p in r {
      var i :| 0 <= i < |prs| && prs[i] == p;
      assert r[|prs| - 1 - i] == p;
    }
  }

  /** Listing the pull requests of `repo`: one page, the newest first. */
  function ListPullsCall(env: Env, ok: Oracle, repo: RepoId): (a: Answer<seq<PullRequest>>)
    ensures a.env == Logged(env, ListPulls(repo))
    ensures a.resp.Ok? <==> VerdictOf(ok, |env.log|).Accept?
    ensures a.resp.Ok? ==> a.resp.value == FirstPage(PullsOf(env.store, repo))
  {
    var e := Logged(env, ListPulls(repo));
    match VerdictOf(ok, |env.log|)
    case Reject(st, m) => Answer(e, NotOk(st, m))
    case Accept => Answer(e, Ok(FirstPage(PullsOf(env.store, repo))))
  }

  /** Opening a pull request on `repo`; it is listed as open, authored by `author`. */
  function CreatePullCall(env: Env, ok: Oracle, repo: RepoId, author: string, p: PrPayload): (a: Answer<nat>)
    ensures a.env.log == env.log + [CreatePull(repo, author, p)]
    ensures a.resp.Ok? <==> VerdictOf(ok, |env.log|).Accept?
    ensures a.resp.Ok? ==> PullsOf(a.env.store, repo) == PullsOf(env.store, repo) + [PullRequest(|PullsOf(env.store, repo)| + 1, p.title, author, "open", p.draft, p.head, p.base)]
    ensures a.resp.NotOk? ==> a.env.store == env.store
    ensures a.env.store.refs == env.store.refs
  {
    var e := Logged(env, CreatePull(repo, author, p));
    match VerdictOf(ok, |env.log|)
    case Reject(st, m) => Answer(e, NotOk(st, m))
    case Accept =>
      var existing := PullsOf(env.store, repo);
      var pr := PullRequest(|existing| + 1, p.title, author, "open", p.draft, p.head, p.base);
      Answer(e.(store := e.store.(pulls := e.store.pulls[repo := existing + [pr]])), Ok(|existing| + 1))
  }
}

=== FILE: remote_paths.dfy ===
/** `getRemotePath`: the directory of the content repository each category lives in. */
module RemotePaths {
  import opened Wrappers
  import opened Values

  const Categories: seq<string> := ["Events", "Newsletter", "Professor", "Project", "Tutorial"]

  /** The table itself; `None` is the `default` branch, which leaves the result undefined. */
  function PrefixOf(category: Option<Value>): (r: Option<string>)
    ensures r.Some? <==> category.Some? && category.value.Str? && category.value.s in Categories
    ensures r.Some? ==> |r.value| > 0 && r.value[|r.value| - 1] == '/'
    // the directory of each category
    ensures category == Some(Str("Events")) ==> r == Some("events/")
    ensures category == Some(Str("Newsletter")) ==> r == Some("resources/newsletters/")
    ensures category == Some(Str("Professor")) ==> r == Some("professors/")
    ensures category == Some(Str("Project")) ==> r == Some("resources/projects/")
    ensures category == Some(Str("Tutorial")) ==> r == Some("tutorials/")
  {
    match category
    case Some(Str("Events")) => Some("events/")
    case Some(Str("Newsletter")) => Some("resources/newsletters/")
    case Some(Str("Professor")) => Some("professors/")
    case Some(Str("Project")) => Some("resources/projects/")
    case Some(Str("Tutorial")) => Some("tutorials/")
    case _ => None
  }

  /** `getRemotePath(data)`: only `data.resourceCategory` is read. */
  function GetRemotePath(data: Object): (r: Option<string>)
    ensures r.Some? ==> |r.value| > 0 && r.value[|r.value| - 1] == '/'
    ensures r.Some? <==> "resourceCategory" in data && data["resourceCategory"].Str? && data["resourceCategory"].s in Categories
  {
    PrefixOf(Field(data, "resourceCategory"))
  }

  /** Requests that agree on `resourceCategory` get the same prefix, whatever else they carry. */
  lemma OnlyCategoryMatters(a: Object, b: Object)
    requires Field(a, "resourceCategory") == Field(b, "resourceCategory")
    ensures GetRemotePath(a) == GetRemotePath(b)
  {
  }

  /** The table is one-to-one: a prefix determines its category. */
  lemma PrefixDeterminesCategory(x: Option<Value>, y: Option<Value>)
    requires PrefixOf(x).Some? && PrefixOf(x) == PrefixOf(y)
    ensures x == y
  {
  }
}

=== FILE: resource_parser.dfy ===
/**
 * The parser for new resources: `resourceIdentifier` picks a handler by
 * `resourceCategory`; each handler builds the YAML records of the resource,
 * creates the staging folder and its `assets` child, and writes the records
 * there. Any exception inside a handler is caught and logged.
 */
module ResourceParser {
  import opened Wrappers
  import opened Values
  import opened DirManager
  import opened Records

  /** `format(new Date(x), ...)`: `None` when the date is invalid, which makes `format` throw. */
  type DateFormat = Option<Value> -> Option<string>

  /** Whether each `mkdir` fails: the staging folder's, then its `assets` child's. */
  datatype Mkdir = Mkdir(folderFails: bool, assetsFails: bool)

  /** What a handler leaves behind; `failed` when it threw and the error was logged. */
  datatype Staged = Staged(fs: Fs, files: seq<YamlFile>, failed: bool)

  // ---------------------------------------------------------------------------
  // The records
  // ---------------------------------------------------------------------------

  function EventLanguages(data: Object): seq<Value> {
    Compact([Field(data, "language1"), Field(data, "language2")])
  }

  /** The `eventData` entries copied from the request as they are. */
  const EventPlain: set<string> :=
    {"id", "timezone", "address_city_country", "name", "type", "description", "project_id", "tags"}

  /**
   * `eventData`: `None` when one of the dates cannot be formatted. Otherwise
   * the dates are the formatted texts, `language` lists the languages,
   * `links` wraps the website, and the other fields are copied as the
   * request carries them.
   */
  function EventRecord(data: Object, fmt: DateFormat): (r: Option<Object>)
    ensures r.Some? <==> fmt(Field(data, "start_date")).Some? && fmt(Field(data, "end_date")).Some?
    ensures r.Some? ==>
              && KeysWithin(r.value, EventPlain + {"start_date", "end_date", "language", "links"})
              && Copies(r.value, data, EventPlain)
              && "start_date" in r.value && r.value["start_date"] == Str(fmt(Field(data, "start_date")).value)
              && "end_date" in r.value && r.value["end_date"] == Str(fmt(Field(data, "end_date")).value)
              && "language" in r.value && r.value["language"] == Arr(EventLanguages(data))
              && "links" in r.value && r.value["links"] == Obj(Build(map["website" := Field(data, "website")]))
  {
    var start := fmt(Field(data, "start_date"));
    var end := fmt(Field(data, "end_date"));
    if start.None? || end.None? then None
    else
      var extras := EventExtras(data, start.value, end.value);
      OverlayKeepsCopies(Pick(data, EventPlain), extras, data, EventPlain, {"start_date", "end_date", "language", "links"});
      Some(Pick(data, EventPlain) + extras)
  }

  /** The `eventData` entries built rather than copied, once both dates are formatted. */
  function EventExtras(data: Object, start: string, end: string): (e: Object)
    ensures KeysWithin(e, {"start_date", "end_date", "language", "links"})
    ensures "start_date" in e && e["start_date"] == Str(start)
    ensures "end_date" in e && e["end_date"] == Str(end)
    ensures "language" in e && e["language"] == Arr(EventLanguages(data))
    ensures "links" in e && e["links"] == Obj(Build(map["website" := Field(data, "website")]))
  {
    map[
      "start_date" := Str(start),
      "end_date" := Str(end),
      "language" := Arr(EventLanguages(data)),
      "links" := Obj(Build(map["website" := Field(data, "website")]))]
  }

  /** The `newsletterData` entries copied from the request as they are. */
  const NewsletterPlain: set<string> :=
    {"id", "title", "author", "level", "publication_date", "language", "contributor_names", "tags"}

  /** `newsletterData`: the plain fields copied, `links` wrapping the website, the description re-typed. */
  function NewsletterRecord(data: Object): (r: Object)
    ensures KeysWithin(r, NewsletterPlain + {"links", "description"})
    ensures Copies(r, data, NewsletterPlain)
    ensures "links" in r && r["links"] == Obj(Build(map["website" := Field(data, "website")]))
    ensures "description" in r && r["description"] == Str(Interpolate(Field(data, "description")) + "\n")
  {
    var extras := map[
      "links" := Obj(Build(map["website" := Field(data, "website")])),
      "description" := Str(Interpolate(Field(data, "description")) + "\n")];
    OverlayKeepsCopies(Pick(data, NewsletterPlain), extras, data, NewsletterPlain, {"links", "description"});
    Pick(data, NewsletterPlain) + extras
  }

  function ProfessorLinks(data: Object): seq<Value> {
    Compact([Field(data, "twitter"), Field(data, "github"), Field(data, "website"), Field(data, "nostr")])
  }

  /** `...(x && {k: v})`: the entry exists only when `x` is truthy. */
  function When(x: Option<Value>, v: Value): Option<Value> {
    if TruthyOpt(x) then Some(v) else None
  }

  /** The `professorYMLData` entries copied from the request as they are. */
  const ProfessorPlain: set<string> := {"id", "name", "contributor_id", "affiliations", "tags"}

  /**
   * `professorYMLData`: the plain fields copied, the links listed, `tips` and
   * `company` only when truthy; the biography is not part of it.
   */
  function ProfessorRecord(data: Object): (r: Object)
    ensures KeysWithin(r, ProfessorPlain + {"links", "tips", "company"})
    ensures Copies(r, data, ProfessorPlain)
    ensures "links" in r && r["links"] == Arr(ProfessorLinks(data))
    ensures "tips" in r <==> TruthyOpt(Field(data, "lightning_address"))
    ensures "tips" in r ==> r["tips"] == Obj(map["lightning_address" := data["lightning_address"]])
    ensures "company" in r <==> TruthyOpt(Field(data, "company"))
    ensures "company" in r ==> r["company"] == data["company"]
  {
    OverlayKeepsCopies(Pick(data, ProfessorPlain), ProfessorExtras(data), data, ProfessorPlain, {"links", "tips", "company"});
    Pick(data, ProfessorPlain) + ProfessorExtras(data)
  }

  /** The `professorYMLData` entries built rather than copied, before the undefined ones are dropped. */
  function ProfessorExtras(data: Object): (e: Object)
    ensures KeysWithin(e, {"links", "tips", "company"})
    ensures "links" in e && e["links"] == Arr(ProfessorLinks(data))
    ensures "tips" in e <==> TruthyOpt(Field(data, "lightning_address"))
    ensures "tips" in e ==> e["tips"] == Obj(map["lightning_address" := data["lightning_address"]])
    ensures "company" in e <==> TruthyOpt(Field(data, "company"))
    ensures "company" in e ==> e["company"] == data["company"]
  {
    var tip := Field(data, "lightning_address");
    var company := Field(data, "company");
    Build(map[
      "links" := Some(Arr(ProfessorLinks(data))),
      "tips" := When(tip, Obj(map["lightning_address" := tip.GetOr(Null)])),
      "company" := if TruthyOpt(company) then company else None])
  }

  /** `professorENData`. */
  function ProfessorBio(data: Object): Object {
    Build(map["bio" := Field(data, "bio"), "short_bio" := Field(data, "short_bio")])
  }

  function ProjectLinkList(data: Object): seq<Value> {
    Compact([Field(data, "links.website"), Field(data, "links.twitter"),
             Field(data, "links.github"), Field(data, "links.nostr")])
  }

  /** The index in `links[0 || 1 || 2 || 3]`: JavaScript's `0 || 1` is `1`. */
  const GuardIndex: nat := 1

  /**
   * The `links` entry of `projectData`. The guard `links[0 || 1 || 2 || 3]`
   * reads `links[1]`, since `0 || 1` is `1`.
   */
  function ProjectLinks(data: Object): Option<Value> {
    var links := ProjectLinkList(data);
    When(At(links, GuardIndex), Obj(LinkSlots(links)))
  }

  /** `{website: links[0], twitter: links[1], github: links[2], nostr: links[3]}`. */
  function LinkSlots(links: seq<Value>): Object {
    Build(map[
      "website" := At(links, 0),
      "twitter" := At(links, 1),
      "github" := At(links, 2),
      "nostr" := At(links, 3)])
  }

  /** The `projectData` entries copied from the request as they are. */
  const ProjectPlain: set<string> := {"id", "name", "category", "original_language", "tags"}

  /** `projectData`: the plain fields copied, `links` only when the guard lets them through. */
  function ProjectRecord(data: Object): (r: Object)
    ensures KeysWithin(r, ProjectPlain + {"links"})
    ensures Copies(r, data, ProjectPlain)
    ensures "links" in r <==> ProjectLinks(data).Some?
    ensures "links" in r ==> r["links"] == ProjectLinks(data).value
  {
    var extras := Build(map["links" := ProjectLinks(data)]);
    OverlayKeepsCopies(Pick(data, ProjectPlain), extras, data, ProjectPlain, {"links"});
    Pick(data, ProjectPlain) + extras
  }

  /** `projectENData`. */
  function ProjectDescription(data: Object): Object {
    Build(map["description" := Field(data, "description")])
  }

  /** The documents a handler writes, in order; `None` when building them throws. */
  function Documents(h: Handler, data: Object, fmt: DateFormat): Option<seq<Doc>> {
    match h
    case EventsHandler =>
      var e := EventRecord(data, fmt);
      if e.None? then None else Some([Doc("event.yml", e.value)])
    case NewsletterHandler => Some([Doc("newsletter.yml", NewsletterRecord(data))])
    case ProfessorHandler => Some([Doc("professor.yml", ProfessorRecord(data)), Doc("en.yml", ProfessorBio(data))])
    case ProjectHandler =>
      Some([Doc("project.yml", ProjectRecord(data)),
            Doc(Interpolate(Field(data, "original_language")) + ".yml", ProjectDescription(data))])
  }

  // ---------------------------------------------------------------------------
  // The handlers
  // ---------------------------------------------------------------------------

  /**
   * The steps after the records are built: create the folder named after the
   * resource and its `assets` child, then write the documents. A failed
   * `mkdir` makes `createFolder` answer undefined, so the child and the
   * documents go under `undefined/`.
   */
  function StageDocs(fs: Fs, docs: seq<Doc>, name: string, mk: Mkdir): (s: Staged)
    ensures fs <= s.fs
    ensures s.failed ==> s.files == []
  {
    var made := CreateFolder(fs, name, mk.folderFails);
    var parent := TemplateText(made.path);
    var child := CreateChildFolder(made.fs, parent, mk.assetsFails);
    var w := WriteDocs(child.fs, parent, docs);
    if w.None? then Staged(child.fs, [], true)
    else Staged(w.value.fs, w.value.files, false)
  }

  /**
   * One `parse*` handler. Building the records may throw (an invalid date),
   * and so does `createFolder` when the folder name is not a string; either
   * leaves the file system as it was.
   */
  function Stage(fs: Fs, h: Handler, data: Object, fmt: DateFormat, mk: Mkdir): (s: Staged)
    ensures var name := Field(data, NameKey(h));
            Documents(h, data, fmt).None? || !(name.Some? && name.value.Str?) ==> s == Staged(fs, [], true)
    ensures var name := Field(data, NameKey(h));
            Documents(h, data, fmt).Some? && name.Some? && name.value.Str? ==>
              s == StageDocs(fs, Documents(h, data, fmt).value, name.value.s, mk)
  {
    var docs := Documents(h, data, fmt);
    var name := Field(data, NameKey(h));
    if docs.None? || !(name.Some? && name.value.Str?) then Staged(fs, [], true)
    else StageDocs(fs, docs.value, name.value.s, mk)
  }

  /** `resourceIdentifier(data, image)` with the handler run to completion. */
  function ResourceIdentifier(fs: Fs, data: Object, fmt: DateFormat, mk: Mkdir): (s: Staged)
    ensures Dispatch(Field(data, "resourceCategory")).None? ==> s == Staged(fs, [], false)
    ensures Dispatch(Field(data, "resourceCategory")).Some? ==>
              s == Stage(fs, Dispatch(Field(data, "resourceCategory")).value, data, fmt, mk)
  {
    match Dispatch(Field(data, "resourceCategory"))
    case None => Staged(fs, [], false)
    case Some(h) => Stage(fs, h, data, fmt, mk)
  }

  // ---------------------------------------------------------------------------
  // Properties
  // ---------------------------------------------------------------------------

  /** Exactly the four categories run a handler; `Tutorial` and anything else only log. */
  lemma DispatchCategories(fs: Fs, data: Object, fmt: DateFormat, mk: Mkdir)
    ensures var c := Field(data, "resourceCategory");
            ResourceIdentifier(fs, data, fmt, mk) == Staged(fs, [], false)
              <== !(c.Some? && c.value.Str? && c.value.s in Handled)
    ensures Dispatch(Some(Str("Tutorial"))).None?
  {
    assert "Tutorial" !in Handled;
  }

  /** The event's languages: the defined, non-empty ones of `language1` and `language2`, in that order. */
  lemma EventLanguagesInOrder(data: Object, fmt: DateFormat)
    requires fmt(Field(data, "start_date")).Some? && fmt(Field(data, "end_date")).Some?
    ensures var l1 := Field(data, "language1");
            var l2 := Field(data, "language2");
            Field(EventRecord(data, fmt).value, "language") == Some(Arr(
              if TruthyOpt(l1) && TruthyOpt(l2) then [l1.value, l2.value]
              else if TruthyOpt(l1) then [l1.value]
              else if TruthyOpt(l2) then [l2.value]
              else []))
  {
    EventLanguageEntry(data, fmt);
    LanguagesInOrder(data);
  }

  lemma EventLanguageEntry(data: Object, fmt: DateFormat)
    requires fmt(Field(data, "start_date")).Some? && fmt(Field(data, "end_date")).Some?
    ensures "language" in EventRecord(data, fmt).value
    ensures EventRecord(data, fmt).value["language"] == Arr(EventLanguages(data))
  {
  }

  lemma LanguagesInOrder(data: Object)
    ensures var l1 := Field(data, "language1");
            var l2 := Field(data, "language2");
            EventLanguages(data) ==
              if TruthyOpt(l1) && TruthyOpt(l2) then [l1.value, l2.value]
              else if TruthyOpt(l1) then [l1.value]
              else if TruthyOpt(l2) then [l2.value]
              else []
  {
    var l1 := Field(data, "language1");
    var l2 := Field(data, "language2");
    CompactAppend([l1], [l2]);
    assert [l1, l2] == [l1] + [l2];
    CompactSingle(l1);
    CompactSingle(l2);
  }

  /** The professor's links: twitter, github, website, nostr, each kept only when truthy, in that order. */
  lemma ProfessorLinksInOrder(data: Object)
    ensures var tw := Field(data, "twitter");
            var gh := Field(data, "github");
            var web := Field(data, "website");
            var nostr := Field(data, "nostr");
            Field(ProfessorRecord(data), "links") == Some(Arr(
              (if TruthyOpt(tw) then [tw.value] else [])
              + (if TruthyOpt(gh) then [gh.value] else [])
              + (if TruthyOpt(web) then [web.value] else [])
              + (if TruthyOpt(nostr) then [nostr.value] else [])))
  {
    ProfessorLinksEntry(data);
    ProfessorLinksOrder(data);
  }

  lemma ProfessorLinksEntry(data: Object)
    ensures Field(ProfessorRecord(data), "links") == Some(Arr(ProfessorLinks(data)))
  {
  }

  lemma ProfessorLinksOrder(data: Object)
    ensures var tw := Field(data, "twitter");
            var gh := Field(data, "github");
            var web := Field(data, "website");
            var nostr := Field(data, "nostr");
            ProfessorLinks(data) ==
              (if TruthyOpt(tw) then [tw.value] else [])
              + (if TruthyOpt(gh) then [gh.value] else [])
              + (if TruthyOpt(web) then [web.value] else [])
              + (if TruthyOpt(nostr) then [nostr.value] else [])
  {
    var tw := Field(data, "twitter");
    var gh := Field(data, "github");
    var web := Field(data, "website");
    var nostr := Field(data, "nostr");
    CompactFour([tw, gh, web, nostr]);
    CompactSingle(tw);
    CompactSingle(gh);
    CompactSingle(web);
    CompactSingle(nostr);
  }

  /** `tips` exists exactly when `lightning_address` is truthy, and wraps it; a falsy `company` is left out. */
  lemma ProfessorOptionalFields(data: Object)
    ensures var r := ProfessorRecord(data);
            var tip := Field(data, "lightning_address");
            && ("tips" in r <==> TruthyOpt(tip))
            && ("tips" in r ==> r["tips"] == Obj(map["lightning_address" := tip.value]))
            && ("company" in r <==> TruthyOpt(Field(data, "company")))
            && ("company" in r ==> r["company"] == data["company"])
  {
  }

  /** A compacted list holds only truthy values, so its entry 1 is truthy exactly when it has two entries. */
  lemma SecondEntryTruthy(links: seq<Value>)
    requires forall k :: 0 <= k < |links| ==> Truthy(links[k])
    ensures TruthyOpt(At(links, 1)) <==> |links| >= 2
  {
  }

  /**
   * The project's `links` exist exactly when at least two of the four link
   * fields are truthy; a single link, even a website, is dropped.
   */
  lemma ProjectLinksNeedTwo(data: Object)
    ensures var four := [Field(data, "links.website"), Field(data, "links.twitter"),
                         Field(data, "links.github"), Field(data, "links.nostr")];
            "links" in ProjectRecord(data) <==> CountTruthy(four) >= 2
    ensures "links" in ProjectRecord(data) <==> ProjectLinks(data).Some?
    ensures "links" in ProjectRecord(data) ==> ProjectRecord(data)["links"] == ProjectLinks(data).value
  {
    SecondEntryTruthy(ProjectLinkList(data));
  }

  /**
   * When they exist, the four slots take the compacted list by position: slot
   * `i` holds the `i`-th truthy link, whichever field it came from.
   */
  lemma ProjectLinkSlots(data: Object)
    requires ProjectLinks(data).Some?
    ensures |ProjectLinkList(data)| >= 2
    ensures ProjectLinks(data).value == Obj(LinkSlots(ProjectLinkList(data)))
  {
    SecondEntryTruthy(ProjectLinkList(data));
  }

  lemma SlotsByPosition(links: seq<Value>)
    requires |links| >= 2
    ensures LinkSlots(links)["website"] == links[0]
    ensures LinkSlots(links)["twitter"] == links[1]
    ensures "github" in LinkSlots(links) <==> |links| >= 3
    ensures "nostr" in LinkSlots(links) <==> |links| >= 4
  {
  }

  /** Without a website, the twitter URL lands in the `website` slot and the github URL in `twitter`. */
  lemma MissingWebsiteShifts(data: Object)
    requires !TruthyOpt(Field(data, "links.website"))
    requires TruthyOpt(Field(data, "links.twitter")) && TruthyOpt(Field(data, "links.github"))
    ensures ProjectLinks(data).Some? && ProjectLinks(data).value.Obj?
    ensures var slots := ProjectLinks(data).value.fields;
            && "website" in slots && slots["website"] == data["links.twitter"]
            && "twitter" in slots && slots["twitter"] == data["links.github"]
  {
    var web := Field(data, "links.website");
    var tw := Field(data, "links.twitter");
    var gh := Field(data, "links.github");
    var nostr := Field(data, "links.nostr");
    var links := ProjectLinkList(data);
    CompactFour([web, tw, gh, nostr]);
    CompactSingle(web);
    CompactSingle(tw);
    CompactSingle(gh);
    assert links[0] == tw.value && links[1] == gh.value;
    SecondEntryTruthy(links);
    ProjectLinkSlots(data);
    SlotsByPosition(links);
  }

  /** The professor's bio and short bio go to `en.yml`, never into `professor.yml`. */
  lemma ProfessorPlacement(data: Object, fmt: DateFormat)
    ensures var docs := Documents(ProfessorHandler, data, fmt).value;
            && |docs| == 2 && docs[0].name == "professor.yml" && docs[1].name == "en.yml"
            && "bio" !in docs[0].content && "short_bio" !in docs[0].content
            && ("bio" in docs[1].content <==> "bio" in data)
  {
    ProfessorRecordLacksBio(data);
    ProfessorBioHasBio(data);
  }

  lemma ProfessorRecordLacksBio(data: Object)
    ensures "bio" !in ProfessorRecord(data) && "short_bio" !in ProfessorRecord(data)
  {
    assert "bio" !in ProfessorPlain + {"links", "tips", "company"};
    assert "short_bio" !in ProfessorPlain + {"links", "tips", "company"};
  }

  lemma ProfessorBioHasBio(data: Object)
    ensures "bio" in ProfessorBio(data) <==> "bio" in data
  {
  }

  /** The project's description goes to `<original_language>.yml`, never into `project.yml`. */
  lemma ProjectPlacement(data: Object, fmt: DateFormat)
    ensures var docs := Documents(ProjectHandler, data, fmt).value;
            && |docs| == 2 && docs[0].name == "project.yml"
            && docs[1].name == Interpolate(Field(data, "original_language")) + ".yml"
            && "description" !in docs[0].content
            && ("description" in docs[1].content <==> "description" in data)
  {
    assert "description" !in ProjectPlain + {"links"};
  }

  /** The newsletter's description is the field's text with a line break appended, even when it is missing. */
  lemma NewsletterDescription(data: Object)
    ensures "description" in NewsletterRecord(data)
    ensures var d := NewsletterRecord(data)["description"];
            && d.Str? && |d.s| > 0 && d.s[|d.s| - 1] == '\n'
            && ("description" !in data ==> d.s == "undefined\n")
            && ("description" in data && data["description"].Str? ==> d.s == data["description"].s + "\n")
  {
  }

  /**
   * A handler that finishes has written each of its documents into the
   * resource's staging folder, and has made that folder and its `assets` child.
   */
  lemma StagedIntoFolder(fs: Fs, docs: seq<Doc>, name: string)
    ensures var s := StageDocs(fs, docs, name, Mkdir(false, false));
            var dir := FolderPath(name);
            && !s.failed
            && dir in s.fs && dir + "/assets" in s.fs
            && |s.files| == |docs|
            && (forall i :: 0 <= i < |docs| ==> s.files[i] == YamlFile(dir + "/" + docs[i].name, docs[i].content))
  {
    var dir := FolderPath(name);
    var made := CreateFolder(fs, name, false);
    assert made.path == Some(dir);
    var child := CreateChildFolder(made.fs, dir, false);
    assert dir in child.fs;
  }

  /**
   * When the staging folder cannot be made but its child can, the recursive
   * `mkdir` of `undefined/assets` makes `undefined/`, and the documents are
   * written there instead.
   */
  lemma UndefinedFolder(fs: Fs, docs: seq<Doc>, name: string)
    ensures var s := StageDocs(fs, docs, name, Mkdir(true, false));
            && !s.failed
            && |s.files| == |docs|
            && (forall i :: 0 <= i < |docs| ==> s.files[i].path == "undefined/" + docs[i].name)
  {
    var made := CreateFolder(fs, name, true);
    assert made == Created(fs, None);
    ChildImpliesParent(fs, "undefined");
  }
}

=== FILE: strings.dfy ===
/**
 * String operations the TypeScript sources use, written out with the JavaScript
 * semantics they have there: ASCII case mapping, substring search, `replace`
 * of the first occurrence, `split` and `join`, `trim`, and decimal numerals.
 */
module Strings {
  import opened Wrappers

  // ---------------------------------------------------------------------------
  // Case mapping (ASCII only; locale-aware Unicode mapping is not modelled)
  // ---------------------------------------------------------------------------

  predicate IsUpper(c: char) { 'A' <= c <= 'Z' }

  predicate IsLower(c: char) { 'a' <= c <= 'z' }

  function LowerChar(c: char): (r: char)
    ensures !IsUpper(r)
    ensures !IsUpper(c) ==> r == c
    ensures IsUpper(c) ==> IsLower(r) && r as int - 'a' as int == c as int - 'A' as int
  {
    if IsUpper(c) then (c as int + 32) as char else c
  }

  function UpperChar(c: char): (r: char)
    ensures !IsLower(r)
    ensures !IsLower(c) ==> r == c
    ensures IsLower(c) ==> IsUpper(r) && r as int - 'A' as int == c as int - 'a' as int
  {
    if IsLower(c) then (c as int - 32) as char else c
  }

  /** `toLowerCase` / `toLocaleLowerCase` on ASCII letters. */
  function ToLower(s: string): (r: string)
    ensures |r| == |s|
    ensures forall i :: 0 <= i < |s| ==> r[i] == LowerChar(s[i])
  {
    seq(|s|, i requires 0 <= i < |s| => LowerChar(s[i]))
  }

  /** `toUpperCase` on ASCII letters. */
  function ToUpper(s: string): (r: string)
    ensures |r| == |s|
    ensures forall i :: 0 <= i < |s| ==> r[i] == UpperChar(s[i])
  {
    seq(|s|, i requires 0 <= i < |s| => UpperChar(s[i]))
  }

  /** `s.replace(/a/g, b)` for a single character `a`. */
  function ReplaceChar(s: string, a: char, b: char): (r: string)
    ensures |r| == |s|
    ensures forall i :: 0 <= i < |s| ==> r[i] == (if s[i] == a then b else s[i])
  {
    seq(|s|, i requires 0 <= i < |s| => if s[i] == a then b else s[i])
  }

  lemma ReplaceCharAppend(x: string, y: string, a: char, b: char)
    ensures ReplaceChar(x + y, a, b) == ReplaceChar(x, a, b) + ReplaceChar(y, a, b)
  {
    assert forall i :: 0 <= i < |x + y| ==> ReplaceChar(x + y, a, b)[i] == (ReplaceChar(x, a, b) + ReplaceChar(y, a, b))[i];
  }

  lemma ReplaceCharAbsent(s: string, a: char, b: char)
    requires a !in s
    ensures ReplaceChar(s, a, b) == s
  {
  }

  // ---------------------------------------------------------------------------
  // The name normaliser shared by the staging folder and the branch name
  // ---------------------------------------------------------------------------

  /** `name.toLowerCase().replace(/ /g, '-')`. */
  function Slugify(name: string): (r: string)
    ensures |r| == |name|
    ensures ' ' !in r
    ensures forall i :: 0 <= i < |r| ==> !IsUpper(r[i])
    // each character is lower-cased, and each space becomes a hyphen
    ensures forall i :: 0 <= i < |name| ==> r[i] == (if name[i] == ' ' then '-' else LowerChar(name[i]))
  {
    ReplaceChar(ToLower(name), ' ', '-')
  }

  /** Normalising a name that is already normalised changes nothing. */
  lemma SlugifyIdempotent(name: string)
    ensures Slugify(Slugify(name)) == Slugify(name)
  {
    var once := Slugify(name);
    forall i | 0 <= i < |once|
      ensures Slugify(once)[i] == once[i]
    {
      assert ToLower(once)[i] == once[i];
    }
  }

  // ---------------------------------------------------------------------------
  // Substring search
  // ---------------------------------------------------------------------------

  predicate OccursAt(s: string, sub: string, i: nat) {
    i + |sub| <= |s| && s[i..i + |sub|] == sub
  }

  /** The first occurrence of `sub` in `s` at or after `from`. */
  function IndexOf(s: string, sub: string, from: nat): (r: Option<nat>)
    ensures r.Some? ==> from <= r.value && r.value + |sub| <= |s| && OccursAt(s, sub, r.value)
    ensures r.Some? ==> forall j :: from <= j < r.value ==> !OccursAt(s, sub, j)
    ensures r.None? ==> forall j :: from <= j ==> !OccursAt(s, sub, j)
    decreases |s| - from
  {
    if from + |sub| > |s| then None
    else if s[from..from + |sub|] == sub then Some(from)
    else IndexOf(s, sub, from + 1)
  }

  /** `s.startsWith(prefix)`. */
  predicate StartsWith(s: string, prefix: string) {
    |prefix| <= |s| && s[..|prefix|] == prefix
  }

  /** A prefix of a prefix is a prefix. */
  lemma StartsWithTrans(s: string, a: string, p: string)
    requires StartsWith(s, a) && StartsWith(a, p)
    ensures StartsWith(s, p)
  {
    assert s[..|p|] == s[..|a|][..|p|];
  }

  /** `s.includes(sub)`. */
  predicate Contains(s: string, sub: string) {
    IndexOf(s, sub, 0).Some?
  }

  lemma ContainsWitness(s: string, sub: string, j: nat)
    requires OccursAt(s, sub, j)
    ensures Contains(s, sub)
  {
  }

  lemma NotContains(s: string, sub: string)
    requires forall j :: !OccursAt(s, sub, j)
    ensures !Contains(s, sub)
  {
  }

  lemma ContainsInLeft(a: string, b: string, w: string)
    requires Contains(a, w)
    ensures Contains(a + b, w)
  {
    var j := IndexOf(a, w, 0).value;
    assert (a + b)[j..j + |w|] == a[j..j + |w|];
    ContainsWitness(a + b, w, j);
  }

  lemma ContainsInRight(a: string, b: string, w: string)
    requires Contains(b, w)
    ensures Contains(a + b, w)
  {
    var j := IndexOf(b, w, 0).value;
    assert (a + b)[|a| + j..|a| + j + |w|] == b[j..j + |w|];
    ContainsWitness(a + b, w, |a| + j);
  }

  /** An occurrence in `a + b` lying wholly in one side is an occurrence in that side. */
  lemma OccurrenceSides(a: string, b: string, w: string, j: nat)
    requires OccursAt(a + b, w, j)
    ensures j + |w| <= |a| ==> OccursAt(a, w, j)
    ensures j >= |a| ==> OccursAt(b, w, j - |a|)
  {
    var s := a + b;
    if j + |w| <= |a| {
      assert s[..|a|] == a;
      assert s[j..j + |w|] == s[..|a|][j..j + |w|];
    }
    if j >= |a| {
      assert s[|a|..] == b;
      assert s[j..j + |w|] == s[|a|..][j - |a|..j - |a| + |w|];
    }
  }

  /** A word without `/` cannot straddle a `/` at the seam of two strings. */
  lemma ContainsAcrossSlash(a: string, b: string, w: string)
    requires |w| > 0 && '/' !in w
    requires (|a| > 0 && a[|a| - 1] == '/') || (|b| > 0 && b[0] == '/')
    ensures Contains(a + b, w) <==> Contains(a, w) || Contains(b, w)
  {
    if Contains(a, w) { ContainsInLeft(a, b, w); }
    if Contains(b, w) { ContainsInRight(a, b, w); }
    if Contains(a + b, w) {
      var s := a + b;
      var j := IndexOf(s, w, 0).value;
      OccurrenceSides(a, b, w, j);
      if j + |w| <= |a| {
        ContainsWitness(a, w, j);
      } else if j >= |a| {
        ContainsWitness(b, w, j - |a|);
      } else {
        var k := if |a| > 0 && a[|a| - 1] == '/' then |a| - 1 else |a|;
        assert s[k] == '/';
        assert s[j..j + |w|][k - j] == s[k];
        assert w[k - j] in w;
      }
    }
  }

  /** An occurrence shows its first and last characters in `s`. */
  lemma OccursAtEnds(s: string, sub: string, j: nat)
    requires |sub| > 0 && OccursAt(s, sub, j)
    ensures s[j] == sub[0] && s[j + |sub| - 1] == sub[|sub| - 1]
  {
    assert s[j..j + |sub|][0] == s[j];
    assert s[j..j + |sub|][|sub| - 1] == s[j + |sub| - 1];
  }

  /** `s.replace(pat, rep)` with a non-global pattern: only the first occurrence. */
  function ReplaceFirst(s: string, pat: string, rep: string): (r: string)
    ensures !Contains(s, pat) ==> r == s
    ensures Contains(s, pat) ==>
              var i := IndexOf(s, pat, 0).value;
              r == s[..i] + rep + s[i + |pat|..]
  {
    match IndexOf(s, pat, 0)
    case None => s
    case Some(i) => s[..i] + rep + s[i + |pat|..]
  }

  // ---------------------------------------------------------------------------
  // split / join
  // ---------------------------------------------------------------------------

  /** `s.split(c)` for a one-character separator. */
  function SplitChar(s: string, c: char): (r: seq<string>)
    ensures |r| >= 1
    ensures forall k :: 0 <= k < |r| ==> c !in r[k]
    decreases |s|
  {
    if |s| == 0 then [""]
    else
      var rest := SplitChar(s[1..], c);
      if s[0] == c then [""] + rest
      else [[s[0]] + rest[0]] + rest[1..]
  }

  /** `xs.join(sep)`; the empty array joins to the empty string. */
  function Join(xs: seq<string>, sep: string): string
    decreases |xs|
  {
    if |xs| == 0 then ""
    else if |xs| == 1 then xs[0]
    else xs[0] + sep + Join(xs[1..], sep)
  }

  lemma {:induction false} SplitCharNoSeparator(a: string, c: char)
    requires c !in a
    ensures SplitChar(a, c) == [a]
    decreases |a|
  {
    if |a| > 0 {
      SplitCharNoSeparator(a[1..], c);
      assert [a[0]] + a[1..] == a;
    }
  }

  lemma {:induction false} SplitCharFirst(a: string, b: string, c: char)
    requires c !in a
    ensures SplitChar(a + [c] + b, c) == [a] + SplitChar(b, c)
    decreases |a|
  {
    var s := a + [c] + b;
    if |a| == 0 {
      assert s[1..] == b;
    } else {
      assert s[1..] == a[1..] + [c] + b;
      SplitCharFirst(a[1..], b, c);
      assert [a[0]] + a[1..] == a;
    }
  }

  /** Splitting a joined list gives the list back when no element contains the separator. */
  lemma {:induction false} SplitJoin(xs: seq<string>, c: char)
    requires |xs| >= 1
    requires forall k :: 0 <= k < |xs| ==> c !in xs[k]
    ensures SplitChar(Join(xs, [c]), c) == xs
    decreases |xs|
  {
    if |xs| == 1 {
      SplitCharNoSeparator(xs[0], c);
    } else {
      SplitJoin(xs[1..], c);
      SplitCharFirst(xs[0], Join(xs[1..], [c]), c);
      assert [xs[0]] + xs[1..] == xs;
    }
  }

  /** Joining the pieces of a split gives the string back. */
  lemma {:induction false} JoinSplit(s: string, c: char)
    ensures Join(SplitChar(s, c), [c]) == s
    decreases |s|
  {
    if |s| > 0 {
      var rest := SplitChar(s[1..], c);
      var r := SplitChar(s, c);
      JoinSplit(s[1..], c);
      assert [s[0]] + s[1..] == s;
      if s[0] == c {
        assert r == [""] + rest;
        assert r[1..] == rest;
        assert Join(r, [c]) == "" + [c] + Join(rest, [c]);
      } else if |rest| == 1 {
        assert r == [[s[0]] + rest[0]];
      } else {
        assert r[1..] == rest[1..];
        assert r[0] == [s[0]] + rest[0];
        var tail := Join(rest[1..], [c]);
        assert Join(r, [c]) == ([s[0]] + rest[0]) + [c] + tail;
        assert Join(rest, [c]) == rest[0] + [c] + tail;
        assert ([s[0]] + rest[0]) + [c] + tail == [s[0]] + (rest[0] + [c] + tail);
      }
    }
  }

  /** `s.split(sep)` for a separator of one or more characters. */
  function SplitOn(s: string, sep: string): (r: seq<string>)
    requires |sep| > 0
    ensures |r| >= 1
    ensures Contains(s, sep) <==> |r| >= 2
    // without an occurrence the string is the only piece; with one, the
    // first piece is the text before it
    ensures !Contains(s, sep) ==> r == [s]
    ensures |r| >= 2 ==> r[0] == s[..IndexOf(s, sep, 0).value]
    // no piece holds the separator
    ensures forall k :: 0 <= k < |r| ==> !Contains(r[k], sep)
    decreases |s|
  {
    match IndexOf(s, sep, 0)
    case None => [s]
    case Some(i) =>
      var rest := SplitOn(s[i + |sep|..], sep);
      BeforeFirstOccurrence(s, sep, i);
      [s[..i]] + rest
  }

  /** Joining the pieces of a split with the separator gives the string back. */
  lemma {:induction false} JoinSplitOn(s: string, sep: string)
    requires |sep| > 0
    ensures Join(SplitOn(s, sep), sep) == s
    decreases |s|
  {
    match IndexOf(s, sep, 0)
    case None =>
    case Some(i) =>
      var tail := s[i + |sep|..];
      JoinSplitOn(tail, sep);
      var r := SplitOn(s, sep);
      assert r == [s[..i]] + SplitOn(tail, sep);
      assert r[1..] == SplitOn(tail, sep);
      assert Join(r, sep) == s[..i] + sep + Join(r[1..], sep);
      assert s[i..i + |sep|] == sep;
      assert s == s[..i] + sep + tail;
  }

  /** The text before the first occurrence holds no occurrence. */
  lemma BeforeFirstOccurrence(s: string, sep: string, i: nat)
    requires |sep| > 0 && IndexOf(s, sep, 0) == Some(i)
    ensures !Contains(s[..i], sep)
  {
    forall j: nat | OccursAt(s[..i], sep, j)
      ensures false
    {
      assert s[..i][j..j + |sep|] == s[j..j + |sep|];
      assert OccursAt(s, sep, j);
    }
  }

  /**
   * The second piece is the text after the first occurrence, up to the next
   * occurrence in what remains, or to the end.
   */
  lemma SplitOnSecond(s: string, sep: string)
    requires |sep| > 0 && Contains(s, sep)
    ensures var rest := s[IndexOf(s, sep, 0).value + |sep|..];
            SplitOn(s, sep)[1] == if Contains(rest, sep) then rest[..IndexOf(rest, sep, 0).value] else rest
  {
    var rest := s[IndexOf(s, sep, 0).value + |sep|..];
    assert SplitOn(s, sep)[1] == SplitOn(rest, sep)[0];
  }

  /** The part before the first character of `stops`: `s.split(/[...]/)[0]`. */
  function CutAtAny(s: string, stops: set<char>): (r: string)
    ensures r <= s
    ensures forall i :: 0 <= i < |r| ==> r[i] !in stops
    ensures |r| < |s| ==> s[|r|] in stops
    decreases |s|
  {
    if |s| == 0 || s[0] in stops then ""
    else [s[0]] + CutAtAny(s[1..], stops)
  }

  // ---------------------------------------------------------------------------
  // trim
  // ---------------------------------------------------------------------------

  /** The characters `String.prototype.trim` removes (white space and line terminators). */
  predicate IsJsSpace(c: char) {
    || c == ' ' || c == '\t' || c == '\n' || c == '\r' || c == '\U{000B}' || c == '\U{000C}'
    || c == '\U{00A0}' || c == '\U{1680}' || ('\U{2000}' <= c <= '\U{200A}')
    || c == '\U{2028}' || c == '\U{2029}' || c == '\U{202F}' || c == '\U{205F}'
    || c == '\U{3000}' || c == '\U{FEFF}'
  }

  function TrimStart(s: string): (r: string)
    ensures |r| <= |s| && r == s[|s| - |r|..]
    ensures |r| > 0 ==> !IsJsSpace(r[0])
    ensures forall i :: 0 <= i < |s| - |r| ==> IsJsSpace(s[i])
    decreases |s|
  {
    if |s| > 0 && IsJsSpace(s[0]) then TrimStart(s[1..]) else s
  }

  function TrimEnd(s: string): (r: string)
    ensures |r| <= |s| && r == s[..|r|]
    ensures |r| > 0 ==> !IsJsSpace(r[|r| - 1])
    ensures forall i :: |r| <= i < |s| ==> IsJsSpace(s[i])
    decreases |s|
  {
    if |s| > 0 && IsJsSpace(s[|s| - 1]) then TrimEnd(s[..|s| - 1]) else s
  }

  /** `s.trim()`. */
  function Trim(s: string): (r: string)
    ensures |r| > 0 ==> !IsJsSpace(r[0]) && !IsJsSpace(r[|r| - 1])
    ensures |r| <= |s|
    // `r` is the slice of `s` that starts after its leading white space, and
    // only white space lies around it
    ensures var lead := |s| - |TrimStart(s)|;
            && lead + |r| <= |s| && r == s[lead..lead + |r|]
            && (forall i :: 0 <= i < lead ==> IsJsSpace(s[i]))
            && (forall i :: lead + |r| <= i < |s| ==> IsJsSpace(s[i]))
  {
    TrimEnd(TrimStart(s))
  }

  /** Trimming a trimmed string changes nothing. */
  lemma TrimIdempotent(s: string)
    ensures Trim(Trim(s)) == Trim(s)
  {
    var r := Trim(s);
    assert TrimStart(r) == r;
    assert TrimEnd(r) == r;
  }

  // ---------------------------------------------------------------------------
  // Decimal numerals
  // ---------------------------------------------------------------------------

  predicate IsDigit(c: char) { '0' <= c <= '9' }

  predicate AllDigits(s: string) { forall i :: 0 <= i < |s| ==> IsDigit(s[i]) }

  function DigitChar(d: nat): (c: char)
    requires d < 10
    ensures IsDigit(c)
  {
    (48 + d) as char
  }

  function DigitValue(c: char): (d: nat)
    requires IsDigit(c)
    ensures d < 10
  {
    c as int - 48
  }

  /** `n.toString()` for a natural number: no leading zero. */
  function NatToString(n: nat): (r: string)
    ensures |r| >= 1 && AllDigits(r)
    ensures |r| > 1 ==> r[0] != '0'
    decreases n
  {
    if n < 10 then [DigitChar(n)] else NatToString(n / 10) + [DigitChar(n % 10)]
  }

  function DigitsValue(s: string): nat
    requires AllDigits(s)
    decreases |s|
  {
    if |s| == 0 then 0 else DigitsValue(s[..|s| - 1]) * 10 + DigitValue(s[|s| - 1])
  }

  /** A canonical decimal numeral: what `String(n)` produces for an array index. */
  predicate IsCanonicalNumeral(s: string) {
    |s| >= 1 && AllDigits(s) && (|s| == 1 || s[0] != '0')
  }

  /** The array index a property key names, if it names one. */
  function ParseIndex(s: string): (r: Option<nat>)
    ensures r.Some? <==> IsCanonicalNumeral(s)
  {
    if IsCanonicalNumeral(s) then Some(DigitsValue(s)) else None
  }

  lemma {:induction false} DigitsValueOfNatToString(n: nat)
    ensures DigitsValue(NatToString(n)) == n
    decreases n
  {
    if n >= 10 {
      DigitsValueOfNatToString(n / 10);
      var s := NatToString(n);
      assert s[..|s| - 1] == NatToString(n / 10);
    }
  }

  lemma {:induction false} LeadingDigitPositive(s: string)
    requires |s| >= 1 && AllDigits(s) && s[0] != '0'
    ensures DigitsValue(s) > 0
    decreases |s|
  {
    if |s| > 1 {
      LeadingDigitPositive(s[..|s| - 1]);
    }
  }

  /** Printing an index and reading it back gives the index. */
  lemma ParseIndexOfNatToString(n: nat)
    ensures ParseIndex(NatToString(n)) == Some(n)
  {
    DigitsValueOfNatToString(n);
  }

  /** Reading an index and printing it back gives the key: keys and indices correspond one to one. */
  lemma {:induction false} NatToStringOfParseIndex(s: string)
    requires ParseIndex(s).Some?
    ensures NatToString(ParseIndex(s).value) == s
    decreases |s|
  {
    var n := DigitsValue(s);
    var p := s[..|s| - 1];
    var d := DigitValue(s[|s| - 1]);
    assert n == DigitsValue(p) * 10 + d;
    assert DigitChar(d) == s[|s| - 1];
    if |s| == 1 {
      assert DigitsValue(p) == 0;
      assert NatToString(n) == [s[0]];
    } else {
      LeadingDigitPositive(p);
      assert IsCanonicalNumeral(p);
      NatToStringOfParseIndex(p);
      assert n / 10 == DigitsValue(p);
      assert n % 10 == d;
      assert NatToString(n) == p + [DigitChar(d)];
      assert p + [s[|s| - 1]] == s;
    }
  }
}

=== FILE: tutorial_form.dfy ===
/**
 * The tutorial form: the list of steps and the edits its inputs make, the
 * comma-separated tag input, and the Markdown preview generated from the form.
 */
module TutorialForm {
  import opened Wrappers
  import opened Strings

  // ---------------------------------------------------------------------------
  // State
  // ---------------------------------------------------------------------------

  /** A step; `images` are the chosen files, of which the preview uses only the count. */
  datatype Step = Step(id: string, text: string, images: seq<string>)

  datatype Tutorial = Tutorial(
    title: string, description: string, language: string, level: string,
    tags: seq<string>, author: string, cover: Option<string>, steps: seq<Step>)

  const Languages: seq<string> := ["Español", "English", "Français", "Deutsch"]
  const Levels: seq<string> := ["Beginner", "Intermediate", "Advanced"]

  /** A step as `addStep` and the initial state create it, with a freshly generated identifier. */
  function BlankStep(id: string): Step {
    Step(id, "", [])
  }

  /** The form as it opens; `id` stands for the generated identifier of its single step. */
  function Initial(id: string): (t: Tutorial)
    ensures t.language == Languages[0] && t.level == Levels[0]
    ensures t.steps == [BlankStep(id)] && t.tags == [] && t.cover.None?
  {
    Tutorial("", "", "Español", "Beginner", [], "", None, [BlankStep(id)])
  }

  function Ids(steps: seq<Step>): (r: seq<string>)
    ensures |r| == |steps| && forall i :: 0 <= i < |steps| ==> r[i] == steps[i].id
  {
    seq(|steps|, i requires 0 <= i < |steps| => steps[i].id)
  }

  // ---------------------------------------------------------------------------
  // Step edits
  // ---------------------------------------------------------------------------

  /** `handleStepChange(id, text)`: every step with that identifier gets the text. */
  function HandleStepChange(steps: seq<Step>, id: string, text: string): (r: seq<Step>)
    ensures |r| == |steps|
    ensures forall i :: 0 <= i < |steps| ==>
              r[i] == (if steps[i].id == id then steps[i].(text := text) else steps[i])
    decreases |steps|
  {
    if |steps| == 0 then []
    else
      [if steps[0].id == id then steps[0].(text := text) else steps[0]]
      + HandleStepChange(steps[1..], id, text)
  }

  /** `handleImageUpload(id, files)`: no file list leaves the steps alone. */
  function HandleImageUpload(steps: seq<Step>, id: string, files: Option<seq<string>>): (r: seq<Step>)
    ensures files.None? ==> r == steps
    ensures |r| == |steps|
    ensures forall i :: 0 <= i < |steps| ==>
              r[i] == (if files.Some? && steps[i].id == id then steps[i].(images := files.value) else steps[i])
    decreases |steps|
  {
    if files.None? || |steps| == 0 then steps
    else
      [if steps[0].id == id then steps[0].(images := files.value) else steps[0]]
      + HandleImageUpload(steps[1..], id, files)
  }

  /** `addStep()`; `id` is the generated identifier. */
  function AddStep(steps: seq<Step>, id: string): (r: seq<Step>)
    ensures |r| == |steps| + 1 && r[..|steps|] == steps && r[|steps|] == BlankStep(id)
  {
    steps + [BlankStep(id)]
  }

  /** `removeStep(id)`: the steps with another identifier, in their order. */
  function RemoveStep(steps: seq<Step>, id: string): (r: seq<Step>)
    ensures forall s :: s in r <==> s in steps && s.id != id
    ensures |r| <= |steps|
    decreases |steps|
  {
    if |steps| == 0 then []
    else if steps[0].id == id then RemoveStep(steps[1..], id)
    else [steps[0]] + RemoveStep(steps[1..], id)
  }

  /** Removal works step by step, so the steps kept stay in their order. */
  lemma {:induction false} RemoveStepAppend(a: seq<Step>, b: seq<Step>, id: string)
    ensures RemoveStep(a + b, id) == RemoveStep(a, id) + RemoveStep(b, id)
    decreases |a|
  {
    if |a| == 0 {
      assert a + b == b;
    } else {
      assert (a + b)[1..] == a[1..] + b;
      RemoveStepAppend(a[1..], b, id);
    }
  }

  /** Removing an identifier no step carries changes nothing. */
  lemma {:induction false} RemoveAbsent(steps: seq<Step>, id: string)
    requires forall i :: 0 <= i < |steps| ==> steps[i].id != id
    ensures RemoveStep(steps, id) == steps
    decreases |steps|
  {
    if |steps| > 0 {
      RemoveAbsent(steps[1..], id);
    }
  }

  /** Removing a step just added, under a fresh identifier, restores the list. */
  lemma RemoveAddedStep(steps: seq<Step>, id: string)
    requires forall i :: 0 <= i < |steps| ==> steps[i].id != id
    ensures RemoveStep(AddStep(steps, id), id) == steps
  {
    RemoveStepAppend(steps, [BlankStep(id)], id);
    RemoveAbsent(steps, id);
  }

  /** Editing a step's text or images keeps every step's identifier and position. */
  lemma EditsKeepIds(steps: seq<Step>, id: string, text: string, files: Option<seq<string>>)
    ensures Ids(HandleStepChange(steps, id, text)) == Ids(steps)
    ensures Ids(HandleImageUpload(steps, id, files)) == Ids(steps)
  {
  }

  // ---------------------------------------------------------------------------
  // Tags
  // ---------------------------------------------------------------------------

  /** No white space at either end. */
  predicate Trimmed(s: string) {
    |s| == 0 || (!IsJsSpace(s[0]) && !IsJsSpace(s[|s| - 1]))
  }

  function TrimAll(xs: seq<string>): (r: seq<string>)
    ensures |r| == |xs| && forall i :: 0 <= i < |xs| ==> r[i] == Trim(xs[i])
  {
    seq(|xs|, i requires 0 <= i < |xs| => Trim(xs[i]))
  }

  /** `handleTagChange(value)`: the pieces between commas, trimmed; never an empty list. */
  function HandleTagChange(value: string): (r: seq<string>)
    ensures |r| == |SplitChar(value, ',')| >= 1
    ensures forall i :: 0 <= i < |r| ==> Trimmed(r[i])
  {
    TrimAll(SplitChar(value, ','))
  }

  /** The text the tag input shows: the tags joined by a comma and a space. */
  function TagsText(tags: seq<string>): string {
    Join(tags, ", ")
  }

  /** An emptied tag input leaves one empty tag, not none. */
  lemma EmptyTagInput()
    ensures HandleTagChange("") == [""]
  {
    assert SplitChar("", ',') == [""];
    assert Trim("") == "";
  }

  /** Each but the first tag, with the space that follows its comma. */
  function Spaced(xs: seq<string>): (r: seq<string>)
    ensures |r| == |xs|
  {
    seq(|xs|, i requires 0 <= i < |xs| => if i == 0 then xs[0] else " " + xs[i])
  }

  lemma PrefixJoin(p: string, xs: seq<string>, sep: string)
    requires |xs| >= 1
    ensures p + Join(xs, sep) == Join([p + xs[0]] + xs[1..], sep)
  {
    var ys := [p + xs[0]] + xs[1..];
    assert ys[1..] == xs[1..];
  }

  /** Joining with `, ` is joining the spaced pieces with `,`. */
  lemma {:induction false} JoinSpaced(xs: seq<string>)
    requires |xs| >= 1
    ensures Join(xs, ", ") == Join(Spaced(xs), ",")
    decreases |xs|
  {
    if |xs| > 1 {
      var tail := xs[1..];
      JoinSpaced(tail);
      PrefixJoin(" ", Spaced(tail), ",");
      assert [" " + Spaced(tail)[0]] + Spaced(tail)[1..] == Spaced(xs)[1..];
      assert Join(xs, ", ") == xs[0] + "," + (" " + Join(tail, ", "));
    }
  }

  lemma TrimOfTrimmed(t: string)
    requires Trimmed(t)
    ensures Trim(t) == t && Trim(" " + t) == t
  {
    assert TrimStart(t) == t;
    assert TrimEnd(t) == t;
    assert (" " + t)[1..] == t;
    assert TrimStart(" " + t) == t;
  }

  /**
   * Typing back the text the input shows gives the same tags, as long as the
   * tags are trimmed, hold no comma, and there is at least one.
   */
  lemma TagsRoundTrip(tags: seq<string>)
    requires |tags| >= 1
    requires forall i :: 0 <= i < |tags| ==> Trimmed(tags[i]) && ',' !in tags[i]
    ensures HandleTagChange(TagsText(tags)) == tags
  {
    var ys := Spaced(tags);
    JoinSpaced(tags);
    forall i | 0 <= i < |ys|
      ensures ',' !in ys[i]
    {
      if i > 0 {
        assert ys[i] == " " + tags[i];
      }
    }
    SplitJoin(ys, ',');
    forall i | 0 <= i < |tags|
      ensures Trim(ys[i]) == tags[i]
    {
      TrimOfTrimmed(tags[i]);
    }
  }

  // ---------------------------------------------------------------------------
  // The Markdown preview
  // ---------------------------------------------------------------------------

  /** The front matter and the cover image. */
  function Header(title: string, description: string): string {
    "---\nname: " + title + "\ndescription: " + description + "\n---\n\n![cover](assets/cover.webp)\n\n"
  }

  /** Where the `j`-th image of step `n` is expected. */
  function ImagePath(n: nat, j: nat): string {
    "assets/tutorial-id/step-" + NatToString(n) + "-img-" + NatToString(j) + ".webp"
  }

  function ImageLine(n: nat, j: nat): string {
    "![Step " + NatToString(n) + " - image " + NatToString(j) + "](" + ImagePath(n, j) + ")\n\n"
  }

  /** The lines of the first `m` images of step `n`, numbered from 1. */
  function ImageLines(n: nat, m: nat): string {
    if m == 0 then "" else ImageLines(n, m - 1) + ImageLine(n, m)
  }

  function StepHeading(n: nat, text: string): string {
    "## Step " + NatToString(n) + "\n\n" + text + "\n\n"
  }

  function StepSection(n: nat, step: Step): string {
    StepHeading(n, step.text) + ImageLines(n, |step.images|)
  }

  /** The pieces of a text, one after the other. */
  function Concat(xs: seq<string>): string
    decreases |xs|
  {
    if |xs| == 0 then "" else Concat(xs[..|xs| - 1]) + xs[|xs| - 1]
  }

  /** Concatenation of strings regroups freely; the loop proofs below need it spelled out. */
  lemma AppendAssoc(a: string, b: string, c: string)
    ensures (a + b) + c == a + (b + c)
  {
  }

  lemma {:induction false} ConcatAppend(a: seq<string>, b: seq<string>)
    ensures Concat(a + b) == Concat(a) + Concat(b)
    decreases |b|
  {
    if |b| == 0 {
      assert a + b == a;
    } else {
      var last := b[|b| - 1];
      assert (a + b)[..|a + b| - 1] == a + b[..|b| - 1];
      ConcatAppend(a, b[..|b| - 1]);
      AppendAssoc(Concat(a), Concat(b[..|b| - 1]), last);
    }
  }

  /** The sections of `steps`, numbered from `n`. */
  function Sections(steps: seq<Step>, n: nat): (r: seq<string>)
    ensures |r| == |steps|
  {
    seq(|steps|, i requires 0 <= i < |steps| => StepSection(n + i, steps[i]))
  }

  /** The preview, as a reference definition. */
  function Markdown(t: Tutorial): string {
    Header(t.title, t.description) + Concat(Sections(t.steps, 1))
  }

  /** Sections of consecutive lists are numbered consecutively. */
  lemma SectionsAppend(a: seq<Step>, b: seq<Step>, n: nat)
    ensures Concat(Sections(a + b, n)) == Concat(Sections(a, n)) + Concat(Sections(b, n + |a|))
  {
    assert Sections(a + b, n) == Sections(a, n) + Sections(b, n + |a|);
    ConcatAppend(Sections(a, n), Sections(b, n + |a|));
  }

  /** The inner `forEach` of `generateMarkdown`: one line per image of step `n`, in order. */
  method AppendImageLines(content: string, n: nat, images: seq<string>) returns (r: string)
    ensures r == content + ImageLines(n, |images|)
  {
    r := content;
    assert ImageLines(n, 0) == [];
    var idx := 0;
    while idx < |images|
      invariant 0 <= idx <= |images|
      invariant r == content + ImageLines(n, idx)
    {
      var line := ImageLine(n, idx + 1);
      ghost var lines := ImageLines(n, idx);
      assert ImageLines(n, idx + 1) == lines + line;
      AppendAssoc(content, lines, line);
      r := r + line;
      idx := idx + 1;
    }
  }

  lemma AppendAssoc4(a: string, b: string, c: string, d: string)
    ensures ((a + b) + c) + d == a + (b + (c + d))
  {
  }

  /** One more step, one more section at the end. */
  lemma SectionsSnoc(steps: seq<Step>, i: nat)
    requires i < |steps|
    ensures Concat(Sections(steps[..i + 1], 1)) == Concat(Sections(steps[..i], 1)) + StepSection(i + 1, steps[i])
  {
    var next := Sections(steps[..i + 1], 1);
    assert next[..i] == Sections(steps[..i], 1);
  }

  /** The outer `forEach` of `generateMarkdown`, after whatever `head` was written first. */
  method AppendSections(head: string, steps: seq<Step>) returns (content: string)
    ensures content == head + Concat(Sections(steps, 1))
  {
    content := head;
    var i := 0;
    while i < |steps|
      invariant 0 <= i <= |steps|
      invariant content == head + Concat(Sections(steps[..i], 1))
    {
      var step := steps[i];
      ghost var done := Concat(Sections(steps[..i], 1));
      content := AppendImageLines(content + StepHeading(i + 1, step.text), i + 1, step.images);
      AppendAssoc4(head, done, StepHeading(i + 1, step.text), ImageLines(i + 1, |step.images|));
      SectionsSnoc(steps, i);
      i := i + 1;
    }
    assert steps[..|steps|] == steps;
  }

  /** `generateMarkdown()`: the header, then per step its heading and text, then its image lines. */
  method GenerateMarkdown(t: Tutorial) returns (content: string)
    ensures content == Markdown(t)
  {
    content := AppendSections(Header(t.title, t.description), t.steps);
  }

  /** The `k`-th step (from 0) gets section number `k + 1`, between the earlier and the later steps. */
  lemma StepNumbering(steps: seq<Step>, k: nat)
    requires k < |steps|
    ensures Concat(Sections(steps, 1))
         == Concat(Sections(steps[..k], 1)) + StepSection(k + 1, steps[k]) + Concat(Sections(steps[k + 1..], k + 2))
  {
    var front := Sections(steps[..k], 1);
    var back := Sections(steps[k + 1..], k + 2);
    var one := [StepSection(k + 1, steps[k])];
    assert Sections(steps, 1) == front + one + back;
    ConcatAppend(front + one, back);
    ConcatAppend(front, one);
    assert Concat(one) == one[0] by {
      assert one[..0] == [];
    }
  }

  /**
   * The preview reads only the title, the description, the step texts and the
   * number of images per step: language, level, tags, author, cover, step
   * identifiers and the image files themselves do not show.
   */
  lemma PreviewIgnores(t: Tutorial, u: Tutorial)
    requires t.title == u.title && t.description == u.description && |t.steps| == |u.steps|
    requires forall i :: 0 <= i < |t.steps| ==>
               t.steps[i].text == u.steps[i].text && |t.steps[i].images| == |u.steps[i].images|
    ensures Markdown(t) == Markdown(u)
  {
    assert Sections(t.steps, 1) == Sections(u.steps, 1);
  }

  /** A new step adds an empty, image-less section numbered after the last. */
  lemma AddStepSection(t: Tutorial, id: string)
    ensures Markdown(t.(steps := AddStep(t.steps, id))) == Markdown(t) + StepHeading(|t.steps| + 1, "")
  {
    var secs := Sections(AddStep(t.steps, id), 1);
    assert secs[..|t.steps|] == Sections(t.steps, 1);
    assert secs[|t.steps|] == StepHeading(|t.steps| + 1, "") + "";
    AppendAssoc(Header(t.title, t.description), Concat(Sections(t.steps, 1)), secs[|t.steps|]);
  }
}

=== FILE: values.dfy ===
/**
 * The JSON/YAML values the portal passes between the browser, the backend and
 * the content files, with JavaScript's truthiness and `String(...)` rendering.
 */
module Values {
  import opened Wrappers
  import opened Strings

  /** A parsed YAML document node or a JSON request field. Numbers are integers here. */
  datatype Value =
    | Str(s: string)
    | Num(n: int)
    | Bool(b: bool)
    | Null
    | Arr(items: seq<Value>)
    | Obj(fields: map<string, Value>)

  /** A plain object: key order is not modelled. */
  type Object = map<string, Value>

  /**
   * JavaScript truthiness of a defined value: the falsy ones are the empty
   * string, zero, `false` and `null` (`NaN` has no counterpart here).
   */
  predicate Truthy(v: Value): (b: bool)
    ensures !b <==> v == Str("") || v == Num(0) || v == Bool(false) || v == Null
  {
    match v
    case Str(s) => |s| > 0
    case Num(n) => n != 0
    case Bool(b) => b
    case Null => false
    case Arr(_) => true
    case Obj(_) => true
  }

  /** Truthiness of a possibly-undefined value. */
  predicate TruthyOpt(v: Option<Value>) {
    v.Some? && Truthy(v.value)
  }

  /** `o[k]`: `None` is `undefined`. */
  function Field(o: Object, k: string): (r: Option<Value>)
    ensures r.Some? <==> k in o
    ensures r.Some? ==> r.value == o[k]
  {
    if k in o then Some(o[k]) else None
  }

  /** A string field that may be undefined or hold some other kind of value. */
  function TextField(o: Object, k: string): (r: Option<string>)
    ensures r.Some? <==> k in o && o[k].Str?
  {
    if k in o && o[k].Str? then Some(o[k].s) else None
  }

  /** An object literal entry `k: v`: an undefined value leaves the key out (as YAML output does). */
  function Put(o: Object, k: string, v: Option<Value>): (r: Object)
    ensures v.Some? ==> r == o[k := v.value]
    ensures v.None? ==> r == o - {k}
  {
    if v.Some? then o[k := v.value] else o - {k}
  }

  /** `${x}` for a string that may be undefined. */
  function TemplateText(x: Option<string>): string {
    x.GetOr("undefined")
  }

  /** `String(n)` for an integer: a minus sign exactly for a negative one, then digits. */
  function IntToString(n: int): (r: string)
    ensures |r| >= 1 && (r[0] == '-' <==> n < 0)
    ensures n < 0 ==> |r| >= 2 && AllDigits(r[1..])
    ensures n >= 0 ==> AllDigits(r)
  {
    if n < 0 then "-" + NatToString(-n) else NatToString(n)
  }

  /** `String(v)`: arrays join their elements with commas, null elements printing as nothing. */
  function ToText(v: Value): (r: string)
    ensures v.Str? ==> r == v.s
    ensures v.Num? ==> |r| >= 1 && (r[0] == '-' <==> v.n < 0)
    ensures v.Bool? ==> r == (if v.b then "true" else "false")
    ensures v.Null? ==> r == "null"
    ensures v.Obj? ==> r == "[object Object]"
    // `String([])` is empty and a one-element array prints as its element, a null one as empty text
    ensures v.Arr? && |v.items| == 0 ==> r == ""
    ensures v.Arr? && |v.items| == 1 ==> r == (if v.items[0].Null? then "" else ToText(v.items[0]))
  {
    match v
    case Str(s) => s
    case Num(n) => IntToString(n)
    case Bool(b) => if b then "true" else "false"
    case Null => "null"
    case Arr(items) => Join(ElementTexts(items), ",")
    case Obj(_) => "[object Object]"
  }

  function ElementTexts(items: seq<Value>): (r: seq<string>)
    ensures |r| == |items|
    decreases items
  {
    if |items| == 0 then []
    else [if items[0].Null? then "" else ToText(items[0])] + ElementTexts(items[1..])
  }

  // ---------------------------------------------------------------------------
  // `[...].filter(Boolean)`
  // ---------------------------------------------------------------------------

  function CountTruthy(vs: seq<Option<Value>>): nat {
    if |vs| == 0 then 0 else (if TruthyOpt(vs[0]) then 1 else 0) + CountTruthy(vs[1..])
  }

  /** Drops the undefined and falsy entries, keeping the others in order. */
  function Compact(vs: seq<Option<Value>>): (r: seq<Value>)
    ensures |r| == CountTruthy(vs)
    ensures forall k :: 0 <= k < |r| ==> Truthy(r[k])
  {
    if |vs| == 0 then []
    else
      var rest := Compact(vs[1..]);
      if TruthyOpt(vs[0]) then [vs[0].value] + rest else rest
  }

  /** Compaction keeps exactly the truthy entries. */
  lemma {:induction false} CompactMembers(vs: seq<Option<Value>>)
    ensures forall k :: 0 <= k < |vs| && TruthyOpt(vs[k]) ==> vs[k].value in Compact(vs)
    ensures forall v :: v in Compact(vs) ==> Some(v) in vs
    decreases |vs|
  {
    if |vs| > 0 {
      CompactMembers(vs[1..]);
      assert forall k :: 1 <= k < |vs| ==> vs[k] == vs[1..][k - 1];
    }
  }

  /** Compaction works piece by piece, so it keeps the order of the entries it keeps. */
  lemma {:induction false} CompactAppend(a: seq<Option<Value>>, b: seq<Option<Value>>)
    ensures Compact(a + b) == Compact(a) + Compact(b)
    decreases |a|
  {
    if |a| == 0 {
      assert a + b == b;
    } else {
      assert (a + b)[0] == a[0];
      assert (a + b)[1..] == a[1..] + b;
      CompactAppend(a[1..], b);
    }
  }

  lemma CompactSingle(x: Option<Value>)
    ensures Compact([x]) == if TruthyOpt(x) then [x.value] else []
  {
  }

  /** The compaction of a four-entry list, entry by entry. */
  lemma CompactFour(xs: seq<Option<Value>>)
    requires |xs| == 4
    ensures Compact(xs) == Compact([xs[0]]) + Compact([xs[1]]) + Compact([xs[2]]) + Compact([xs[3]])
  {
    CompactCons(xs);
    CompactCons(xs[1..]);
    CompactCons(xs[2..]);
    assert xs[1..][1..] == xs[2..];
    assert xs[2..][1..] == [xs[3]];
    var c0, c1, c2, c3 := Compact([xs[0]]), Compact([xs[1]]), Compact([xs[2]]), Compact([xs[3]]);
    assert Compact(xs) == c0 + (c1 + (c2 + c3));
    ValuesAssoc(c0, c1, c2, c3);
  }

  lemma CompactCons(xs: seq<Option<Value>>)
    requires |xs| > 0
    ensures Compact(xs) == Compact([xs[0]]) + Compact(xs[1..])
  {
    assert xs == [xs[0]] + xs[1..];
    CompactAppend([xs[0]], xs[1..]);
  }

  lemma ValuesAssoc(a: seq<Value>, b: seq<Value>, c: seq<Value>, d: seq<Value>)
    ensures a + (b + (c + d)) == a + b + c + d
  {
  }
}

=== FILE: wrappers.dfy ===
/** Failure-carrying wrappers shared by every module of the model. */
module Wrappers {

  /** A value that may be missing: JavaScript's `undefined` for an absent field. */
  datatype Option<+T> = None | Some(value: T) {

    function GetOr(default: T): T {
      match this
      case Some(v) => v
      case None => default
    }
  }

  /** Either a value or the error an operation throws. */
  datatype Result<+R, +E> = Success(value: R) | Failure(error: E) {

    predicate IsFailure() {
      Failure?
    }

    function PropagateFailure<U>(): Result<U, E>
      requires Failure?
    {
      Failure(error)
    }

    function Extract(): R
      requires Success?
    {
      value
    }
  }
}
